=== FILE: README.md ===
# AnalytiQSurvey core, modelled in Dafny

AnalytiQSurvey is a questionnaire system. A respondent fills in a published
questionnaire whose questions can branch into further questionnaires. The
Flask back end scores the answers, assigns assessment levels by group and
serves statistics. An admin front end edits questions and score bands and
charts the results. This project models the logic of that system as Dafny
datatypes, functions, classes and methods, and proves the properties the code
promises about them:

- `FillEngine` (fill.dfy) models the respondent form of `Fill.tsx`. It covers:
  - the question tree and its pre-order flattening;
  - question numbering;
  - branch resolution on each answer;
  - validation before submitting;
  - the submission payload.
- `FillApi` (fill_api.dfy) models `submit_answers` and the max-score lookup of `get_result` in `questionnaire.py`. It covers:
  - answer validation and scoring;
  - when free text is stored;
  - dimension raw scores;
  - the respondent group;
  - the band lookup.
- `QuestionnaireApi` (questionnaire_api.dfy) models `create_questionnaire`, `add_question` and `update_question`.
- `StatsApi` (stats_api.dfy) models the handlers of `stats.py`:
  - the area counter;
  - level counts;
  - basic questions;
  - the level-by-basic cross table;
  - the submission filters;
  - soft delete.
- `Auth` (auth.dfy) models password rules, the bearer header check, login and `change_password`.
- `LevelConfig` (level_config.dfy) models the score-band overlap checks and the band list of `AssessmentLevelConfig.tsx`.
- `QuestionEditor` (add_question.dfy) models the maximum scores, reordering, option numbering, the exclusive "other" switch and rule-list edits of `AddQuestion.tsx`.
- `QuestionnaireList` (questionnaire_list.dfy) models the parent/child tree, the deleted filter, the expanded rows and the ten-children gate.
- `Areas` (area.dfy) models the region cascader of `areaOptions.ts` and `getAreaNameByCodes`.
- `StatsView` (questionnaire_stats.dfy) models the area × level table, the stacked bar matrix and the CSV export of `QuestionnaireStats.tsx`.
- `SubmissionView` (submission_detail.dfy) models how `SubmissionDetail.tsx` displays an answer.
- `ResultView` (result_view.dfy) models the level colour and the common bar scale of `Result.tsx`.
- `Performance` (performance.dfy) models the request cache, the retry loop and the virtual-scroll window.
- `Records`, `Collections`, `Text` and `Wrappers` hold the table rows of `backend/models.py`, the database handle, and list, string and option helpers.

Database tables are sequences of records inside a `Db` object. A handler that
writes proves that the new tables are a named function of the old ones.

Library calls become function parameters:

- JSON decoding of a stored address;
- the pinyin of a group key;
- password hashing and checking;
- JWT decoding;
- the float weighting of the total score;
- SQL `LIKE`.

Fetch and post results are inputs to the methods that receive them.

## Model

| member | source | states |
|---|---|---|
| FillEngine.FlatLength | front/src/components/Questionnaire/Fill.tsx:63-72 | The flattening holds exactly as many questions as the tree has nodes |
| FillEngine.FlatAppend | front/src/components/Questionnaire/Fill.tsx:63-72 | Flattening two sibling lists one after the other gives the two flattenings concatenated |
| FillEngine.FlatSubtree | front/src/components/Questionnaire/Fill.tsx:63-72 | In the flattening, every node is followed immediately by the flattening of its own branch (pre-order) |
| FillEngine.FlattenQuestions | front/src/components/Questionnaire/Fill.tsx:63-72 | The loop that pushes each node and then its branch returns the pre-order flattening, which has one entry per node |
| FillEngine.FlatSnoc | front/src/components/Questionnaire/Fill.tsx:65-70 | Each further root adds itself and then its branch's flattening to the result |
| FillEngine.RenderQuestions | front/src/components/Questionnaire/Fill.tsx:339-384 | The k-th flattened question is numbered startIndex+k+1; the returned counter is startIndex plus the node count |
| FillEngine.FirstIndexOf | front/src/components/Questionnaire/Fill.tsx:486-487 | `findIndex` gives the first position with that id, or none when no question has it |
| FillEngine.FindQuestionIndex | front/src/components/Questionnaire/Fill.tsx:486-487 | The search loop returns -1 exactly when no flattened question has the id, else the first position that has it |
| FillEngine.FirstRule | front/src/components/Questionnaire/Fill.tsx:491-494 | The rule applied is the first, in declaration order, whose option equals the answer; none when no rule matches |
| FillEngine.FindRule | front/src/components/Questionnaire/Fill.tsx:491-494 | The search loop over the rules finds that same first matching rule |
| FillEngine.ClearAtInfos | front/src/components/Questionnaire/Fill.tsx:496-499 | Clearing the branch of the k-th flattened question removes exactly that question's descendants from the flattening and keeps everything else in order |
| FillEngine.ClearRoot | front/src/components/Questionnaire/Fill.tsx:496-499 | Clearing a root question empties that root's branch and changes no other root |
| FillEngine.ClearAtRootIds | front/src/components/Questionnaire/Fill.tsx:496-499 | Clearing a branch never changes the ids of the roots |
| FillEngine.ReplaceRootBranchFrame | front/src/components/Questionnaire/Fill.tsx:516-526 | Only the first root with the id gets the new branch, wholesale; every other root is unchanged, and nothing changes when no root has the id |
| FillEngine.EmptyBranches | front/src/components/Questionnaire/Fill.tsx:457 | A loaded question list has each question with an empty branch |
| FillEngine.EmptyBranchesFlat | front/src/components/Questionnaire/Fill.tsx:457 | A freshly loaded list flattens to itself |
| FillEngine.ResolveChange | front/src/components/Questionnaire/Fill.tsx:485-547 | The branch resolution after an answer yields the changed tree and the warning given by their reference definitions |
| FillEngine.RootChange | front/src/components/Questionnaire/Fill.tsx:489-547 | Answering a root question replaces its branch with the fetched questions (each with an empty branch) when a matching rule with an access code is fetched, and otherwise leaves its branch empty; other roots are unchanged |
| FillEngine.NestedGetsNoBranch | front/src/components/Questionnaire/Fill.tsx:496-499 | A question that is not a root never receives a fetched branch; at most its own branch is cleared, and an unknown id changes nothing |
| FillEngine.RootPosition | front/src/components/Questionnaire/Fill.tsx:485-486 | A root sits in the flattening right after the subtrees of the roots before it, and `findIndex` finds it there |
| FillEngine.ReanswerReplacesBranch | front/src/components/Questionnaire/Fill.tsx:480-549 | Re-answering a root question with a value no rule matches empties the branch that an earlier answer had attached |
| FillEngine.FirstOther | front/src/components/Questionnaire/Fill.tsx:571 | Only the first option marked "other" is checked; none when no option is marked |
| FillEngine.Validate | front/src/components/Questionnaire/Fill.tsx:561-586 | The check passes exactly when every flattened question has a truthy answer and no chosen first "other" option lacks its text; otherwise it reports the first failing 1-based position, and every earlier question passes |
| FillEngine.OtherTexts | front/src/components/Questionnaire/Fill.tsx:606-614 | The collected other-texts are non-empty and at most one per option |
| FillEngine.OtherTextsExact | front/src/components/Questionnaire/Fill.tsx:606-614 | The other-texts are exactly the non-empty texts typed for the selected "other" options, in option order: each text occurs as often as there are such options carrying it |
| FillEngine.OtherTextsSound | front/src/components/Questionnaire/Fill.tsx:608-614 | Each collected text is the non-empty text of a selected "other" option of that question |
| FillEngine.OtherTextsNone | front/src/components/Questionnaire/Fill.tsx:608-618 | Without a selected "other" option nothing is collected, so the text sent is null |
| FillEngine.BuildPayload | front/src/components/Questionnaire/Fill.tsx:591-626 | One record per flattened question, in the same order and with the same question id; the record's shape follows the question type. A single-choice record carries the non-empty text typed for that question, else none; a multiple-choice record carries the other-texts joined with commas, or none when there are none |
| FillEngine.FillForm.LoadRoot | front/src/components/Questionnaire/Fill.tsx:452-464 | A loaded questionnaire becomes the root list with empty branches; a failed load empties it; an aborted load changes nothing |
| FillEngine.FillForm.HandleChange | front/src/components/Questionnaire/Fill.tsx:480-549 | Preview mode changes nothing. Otherwise the answer for that id is overwritten and all other answers stay, and the tree and warning are those of the branch resolution |
| FillEngine.FillForm.HandleOtherInput | front/src/components/Questionnaire/Fill.tsx:552-555 | Preview mode changes nothing; otherwise only that key's other-text is set |
| FillEngine.FillForm.HandleSubmit | front/src/components/Questionnaire/Fill.tsx:558-647 | Preview mode or an earlier submit does nothing. A failed check sends nothing. A passing check sends the payload of the flattened tree. The form navigates only to a non-zero submission id, and the submitted flag is reset on a failed or id-less post |
| FillApi.RequestedQuestions | backend/api/questionnaire.py:982-983 | Every question id the payload carries is in the question query |
| FillApi.QuestionsById | backend/api/questionnaire.py:983 | The question map holds exactly the live questions whose ids were requested, each under its own id |
| FillApi.OptionsById | backend/api/questionnaire.py:992 | The option map holds exactly the live options whose ids were requested, each under its own id |
| FillApi.RequestedCovers | backend/api/questionnaire.py:1000-1036 | The corrected option query covers the single-choice id and every id a multiple choice selects |
| FillApi.RequestedOptions | backend/api/questionnaire.py:986-992 | (corrected query) The option query over the payload includes every id each answer requests, including each id a comma-separated string lists |
| FillApi.ParsePieces | backend/api/questionnaire.py:1022 | Blank pieces are skipped, so there are at most as many ids as pieces; a piece that is not an integer is an error |
| FillApi.SelectedCommaJoin | backend/api/questionnaire.py:1021-1022 | A string answer that lists ids separated by commas selects exactly those ids (parse after print round trip) |
| FillApi.SelectedTotal | backend/api/questionnaire.py:1025-1029 | The sum over the selected ids succeeds exactly when every id has a fetched option; otherwise the error is a missing option |
| FillApi.SelectedTotalFirstMissing | backend/api/questionnaire.py:1025-1028 | The error names the first selected id that has no option |
| FillApi.SumSelected | backend/api/questionnaire.py:1025-1029 | The loop over the selected ids computes that reference sum or error |
| FillApi.AnswerValue | backend/api/questionnaire.py:1014-1036 | A value computation fails only on a missing option or a piece that is not an integer |
| FillApi.ScoreOne | backend/api/questionnaire.py:994-1073 | An answer is skipped exactly when its question is unknown or deleted. A stored row belongs to the submission and the answer's question. The empty-id error needs a question with id 0. An answer to a known live question other than 0 with no option id, text or list is rejected with 答案不能为空, and only such an answer is |
| FillApi.StoredText | backend/api/questionnaire.py:1040-1063 | Text is stored only for a multiple choice selecting an "other" option, a single choice on an "other" option, or a text question; an address answer stores only its text |
| FillApi.StoredValue | backend/api/questionnaire.py:1016-1072 | A stored multiple choice scores the sum of its selected options; a single choice scores its option's value, or 0 with no option |
| FillApi.ScoreAnswer | backend/api/questionnaire.py:994-1073 | The loop body for one answer agrees with the reference outcome |
| FillApi.ScoreAll | backend/api/questionnaire.py:994-1073 | The sheet is accepted exactly when no answer is rejected; it then stores one row per known question, each in this submission |
| FillApi.ScoreAllFirstRejection | backend/api/questionnaire.py:994-1036 | A rejected sheet carries the error of its first rejected answer |
| FillApi.ScoreAnswers | backend/api/questionnaire.py:994-1073 | The answer loop computes that reference outcome |
| FillApi.DimensionById | backend/api/questionnaire.py:1084 | The dimension lookup by primary key finds the row with that id, or reports that none has it |
| FillApi.RawScoresAreSums | backend/api/questionnaire.py:1079-1087 | A dimension has a raw score exactly when some stored row scores into it, the score is the sum of those rows' values, and the basic information dimension never has one |
| FillApi.DimensionScores | backend/api/questionnaire.py:1079-1087 | The loop that fills `raw_dim_scores` computes those sums |
| FillApi.BasicDimension | backend/api/questionnaire.py:1103-1106 | The questionnaire's basic information dimension, or none when it has none |
| FillApi.GroupKey | backend/api/questionnaire.py:1108-1134 | No basic dimension, no group. Otherwise the group comes from the first answer that decides it: a single-choice basic question mentioning 科室 with a truthy answer naming a fetched option |
| FillApi.FindGroupKey | backend/api/questionnaire.py:1111-1126 | The loop that breaks at the first deciding answer computes that group key |
| FillApi.ChooseLevel | backend/api/questionnaire.py:1150-1157 | The band found covers the score. It prefers the group's band when one covers, and is otherwise ungrouped. It is none exactly when no eligible band covers the score |
| FillApi.HighestBand | backend/api/questionnaire.py:1350-1363 | Ordering by descending max score and taking the first gives a live band of the scope and group with the largest upper bound |
| FillApi.MaxScore | backend/api/questionnaire.py:1343-1401 | The reported max score is the group's largest upper bound, else the ungrouped one, else 100 |
| FillApi.ReportedDimensions | backend/api/questionnaire.py:1326-1375 | Only live, answered dimensions of the questionnaire other than basic information are reported, each with its max score |
| FillApi.ReportedDimensionsExact | backend/api/questionnaire.py:1326-1375 | The report lists the reported dimensions in the order the query returns them, one entry per dimension, each with its max score |
| FillApi.ReportedDimensionsComplete | backend/api/questionnaire.py:1326-1375 | Every live, answered dimension of the questionnaire other than basic information is reported with its max score |
| FillApi.ReportedOnce | backend/api/questionnaire.py:1326-1375 | With distinct dimension ids, no dimension is reported twice |
| FillApi.FindPublished | backend/api/questionnaire.py:961-964 | The questionnaire with that access code that is published, or none |
| FillApi.Submit | backend/api/questionnaire.py:943-1212 | (corrected query) An empty sheet is a 400. An unknown or unpublished code is a 500 (the 404 is caught by the handler). Success gives a live submission of that questionnaire with the next id, whose rows all point to it |
| FillApi.SubmitAnswers | backend/api/questionnaire.py:943-1237 | (corrected query) On success the submission and its rows are appended; on any error the tables are unchanged |
| FillApi.Record | backend/api/questionnaire.py:967-976 | The commit appends the submission and its rows and takes one id |
| FillApi.CommaAnswerRejectedAsWritten | backend/api/questionnaire.py:986-1028 | As written, a multiple choice sent as "3,4" over two live options is rejected |
| FillApi.CommaAnswerScored | backend/api/questionnaire.py:1016-1029 | With the corrected query, a comma-separated answer of live ids is scored as the sum of their options |
| QuestionnaireApi.CreateQuestionnaire | backend/api/questionnaire.py:52-108 | A missing title or description is a 400 and changes nothing. Otherwise a questionnaire is added that is published exactly when it has a parent, and a root questionnaire also gets a weight-0 basic information dimension |
| QuestionnaireApi.MaxLiveOrder | backend/api/questionnaire.py:461-463 | The largest order among the questionnaire's live questions, or none when it has none |
| QuestionnaireApi.NextOrder | backend/api/questionnaire.py:461-470 | A new question's order is that maximum (0 when absent) plus one |
| QuestionnaireApi.NextOrderIsLast | backend/api/questionnaire.py:470 | The new order is larger than that of every live question, so the question goes last |
| QuestionnaireApi.NewOptions | backend/api/questionnaire.py:480-489 | One live option of the question per input, with fresh ids |
| QuestionnaireApi.NewOptionsShape | backend/api/questionnaire.py:480-489 | The options follow the input order, with consecutive ids, and each has its input's text, stored value and "other" flag |
| QuestionnaireApi.RemapRules | backend/api/questionnaire.py:492-502 | No rule is added by the remapping |
| QuestionnaireApi.RemapUsesGivenIds | backend/api/questionnaire.py:492-502 | Every kept rule points to one of the new option ids |
| QuestionnaireApi.MapRules | backend/api/questionnaire.py:492-502 | The rule loop computes that remapping |
| QuestionnaireApi.RemapKeepsResolved | backend/api/questionnaire.py:493-495 | When every rule's index has an option, each rule is kept, in order, mapped to the id of the option at its index |
| QuestionnaireApi.RemapDropsUnresolved | backend/api/questionnaire.py:494-495 | Rules whose index has no option are dropped silently |
| QuestionnaireApi.NewRulesShape | backend/api/questionnaire.py:496-501 | Each new rule row is live, has a consecutive fresh id, and carries the questionnaire, the question, the mapped option and the target |
| QuestionnaireApi.WithQuestion | backend/api/questionnaire.py:461-476 | Adding the question appends one row with the next order and takes one id; nothing else changes |
| QuestionnaireApi.StoreOptionsAndRules | backend/api/questionnaire.py:478-502 | The options and the remapped rules are appended |
| QuestionnaireApi.AddQuestion | backend/api/questionnaire.py:437-520 | A missing text or type is a 400 and changes nothing. When a stored rule has no target or a target that is not a questionnaire, the commit fails: a 500 and nothing changes. Otherwise the question, its options and its remapped rules are added and the new id is returned |
| QuestionnaireApi.UnsetTargetRefused | backend/api/questionnaire.py:491-502 | A rule whose option index resolves but whose target is null makes the add fail with a 500 |
| QuestionnaireApi.StoredRuleTarget | backend/api/questionnaire.py:491-501 | Each rule whose option index resolves is stored with its own target |
| QuestionnaireApi.RemapContains | backend/api/questionnaire.py:491-495 | Each rule whose option index resolves is kept by the remapping |
| QuestionnaireApi.AddedRulesUseNewOptions | backend/api/questionnaire.py:479-502 | Every rule added points to an option created for the same question |
| QuestionnaireApi.FindQuestion | backend/api/questionnaire.py:593-597 | The live question with that id in that questionnaire, or none |
| QuestionnaireApi.DropOptions | backend/api/questionnaire.py:608 | Deleting keeps only rows that are not live options of the question |
| QuestionnaireApi.DropRules | backend/api/questionnaire.py:622 | Deleting keeps only rows that are not live rules of the question |
| QuestionnaireApi.UpdateQuestion | backend/api/questionnaire.py:589-649 | An unknown question is a 500 and changes nothing. When options are sent and some rule row, live or soft-deleted, refers to one of the question's live options, the option delete is refused by the foreign key: a 500 and nothing changes. When a replacement rule has no target or a target that is not a questionnaire, the commit fails: a 500 and nothing changes. Otherwise the fields are updated, and options and rules are replaced only when the request sends them |
| QuestionnaireApi.ReplaceOptions | backend/api/questionnaire.py:607-618 | Refused, with nothing changed, exactly when a rule row refers to one of the question's live options; otherwise the live options are replaced by the new ones |
| QuestionnaireApi.ReplaceRules | backend/api/questionnaire.py:621-637 | The question's live rules are replaced by rules remapped against its current live options |
| QuestionnaireApi.UpdateRemapsAgainstNewOptions | backend/api/questionnaire.py:625-626 | After replacing the options, the live option ids read back are exactly the new ones, in order |
| StatsApi.AreaOf | backend/api/stats.py:72-74 | An answer's area is a non-empty list that its text decodes to |
| StatsApi.AreaKey | backend/api/stats.py:69-75 | A counter key exists only for an answer with text |
| StatsApi.CountAreas | backend/api/stats.py:67-79 | The counter loop builds the tally of the answers' area keys |
| StatsApi.AreaCounts | backend/api/stats.py:67-79 | Each area key appears once, with the number of live answers under it, and the counts add up to the number of answers with a key |
| StatsApi.LevelStatsCounts | backend/api/stats.py:149-158 | Each level appears once, with the number of live submissions that have it; the counts add up to the submissions with a level |
| StatsApi.BasicQuestionsExact | backend/api/stats.py:177-203 | Without a basic dimension the list is empty; otherwise it holds exactly the basic dimension's questions that some branch rule hangs on |
| StatsApi.AllBasicQuestionsOrdered | backend/api/stats.py:223-243 | The list holds exactly the live questions of the basic dimension, in ascending order |
| StatsApi.Label | backend/api/stats.py:293-309 | A label is never empty. An answer with no text and no truthy option has none. An address answer is labelled only when its area decodes |
| StatsApi.LabelPrecedence | backend/api/stats.py:295-309 | An address answer with text is labelled by its area path joined with '/', or not at all when the text decodes to no area; otherwise a truthy option id gives the option's non-empty text or no label; otherwise the text answer when given |
| StatsApi.LevelByBasic | backend/api/stats.py:263-327 | A missing question is a 500 (the 404 is caught); otherwise the reply is the cross counter of that question |
| StatsApi.CrossStatsCounts | backend/api/stats.py:290-311 | Each (level, label) pair appears once with the number of labelled answers under it, and the counts add up to the number of labelled answers |
| StatsApi.GetArgIsFirst | backend/api/stats.py:336-342 | `get` is the first of the values `getlist` returns |
| StatsApi.CommaSplitUnreachable | backend/api/stats.py:338-344 | The codes are the repeated parameter, else the bracketed one; the comma split never applies, because `get` finds nothing whenever `getlist` is empty |
| StatsApi.OptionIdOf | backend/api/stats.py:387-390 | A value that is not an integer reads as option id -1 |
| StatsApi.ChooseFilter | backend/api/stats.py:350-394 | A failing `int(basic_question_id)` is a 500; an area filter carries the non-empty requested codes |
| StatsApi.AreaMatch | backend/api/stats.py:367 | A stored area matches exactly when the requested codes are a prefix of it |
| StatsApi.MatchedIdsExact | backend/api/stats.py:354-372 | A submission id is gathered exactly when one of its answers to the question has a decoded area starting with the codes |
| StatsApi.GatherMatches | backend/api/stats.py:354-372 | The loop over the answers gathers exactly those ids |
| StatsApi.GetSubmissions | backend/api/stats.py:331-412 | A bad filter is a 500; otherwise the reply is the filtered list of live submissions |
| StatsApi.ListedExact | backend/api/stats.py:348-396 | The list holds exactly the live submissions of the questionnaire that pass the filter, newest id first |
| StatsApi.NothingSelected | backend/api/stats.py:374-378 | When nothing matches, the list is empty |
| StatsApi.AreaFilterExact | backend/api/stats.py:352-378 | With an area filter, the list holds exactly the live submissions with a matching answer |
| StatsApi.NonIntegerValueListsNothing | backend/api/stats.py:386-394 | A value that is not an integer lists nothing, since no answer has option id -1 |
| StatsApi.SoftDeleted | backend/api/stats.py:426 | Only the deleted flag of that row is set |
| StatsApi.DeleteSubmission | backend/api/stats.py:416-432 | A missing submission is a 404 and changes nothing; otherwise only its deleted flag is set |
| StatsApi.DeleteHides | backend/api/stats.py:416-432 | After the delete, the live submissions are the earlier ones minus the deleted id |
| StatsApi.DeleteIdempotent | backend/api/stats.py:419-427 | Deleting again finds the same row and changes nothing more |
| Auth.Search | backend/api/auth.py:29-31 | `re.search` with a one-character class finds a match exactly when some character is in the class |
| Auth.ValidatePassword | backend/api/auth.py:25-33 | Accepted exactly when the length is 6 to 20, with an ASCII letter and an ASCII digit; the message is that of the first failing check, in the order length, letter, digit |
| Auth.PasswordMessagesDistinct | backend/api/auth.py:28-33 | Each verdict has its own message |
| Auth.BearerToken | backend/api/auth.py:57-77 | A missing header is 'Token is missing'. The header must split on Python whitespace into exactly two words, the first 'Bearer', or it is 'Invalid token format'. The token is the second word |
| Auth.BearerRoundTrip | backend/api/auth.py:66-77 | The header "Bearer " + token gives the token back |
| Auth.AdminById | backend/api/auth.py:87 | The administrator with that id, or none |
| Auth.Authenticate | backend/api/auth.py:57-103 | Header errors come first. For a well-formed header, access is granted exactly when the token decodes to the id of an existing administrator; otherwise the message names the cause: no id, expired, invalid, or no such administrator |
| Auth.AdminByName | backend/api/auth.py:117 | The administrator with that user name, or none |
| Auth.Login | backend/api/auth.py:108-140 | Login succeeds only for an existing user whose hash accepts the sent password; an existing user without a password is a 500, raised by the hash check; any other failure is the 401 '用户名或密码错误' |
| Auth.LoginAccepts | backend/api/auth.py:117-129 | With unique user names, login succeeds exactly when a password is sent and the named user's hash accepts it, and is a 500 exactly when the named user exists and no password is sent |
| Auth.PasswordReply | backend/api/auth.py:159-174 | The checks run in the order: missing field, wrong old password, weak new password. The reply is 200 exactly when all pass |
| Auth.Admin.ChangePassword | backend/api/auth.py:149-174 | The hash becomes the new password's hash only on a 200 and is unchanged otherwise |
| LevelConfig.OverlapsMeansSharedScore | front/src/components/Admin/AssessmentLevelConfig.tsx:179 | Two valid bands overlap exactly when some score lies in both, so touching ends such as [0,60] and [60,70] conflict |
| LevelConfig.OverlapCheck | front/src/components/Admin/AssessmentLevelConfig.tsx:149-186 | An inverted range is reported exactly when min > max (min = max is allowed); a conflict names a comparable band |
| LevelConfig.OverlapCheckPasses | front/src/components/Admin/AssessmentLevelConfig.tsx:149-186 | The check passes exactly when min ≤ max and no comparable band (same group; in dimension mode the form's dimension equals the band's by `===`: one not yet chosen matches no band, a cleared (null) one matches the bands without a dimension; in total mode no dimension; not the edited one) overlaps |
| LevelConfig.CheckScoreOverlap | front/src/components/Admin/AssessmentLevelConfig.tsx:160-185 | The filter-and-search loop returns at the first overlap, matching the reference check |
| LevelConfig.LevelEditor.RealTimeError | front/src/components/Admin/AssessmentLevelConfig.tsx:189-236 | The message is cleared when min or max is falsy (0 included), or when no group is chosen and the range is valid; otherwise it is the inverted-range message or the conflict with a comparable band, compared by `===` so an unchosen dimension matches no band |
| LevelConfig.LevelEditor.CheckRealTime | front/src/components/Admin/AssessmentLevelConfig.tsx:189-236 | Only the error message changes, and it becomes the real-time message |
| LevelConfig.LevelEditor.RealTimeAgreesWithSave | front/src/components/Admin/AssessmentLevelConfig.tsx:189-236 | With non-zero scores and a group, the real-time check warns exactly when the save-time check fails |
| LevelConfig.LevelEditor.HandleAdd | front/src/components/Admin/AssessmentLevelConfig.tsx:112-119 | Nothing is edited, the type is total, the form's dimension is unset, the group is the list's, and the error is cleared |
| LevelConfig.LevelEditor.HandleEdit | front/src/components/Admin/AssessmentLevelConfig.tsx:121-131 | The band is edited; the type is dimension exactly when its dimension id is truthy; the form's dimension is the band's id, or cleared (null) when it has none |
| LevelConfig.LevelEditor.UnsetDimensionNoConflict | front/src/components/Admin/AssessmentLevelConfig.tsx:204-218 | In dimension mode before a dimension is chosen, the real-time check reports no overlap, only an inverted range |
| LevelConfig.FilteredLevelsExact | front/src/components/Admin/AssessmentLevelConfig.tsx:321-329 | The list is sorted by id, largest first. It holds exactly the bands the dimension choice admits: 'none' admits only bands without a dimension, '' admits all |
| QuestionEditor.ScoreMax | front/src/components/Admin/AddQuestion.tsx:82 | `Math.max` over the option scores is one of them and at least every other |
| QuestionEditor.QuestionMaxScore | front/src/components/Admin/AddQuestion.tsx:75-89 | The max score is 0 without options or for other types, the largest option for single choice, and the sum for multiple choice |
| QuestionEditor.MultipleMaxBoundsEveryChoice | front/src/components/Admin/AddQuestion.tsx:83-85 | With non-negative values, no set of ticked options scores more than the sum, and ticking all reaches it |
| QuestionEditor.DimensionMaxAddQuestion | front/src/components/Admin/AddQuestion.tsx:92-96 | A dimension's max score grows by a new question's max exactly when the question is in that dimension |
| QuestionEditor.DimensionMaxIgnoresOthers | front/src/components/Admin/AddQuestion.tsx:92-96 | Questions outside the dimension contribute nothing |
| QuestionEditor.Renumbered | front/src/components/Admin/AddQuestion.tsx:216 | Every entry's order becomes its position; nothing else changes |
| QuestionEditor.MoveSwaps | front/src/components/Admin/AddQuestion.tsx:208-216 | A move is a permutation that exchanges the two entries, leaves the others in place and renumbers every order to its index |
| QuestionEditor.QuestionList.HandleMove | front/src/components/Admin/AddQuestion.tsx:208-222 | Nothing happens while loading or when the target is out of range. Otherwise the list is the swapped and renumbered copy, and the orders sent pair each id with its new index |
| QuestionEditor.SwapAndRenumber | front/src/components/Admin/AddQuestion.tsx:210-216 | The swap on the copied array followed by the `forEach` renumbering gives the swapped, renumbered list |
| QuestionEditor.NumberOptions | front/src/components/Admin/AddQuestion.tsx:130-134 | Option i gets the id i+1, and everything else is kept |
| QuestionEditor.NumberedIdsDistinct | front/src/components/Admin/AddQuestion.tsx:130-134 | The ids handed out are distinct |
| QuestionEditor.SwitchOther | front/src/components/Admin/AddQuestion.tsx:328-345 | Switching on sets "other" on that option and clears it on every other option. Switching off clears it on that option only, through the checkbox binding, and leaves the others alone |
| QuestionEditor.SwitchOtherExclusive | front/src/components/Admin/AddQuestion.tsx:336-343 | Afterwards that option is the only one taking free text |
| QuestionEditor.AddRule | front/src/components/Admin/AddQuestion.tsx:145 | Adding appends one empty rule and keeps the others |
| QuestionEditor.RemoveRule | front/src/components/Admin/AddQuestion.tsx:146 | Removing deletes only the rule at that index; an index out of range changes nothing |
| QuestionEditor.UpdateRule | front/src/components/Admin/AddQuestion.tsx:137-143 | Only the named field of the rule at that index changes |
| QuestionEditor.RemoveUndoesAdd | front/src/components/Admin/AddQuestion.tsx:145-146 | Adding a rule and then removing it gives the list back |
| QuestionnaireList.ChildrenSnoc | front/src/components/Admin/QuestionnaireList.tsx:36-39 | One more item adds itself to the end of its parent's children and to no other list |
| QuestionnaireList.Node.constructor | front/src/components/Admin/QuestionnaireList.tsx:34 | A node is a fresh copy with no children |
| QuestionnaireList.IndexNodes | front/src/components/Admin/QuestionnaireList.tsx:33-34 | The map holds one fresh, childless node per item, under the item's id, and distinct ids get distinct nodes |
| QuestionnaireList.Attach | front/src/components/Admin/QuestionnaireList.tsx:36-42 | Placing one more item keeps the roots and every children list equal to those of the items so far |
| QuestionnaireList.BuildTree | front/src/components/Admin/QuestionnaireList.tsx:32-44 | The roots are exactly the items without a parent, in input order; each node's children are exactly the items naming it as parent, in input order |
| QuestionnaireList.OrphanDropped | front/src/components/Admin/QuestionnaireList.tsx:38 | An item whose parent is not in the list is neither a root nor anyone's child |
| QuestionnaireList.ExpandedExact | front/src/components/Admin/QuestionnaireList.tsx:96-98 | The expanded keys are exactly the ids of the roots with children |
| QuestionnaireList.ExpandedKeys | front/src/components/Admin/QuestionnaireList.tsx:95-100 | The filter-and-map over the built tree gives those keys |
| QuestionnaireList.AddChildKeepsAtMostTen | front/src/components/Admin/QuestionnaireList.tsx:157-166 | Adding a child through the shown button leaves at most ten children |
| QuestionnaireList.ListPage.FetchList | front/src/components/Admin/QuestionnaireList.tsx:46-67 | A failed fetch empties everything. A successful one keeps the questionnaires not deleted, and the tree and expanded keys are built from them |
| Areas.ConvertEntry | front/src/components/Questionnaire/areaOptions.ts:15-30 | A node carries its entry's code and name; a county has no children |
| Areas.Convert | front/src/components/Questionnaire/areaOptions.ts:13-31 | One node per entry, in entry order, with the entry's code and name |
| Areas.ChildrenByPrefix | front/src/components/Questionnaire/areaOptions.ts:17-25 | A province's children are exactly the cities sharing its first two characters, and a city's the counties sharing its first four, in table order; a county has none |
| Areas.CityUnderProvince | front/src/components/Questionnaire/areaOptions.ts:19-20 | Every city under a province carries the province's two-character prefix |
| Areas.AreaOptionsCache.GetAreaOptions | front/src/components/Questionnaire/areaOptions.ts:35-40 | The tree is converted on the first call and the cached value is returned afterwards; every call returns the converted table |
| Areas.AreaName | front/src/components/Admin/QuestionnaireStats.tsx:52-62 | The walk down the tree joins, with '/', the labels found along the codes, stopping at the first unknown code |
| Areas.AreaNameSegments | front/src/components/Admin/SubmissionDetail.tsx:23-33 | With labels free of '/', the name splits back into the labels found, so it has no more segments than codes |
| Areas.FullPathNamed | front/src/components/Admin/QuestionnaireStats.tsx:52-62 | A province, city and county code path names all three labels |
| Collections.Take | front/src/components/Admin/QuestionnaireStats.tsx:338-339 | `slice(0, n)` is a prefix of the list, of exactly n elements when the list has that many, else the whole list |
| StatsView.CountsFor | front/src/components/Admin/QuestionnaireStats.tsx:348-350 | A row has one count per listed level: its cell, or 0 |
| StatsView.CountAreaLevels | front/src/components/Admin/QuestionnaireStats.tsx:334-343 | The counter loop builds the areas in order of first appearance and the per-area, per-level tallies |
| StatsView.AggregateAreaLevelStats | front/src/components/Admin/QuestionnaireStats.tsx:327-354 | The method computes the reference aggregate |
| StatsView.BuildRows | front/src/components/Admin/QuestionnaireStats.tsx:346-352 | One named row per area, in area order |
| StatsView.NoQuestionNoTable | front/src/components/Admin/QuestionnaireStats.tsx:328 | Without a chosen question (or with the falsy id 0) the table is empty |
| StatsView.LevelListExact | front/src/components/Admin/QuestionnaireStats.tsx:329-332 | The level columns are the chosen question's levels, each once |
| StatsView.AreaLevelColumns | front/src/components/Admin/QuestionnaireStats.tsx:329-352 | The areas are distinct, and an area is listed exactly when some selected row has a non-empty key for it. Each row has one count per level |
| StatsView.AreaLevelRowSum | front/src/components/Admin/QuestionnaireStats.tsx:341-352 | Each row's counts add up to the number of selected rows grouped under that area |
| StatsView.CrossRows | backend/api/stats.py:313-321 | The reply has one entry per counter key, in counter order |
| StatsView.BarOption | front/src/components/Admin/QuestionnaireStats.tsx:193-213 | A chart exists exactly when the reply is non-empty, with one series per level and one segment per option |
| StatsView.BarCellIsCount | front/src/components/Admin/QuestionnaireStats.tsx:206-208 | Each cell is the count of its (level, option) entry, or 0 |
| StatsView.BarSegmentsCountAnswers | front/src/components/Admin/QuestionnaireStats.tsx:206-208 | A bar segment is the number of labelled answers with that level and label |
| StatsView.BarAxes | front/src/components/Admin/QuestionnaireStats.tsx:195-196 | The axes list every level and every option of the reply, each once |
| StatsView.CsvRows | front/src/components/Admin/QuestionnaireStats.tsx:383 | Each row is its record's values joined by ',' |
| StatsView.ExportAsWritten | front/src/components/Admin/QuestionnaireStats.tsx:380-392 | As written, the export throws exactly on an empty answer list; without statistics nothing is exported |
| StatsView.Export | front/src/components/Admin/QuestionnaireStats.tsx:380-392 | (corrected) Export never throws; with no statistics, or no answers, nothing is exported |
| StatsView.ExportDiffersOnlyWhenEmpty | front/src/components/Admin/QuestionnaireStats.tsx:381-382 | The code as written and the corrected export agree except on an empty answer list, where the former throws |
| StatsView.CsvLines | front/src/components/Admin/QuestionnaireStats.tsx:382-384 | With values free of newlines, the file's lines are the header of the first record's keys and then one line per record |
| SubmissionView.OrElse | front/src/components/Admin/SubmissionDetail.tsx:96-102 | JavaScript's or-operator on strings gives the first when it is non-empty, else the fallback |
| SubmissionView.Show | front/src/components/Admin/SubmissionDetail.tsx:79-108 | Only a choice answer has a tag, and the tag is its non-empty fill-in text |
| SubmissionView.NonAddressNeverBlank | front/src/components/Admin/SubmissionDetail.tsx:93-103 | A text or choice answer is never shown blank, and '未填写' appears exactly when nothing else is available |
| SubmissionView.ChoicePrefersOptionText | front/src/components/Admin/SubmissionDetail.tsx:102 | A choice shows its option text, else its raw answer |
| SubmissionView.UnreadableAddress | front/src/components/Admin/SubmissionDetail.tsx:81-86 | An address answer that does not parse shows '-' and nothing more |
| SubmissionView.AddressShown | front/src/components/Admin/SubmissionDetail.tsx:83-90 | A full address shows the region path, then '，' and the detail, and the path splits back into its labels |
| SubmissionView.AddressWithoutDetail | front/src/components/Admin/SubmissionDetail.tsx:89 | Without detail, no '，' part is shown |
| ResultView.ColorFrom | front/src/components/Questionnaire/Result.tsx:43-49 | The colour is that of the first key the level contains, and the default exactly when it contains none |
| ResultView.LevelColor | front/src/components/Questionnaire/Result.tsx:40-50 | An empty level gets the default colour |
| ResultView.LevelColorChoice | front/src/components/Questionnaire/Result.tsx:32-49 | 初级 wins over 中级, which wins over 高级; otherwise the default colour |
| ResultView.GlobalMaxScore | front/src/components/Questionnaire/Result.tsx:369 | The scale is at least 100 and every dimension's max, and equals one of them or 100 |
| Performance.AfterSettleOwn | front/src/utils/performance.ts:19-21 | The corrected callback removes the key only while it holds the request that settled |
| Performance.CallsShareRequest | front/src/utils/performance.ts:13-24 | While a key is pending, later calls get the same promise and change nothing; other keys are untouched |
| Performance.SettleDropsOnlyKey | front/src/utils/performance.ts:19-21 | The callback as written drops its key and leaves every other entry |
| Performance.StaleSettleEvictsNewer | front/src/utils/performance.ts:18-35 | As written, a stale settlement after `delete` and a new request evicts the newer pending request |
| Performance.OwnSettleKeepsNewer | front/src/utils/performance.ts:18-35 | With the corrected callback the newer request stays shared, and its own settlement still removes it |
| Performance.RequestCache.WithDeduplication | front/src/utils/performance.ts:13-25 | A hit returns the stored promise without calling; a miss calls once and stores the result |
| Performance.RequestCache.Settle | front/src/utils/performance.ts:19-21 | (corrected callback) The callback removes the key only while the key still holds its own request |
| Performance.RequestCache.Clear | front/src/utils/performance.ts:28-30 | The cache becomes empty |
| Performance.RequestCache.Delete | front/src/utils/performance.ts:33-35 | Only that key is removed |
| Performance.RetryFrom | front/src/utils/performance.ts:154-173 | At most maxRetries+1 attempts are made. A returned value is the last attempt's success. A thrown error is the last attempt's failure, and it is an abort or comes from the final allowed attempt |
| Performance.RetryRule | front/src/utils/performance.ts:146-177 | The first success is returned. An abort is rethrown without a retry. After maxRetries+1 failures the last error is thrown |
| Performance.SuccessReturned | front/src/utils/performance.ts:154-156 | A success after k retriable failures is returned after k+1 calls |
| Performance.Waits | front/src/utils/performance.ts:171 | The wait after failed call k is delay·(k+1) |
| Performance.WithRetry | front/src/utils/performance.ts:151-176 | The loop's outcome, call count and waits are those of the reference |
| Performance.SliceIndex | front/src/utils/performance.ts:245 | A `slice` index is clamped into the list, and an index already inside is kept |
| Performance.Slice | front/src/utils/performance.ts:245 | For indices in range, `slice` is the sub-list |
| Performance.VirtualWindow | front/src/utils/performance.ts:239-247 | The start is not negative and the end is within the list. The total height is length·height, the offset is start·height, and the items are the slice |
| Performance.WindowCoversViewport | front/src/utils/performance.ts:239-245 | Every item that meets the viewport is in the window |
| Performance.WindowShape | front/src/utils/performance.ts:239-247 | The visible items are the contiguous run from the start index to the end index inclusive, or empty when the start lies past the end; the end index is at least -1 |
| Collections.TallyCounts | backend/api/stats.py:76 | A dictionary counter built by `get(k, 0) + 1` counts each key's occurrences |
| Collections.DedupExact | front/src/components/Admin/QuestionnaireStats.tsx:195-196 | `Array.from(new Set(...))` keeps each value once, in order of first appearance: the result equals `FirstSeen`, which appends each value the first time it is met |
| Text.SplitJoin | backend/api/stats.py:75 | Joining '/'-free codes with '/' and splitting them again gives the codes back |
| Text.ParseShow | backend/api/questionnaire.py:1022 | `int` of a printed integer gives it back |

## Left out

- Floating point: dimension weights, weighted and total scores, averages, rounding and percentages are left out. Option values and raw scores are integers. The level chosen for a total score uses `weigh`, a parameter that stands for the weighted sum. Per-dimension `DimensionScore` rows, which carry float weights, are not written.
- LevelConfig.OverlapCheck: band bounds and entered scores are integers, here and in `FillApi.ChooseLevel`, `FillApi.HighestBand` and `FillApi.MaxScore`. The `min_score` and `max_score` columns are floats (backend/models.py:109-110), and the band editor steps by 0.01. So fractional bands such as [60, 60.5] next to [60.5, 70] are outside the model. The checks only compare bounds, but no contract covers fractional ones. The conflict message would also need JavaScript's number formatting.
- Performance.VirtualWindow: the scroll offset and the heights are integers. A fractional DOM `scrollTop` is not modelled: scrollTop 0.5 with container 100 and item 50 gives an end index of ceil(100.5/50) = 3 before overscan, which no integer input reaches.
- The following calls into libraries are function parameters and are not modelled:
  - `json.loads` and `JSON.parse` of a stored address;
  - `lazy_pinyin`, in the group key;
  - password hashing and checking;
  - `jwt.encode` and `jwt.decode`, including expiry;
  - `uuid` access codes;
  - SQL `LIKE`.
- `change_password` decodes the token a second time. The model starts after that decode, from the administrator it finds.
- `get_questionnaire_overview` is modelled only through its area counter. Its averages are floats.
- `Object.keys` in JavaScript lists integer-like keys first. The area × level table lists areas in insertion order instead.
- `handleMove` assigns `q.order` on objects that the old state array also holds. The model renumbers a copy, so that aliasing is not captured. The reorder POST, the reload and the loading flag it sets are not modelled.
- Network, timers and concurrency are not modelled:
  - `get`/`post` and the axios interceptors;
  - `AbortController`;
  - the `isUnmountedRef` guards;
  - `useDebounce`, `useThrottle`, `BatchRequestProcessor`, `measurePerformance`, `useComputed`.
  Fetch and post outcomes are inputs, and a promise is an opaque handle.
- QuestionnaireList.BuildTree: requires distinct questionnaire ids. They are primary keys, and with a duplicate id the JavaScript map would keep only the last node.
- Database sessions and flush are not modelled. A commit that succeeds is the new tables; a commit the database refuses, and any other failure, rolls back, so the tables stay as they were.
- Message pop-ups, logging and the UI rendering are not modelled: JSX, chart option objects beyond the bar matrix, and form wiring. Only the text of a warning is kept.
- `backend/utils/scoring.py` is not part of this model. It is unused, calls `eval` and reads an attribute the models do not define.
- FillApi.Submit: uses the corrected option query (see Findings). A multiple-choice answer given as a comma-separated string of two or more live option ids is accepted and scored; the code as written rejects the sheet with 400 选项不存在.
- FillApi.SubmitAnswers: uses the corrected option query, so for the same comma-separated answer it appends the submission, with a group key and level from the scored options, where the code as written leaves the tables unchanged.
- FillApi.RequestedOptions: states the corrected query. The query as written asks for the comma-separated string as one value and so misses the ids it lists; FillApi.CommaAnswerRejectedAsWritten shows the consequence.
- Performance.RequestCache.Settle: models the corrected callback. As written, a request that settles after `delete` and a newer request for the same key removes the newer request, and the next call issues a duplicate; Performance.StaleSettleEvictsNewer shows this.
- Auth.ValidatePassword: only ASCII digits count as digits. Python's `\d` also matches other Unicode decimal digits, so a password such as "abcde３" is accepted by the code and rejected by the model.
- Text.ParseInt: reads ASCII digits only. Python's `int()` also accepts other Unicode decimal digits and single underscores between digits ("１２", "1_0"); the model returns None for those.
- QuestionnaireApi.UpdateQuestion: a request without `text` or `type` stores null in a NOT NULL column, so the code answers 500 and rolls back; the model's request always carries both. The foreign-key refusal of the option delete is modelled; the editor greys out editing for questions that have branch rules (front/src/components/Admin/AddQuestion.tsx:493).
- StatsView.Export: models the corrected export. As written, `handleExport` throws on an empty `raw_answers` (`Object.keys` of `undefined`); `StatsView.ExportAsWritten` and `StatsView.ExportDiffersOnlyWhenEmpty` exhibit it.
- QuestionnaireApi.AddQuestion: a missing option text, which the NOT NULL column would refuse at commit, is not modelled; option texts are strings. Of the database constraints only the rule target's NOT NULL and foreign key are modelled.

## Findings

| source | as written | input that shows it | evidently intended | confidence | as-written member | corrected member |
|---|---|---|---|---|---|---|
| backend/api/questionnaire.py:986-1023 | The option prefetch adds a string answer to `Option.id.in_` as a single value. The multiple-choice branch then splits that string on commas and looks up each id | One multiple-choice answer `"3,4"` naming two live options 3 and 4: at most one of them is fetched, so the sheet is rejected with 选项不存在 | Every id a comma-separated answer lists is fetched and scored | medium, not executed | FillApi.CommaAnswerRejectedAsWritten | FillApi.CommaAnswerScored |
| front/src/components/Admin/QuestionnaireStats.tsx:381-382 | Latent: `handleExport` is wired to no element. The guard lets an empty `raw_answers` list through, and `Object.keys(raw_answers[0])` then throws | Statistics with `raw_answers = []` | Export nothing, as when there are no statistics | high, not executed | StatsView.ExportDiffersOnlyWhenEmpty | StatsView.Export |
| front/src/utils/performance.ts:18-35 | Latent: `RequestCache.delete` and `clear` have no callers. The `.finally` callback deletes whatever the key holds | Request 1 for key k is pending; `delete(k)`; request 2 for k is stored; request 1 settles. Key k is now gone while request 2 is still pending, so the next call issues a duplicate request | Remove the key only while it still holds the request that settled | medium, not executed | Performance.StaleSettleEvictsNewer | Performance.OwnSettleKeepsNewer |

=== FILE: add_question.dfy ===
/**
 * The question editor of one questionnaire
 * (front/src/components/Admin/AddQuestion.tsx): the maximum scores shown
 * next to each question and dimension, moving a question up or down, and
 * the edits of the option list and of the branch-rule list.
 *
 * An option value the form left empty (`undefined` or `null`) is `None`
 * and counts as 0, as `opt.value || 0` does.
 */
module QuestionEditor {
  import opened Wrappers
  import opened Records
  import opened Collections

  datatype EditorOption = EditorOption(id: int, text: string, value: Option<int>, isOther: bool)

  datatype EditorQuestion = EditorQuestion(
    id: int,
    text: string,
    kind: QuestionKind,
    dimensionId: Option<int>,
    options: seq<EditorOption>,
    order: int)

  // ---------------------------------------------------------------------
  // Maximum scores (`calculateQuestionMaxScore`, `calculateDimensionMaxScore`)
  // ---------------------------------------------------------------------

  /** `opt.value || 0` */
  function OptionScore(o: EditorOption): int
  {
    o.value.GetOr(0)
  }

  /** The sum of the option scores, `reduce((sum, opt) => sum + (opt.value || 0), 0)`. */
  function ScoreSum(opts: seq<EditorOption>): int
  {
    if opts == [] then 0 else ScoreSum(opts[..|opts| - 1]) + OptionScore(opts[|opts| - 1])
  }

  /** `Math.max(...opts.map(opt => opt.value || 0))` on a non-empty list. */
  function ScoreMax(opts: seq<EditorOption>): (m: int)
    requires opts != []
    ensures exists i :: 0 <= i < |opts| && m == OptionScore(opts[i])
    ensures forall i :: 0 <= i < |opts| ==> OptionScore(opts[i]) <= m
  {
    if |opts| == 1 then OptionScore(opts[0])
    else
      var rest := ScoreMax(opts[1..]);
      assert forall i :: 1 <= i < |opts| ==> opts[i] == opts[1..][i - 1];
      if OptionScore(opts[0]) >= rest then OptionScore(opts[0]) else rest
  }

  /** The most a respondent can score on the question. */
  function QuestionMaxScore(q: EditorQuestion): (m: int)
    ensures q.options == [] ==> m == 0
    ensures q.kind !in {SingleKind, MultipleKind} ==> m == 0
    ensures q.kind == SingleKind && q.options != [] ==>
      (exists i :: 0 <= i < |q.options| && m == OptionScore(q.options[i]))
      && forall i :: 0 <= i < |q.options| ==> OptionScore(q.options[i]) <= m
    ensures q.kind == MultipleKind ==> m == ScoreSum(q.options)
  {
    if q.options == [] then 0
    else if q.kind == SingleKind then ScoreMax(q.options)
    else if q.kind == MultipleKind then ScoreSum(q.options)
    else 0
  }

  /** The score of ticking the options marked in `ticked` (same length as the list). */
  function TickedScore(opts: seq<EditorOption>, ticked: seq<bool>): int
    requires |ticked| == |opts|
  {
    if opts == [] then 0
    else
      var n := |opts| - 1;
      TickedScore(opts[..n], ticked[..n]) + (if ticked[n] then OptionScore(opts[n]) else 0)
  }

  predicate NonNegativeValues(opts: seq<EditorOption>)
  {
    forall i :: 0 <= i < |opts| ==> OptionScore(opts[i]) >= 0
  }

  /**
   * With the non-negative values the form admits, no choice of ticked
   * options scores more than the maximum of a multiple-choice question, and
   * ticking every option reaches it.
   */
  lemma {:induction false} MultipleMaxBoundsEveryChoice(opts: seq<EditorOption>, ticked: seq<bool>)
    requires |ticked| == |opts| && NonNegativeValues(opts)
    ensures TickedScore(opts, ticked) <= ScoreSum(opts)
    ensures (forall i :: 0 <= i < |ticked| ==> ticked[i]) ==> TickedScore(opts, ticked) == ScoreSum(opts)
  {
    if opts != [] {
      var n := |opts| - 1;
      MultipleMaxBoundsEveryChoice(opts[..n], ticked[..n]);
    }
  }

  /** Every question in the dimension: `q.dimension_id === dimensionId`. */
  function InDimension(d: int): EditorQuestion -> bool
  {
    (q: EditorQuestion) => q.dimensionId == Some(d)
  }

  /** The sum of the questions' maximum scores. */
  function MaxScoreSum(qs: seq<EditorQuestion>): int
  {
    if qs == [] then 0 else MaxScoreSum(qs[..|qs| - 1]) + QuestionMaxScore(qs[|qs| - 1])
  }

  /** `calculateDimensionMaxScore` */
  function DimensionMaxScore(qs: seq<EditorQuestion>, d: int): int
  {
    MaxScoreSum(Filter(qs, InDimension(d)))
  }

  /**
   * Adding a question raises its dimension's maximum by the question's own
   * maximum and leaves every other dimension's maximum as it was.
   */
  lemma DimensionMaxAddQuestion(qs: seq<EditorQuestion>, q: EditorQuestion, d: int)
    ensures DimensionMaxScore(qs + [q], d) ==
      DimensionMaxScore(qs, d) + (if q.dimensionId == Some(d) then QuestionMaxScore(q) else 0)
  {
    FilterSnoc(qs, q, InDimension(d));
    var f := Filter(qs, InDimension(d));
    if q.dimensionId == Some(d) {
      assert (f + [q])[..|f + [q]| - 1] == f;
    }
  }

  /** A question outside every dimension is counted in no dimension's maximum. */
  lemma DimensionMaxIgnoresOthers(qs: seq<EditorQuestion>, d: int)
    requires forall i :: 0 <= i < |qs| ==> qs[i].dimensionId != Some(d)
    ensures DimensionMaxScore(qs, d) == 0
  {
    FilterNone(qs, InDimension(d));
  }

  // ---------------------------------------------------------------------
  // Moving a question (`handleMove`)
  // ---------------------------------------------------------------------

  /** The list with entries `i` and `j` exchanged. */
  function Swapped<T>(s: seq<T>, i: int, j: int): seq<T>
    requires 0 <= i < |s| && 0 <= j < |s|
  {
    s[i := s[j]][j := s[i]]
  }

  /** Every entry's `order` set to its position. */
  function Renumbered(qs: seq<EditorQuestion>): (r: seq<EditorQuestion>)
    ensures |r| == |qs|
    ensures forall k :: 0 <= k < |r| ==> r[k] == qs[k].(order := k)
  {
    seq(|qs|, k requires 0 <= k < |qs| => qs[k].(order := k))
  }

  /** The question list after `handleMove(index, direction)` when it is not loading. */
  function Moved(qs: seq<EditorQuestion>, index: int, direction: int): seq<EditorQuestion>
    requires 0 <= index < |qs|
  {
    var target := index + direction;
    if target < 0 || target >= |qs| then qs
    else Renumbered(Swapped(qs, index, target))
  }

  function Ids(qs: seq<EditorQuestion>): (ids: seq<int>)
    ensures |ids| == |qs| && forall k :: 0 <= k < |qs| ==> ids[k] == qs[k].id
  {
    seq(|qs|, k requires 0 <= k < |qs| => qs[k].id)
  }

  /**
   * A move that happens exchanges the two questions and nothing else: the
   * ids are a permutation of the old ones, every order is its new index,
   * and every other question keeps its place and content.
   */
  lemma MoveSwaps(qs: seq<EditorQuestion>, index: int, direction: int)
    requires 0 <= index < |qs|
    requires 0 <= index + direction < |qs|
    ensures |Moved(qs, index, direction)| == |qs|
    ensures multiset(Ids(Moved(qs, index, direction))) == multiset(Ids(qs))
    ensures forall k :: 0 <= k < |qs| ==> Moved(qs, index, direction)[k].order == k
    ensures Moved(qs, index, direction)[index] == qs[index + direction].(order := index)
    ensures Moved(qs, index, direction)[index + direction] == qs[index].(order := index + direction)
    ensures forall k :: 0 <= k < |qs| && k != index && k != index + direction ==>
      Moved(qs, index, direction)[k] == qs[k].(order := k)
  {
    var t := index + direction;
    var s := Swapped(qs, index, t);
    assert Ids(Moved(qs, index, direction)) == Ids(s);
    assert Ids(s) == Ids(qs)[index := qs[t].id][t := qs[index].id];
  }

  /** The editor's question list and its loading flag. */
  class QuestionList {
    var questions: seq<EditorQuestion>
    var loading: bool

    constructor (questions: seq<EditorQuestion>)
      ensures this.questions == questions && !loading
    {
      this.questions := questions;
      loading := false;
    }

    /**
     * `handleMove`: exchange the question at `index` with its neighbour in
     * `direction` and renumber the orders.  `orders` is the body posted to
     * the reorder endpoint, or `None` when the move is refused.
     */
    method HandleMove(index: int, direction: int) returns (orders: Option<seq<(int, int)>>)
      requires 0 <= index < |questions|
      modifies this
      ensures loading == old(loading)
      ensures old(loading) ==> questions == old(questions) && orders.None?
      ensures !old(loading) ==> questions == Moved(old(questions), index, direction)
      ensures orders.None? <==> old(loading) || index + direction < 0 || index + direction >= |old(questions)|
      ensures orders.Some? ==> |orders.value| == |questions|
      ensures orders.Some? ==> forall k :: 0 <= k < |questions| ==> orders.value[k] == (questions[k].id, k)
    {
      if loading {
        return None;
      }
      var qs := questions;
      var target := index + direction;
      if target < 0 || target >= |qs| {
        return None;
      }
      var moved := SwapAndRenumber(qs, index, target);
      questions := moved;
      orders := Some(seq(|moved|, k requires 0 <= k < |moved| => (moved[k].id, moved[k].order)));
    }
  }

  /** The copy `handleMove` makes: the two entries exchanged, then every order set to its index. */
  method SwapAndRenumber(qs: seq<EditorQuestion>, index: int, target: int) returns (moved: seq<EditorQuestion>)
    requires 0 <= index < |qs| && 0 <= target < |qs|
    ensures moved == Renumbered(Swapped(qs, index, target))
  {
    var a := new EditorQuestion[|qs|](k requires 0 <= k < |qs| => qs[k]);
    a[index], a[target] := a[target], a[index];
    ghost var swapped := a[..];
    assert swapped == Swapped(qs, index, target);
    for k := 0 to a.Length
      invariant a[..k] == Renumbered(swapped)[..k]
      invariant a[k..] == swapped[k..]
    {
      a[k] := a[k].(order := k);
    }
    assert a[..] == a[..a.Length];
    moved := a[..];
  }

  // ---------------------------------------------------------------------
  // The option list (`handleOptionsChange`, the `is_other` switch)
  // ---------------------------------------------------------------------

  /** `handleOptionsChange`: options numbered 1, 2, … in list order, everything else kept. */
  function NumberOptions(opts: seq<EditorOption>): (r: seq<EditorOption>)
    ensures |r| == |opts|
    ensures forall i :: 0 <= i < |r| ==> r[i].id == i + 1
    ensures forall i :: 0 <= i < |r| ==>
      r[i].text == opts[i].text && r[i].value == opts[i].value && r[i].isOther == opts[i].isOther
  {
    if opts == [] then []
    else
      var n := |opts| - 1;
      NumberOptions(opts[..n]) + [opts[n].(id := n + 1)]
  }

  /** The ids `NumberOptions` hands out are distinct, so a branch rule's option is unambiguous. */
  lemma NumberedIdsDistinct(opts: seq<EditorOption>)
    ensures forall i, j :: 0 <= i < j < |NumberOptions(opts)| ==> NumberOptions(opts)[i].id != NumberOptions(opts)[j].id
  {
  }

  /**
   * The `is_other` switch of option `k`.  The form binding (`valuePropName`
   * "checked") first stores the new state in option `k`; the switch's own
   * handler then, when it was turned on, turns every other option's off.
   */
  function SwitchOther(opts: seq<EditorOption>, k: int, checked: bool): (r: seq<EditorOption>)
    ensures |r| == |opts|
    ensures !checked ==> forall i :: 0 <= i < |r| ==> r[i] == if i == k then opts[i].(isOther := false) else opts[i]
    ensures checked ==> forall i :: 0 <= i < |r| ==> r[i] == opts[i].(isOther := i == k)
  {
    var bound := if 0 <= k < |opts| then opts[k := opts[k].(isOther := checked)] else opts;
    if !checked then bound
    else seq(|bound|, i requires 0 <= i < |bound| => bound[i].(isOther := i == k))
  }

  /** After switching on option `k`, it is the only option that takes free text. */
  lemma SwitchOtherExclusive(opts: seq<EditorOption>, k: int)
    requires 0 <= k < |opts|
    ensures SwitchOther(opts, k, true)[k].isOther
    ensures forall i, j ::
      (0 <= i < |opts| && 0 <= j < |opts| && SwitchOther(opts, k, true)[i].isOther && SwitchOther(opts, k, true)[j].isOther)
      ==> i == j
  {
  }

  // ---------------------------------------------------------------------
  // The branch-rule list
  // ---------------------------------------------------------------------

  /** A rule being edited: the option (by index) and the questionnaire it leads to. */
  datatype RuleDraft = RuleDraft(optionId: Option<int>, nextQuestionnaireId: Option<int>)

  /** The two fields `handleBranchRuleChange` can set. */
  datatype RuleField = OptionField | NextField

  /** `addBranchRule` */
  function AddRule(rules: seq<RuleDraft>): (r: seq<RuleDraft>)
    ensures |r| == |rules| + 1 && r[..|rules|] == rules
    ensures r[|rules|] == RuleDraft(None, None)
  {
    rules + [RuleDraft(None, None)]
  }

  /** `removeBranchRule`: `rules.filter((_, i) => i !== idx)`. */
  function RemoveRule(rules: seq<RuleDraft>, idx: int): (r: seq<RuleDraft>)
    ensures 0 <= idx < |rules| ==> r == rules[..idx] + rules[idx + 1..]
    ensures !(0 <= idx < |rules|) ==> r == rules
  {
    if rules == [] then []
    else (if idx == 0 then [] else [rules[0]]) + RemoveRule(rules[1..], idx - 1)
  }

  /** `handleBranchRuleChange` on an existing row. */
  function UpdateRule(rules: seq<RuleDraft>, idx: int, field: RuleField, value: Option<int>): (r: seq<RuleDraft>)
    requires 0 <= idx < |rules|
    ensures |r| == |rules|
    ensures forall i :: 0 <= i < |r| && i != idx ==> r[i] == rules[i]
    ensures field == OptionField ==> r[idx] == RuleDraft(value, rules[idx].nextQuestionnaireId)
    ensures field == NextField ==> r[idx] == RuleDraft(rules[idx].optionId, value)
  {
    var row := rules[idx];
    rules[idx := match field
                 case OptionField => row.(optionId := value)
                 case NextField => row.(nextQuestionnaireId := value)]
  }

  /** Adding a rule and then removing it gives the list back. */
  lemma RemoveUndoesAdd(rules: seq<RuleDraft>)
    ensures RemoveRule(AddRule(rules), |rules|) == rules
  {
  }
}

=== FILE: area.dfy ===
/**
 * The region picker's data (front/src/components/Questionnaire/areaOptions.ts)
 * and the naming of a stored code path
 * (`getAreaNameByCodes`, written out identically in
 * front/src/components/Admin/QuestionnaireStats.tsx and
 * front/src/components/Admin/SubmissionDetail.tsx).
 *
 * The region table is three lists of (code, name) entries, in the order
 * `Object.entries` yields them.  A node whose `children` key is left out
 * has the empty list of children here.
 */
module Areas {
  import opened Wrappers
  import opened Text
  import opened Collections

  datatype Entry = Entry(code: string, name: string)

  /** The three levels of the region table: provinces, cities, counties. */
  datatype AreaTable = AreaTable(provinces: seq<Entry>, cities: seq<Entry>, counties: seq<Entry>)

  /** A cascader node: `value`, `label` (here `caption`) and `children`. */
  datatype CascaderOption = CascaderOption(value: string, caption: string, children: seq<CascaderOption>)

  datatype Tier = ProvinceTier | CityTier | CountyTier

  function Rank(t: Tier): nat
  {
    match t
    case ProvinceTier => 2
    case CityTier => 1
    case CountyTier => 0
  }

  predicate StartsWith(s: string, p: string)
  {
    p <= s
  }

  function StartsWithFn(p: string): Entry -> bool
  {
    (e: Entry) => StartsWith(e.code, p)
  }

  /** The entries of `list` whose code starts with `p`, in order. */
  function Within(list: seq<Entry>, p: string): seq<Entry>
  {
    Filter(list, StartsWithFn(p))
  }

  /** The entries one level below `e`: cities by the first 2 characters, counties by the first 4. */
  function Below(area: AreaTable, e: Entry, tier: Tier): seq<Entry>
  {
    match tier
    case ProvinceTier => Within(area.cities, Take(e.code, 2))
    case CityTier => Within(area.counties, Take(e.code, 4))
    case CountyTier => []
  }

  function Lower(tier: Tier): Tier
    requires tier != CountyTier
  {
    if tier == ProvinceTier then CityTier else CountyTier
  }

  /** One cascader node for `e`, with the converted entries below it as children. */
  function ConvertEntry(area: AreaTable, e: Entry, tier: Tier): (o: CascaderOption)
    ensures o.value == e.code && o.caption == e.name
    ensures tier == CountyTier ==> o.children == []
    decreases Rank(tier), 0
  {
    var children := if tier == CountyTier then [] else Convert(area, Below(area, e, tier), Lower(tier));
    CascaderOption(e.code, e.name, children)
  }

  /** `convertVantToCascader(list, level)`: one node per entry, in entry order. */
  function Convert(area: AreaTable, list: seq<Entry>, tier: Tier): (r: seq<CascaderOption>)
    ensures |r| == |list|
    ensures forall i :: 0 <= i < |list| ==> r[i].value == list[i].code && r[i].caption == list[i].name
    decreases Rank(tier), 1
  {
    seq(|list|, i requires 0 <= i < |list| => ConvertEntry(area, list[i], tier))
  }

  function Values(opts: seq<CascaderOption>): (vs: seq<string>)
    ensures |vs| == |opts| && forall i :: 0 <= i < |opts| ==> vs[i] == opts[i].value
  {
    seq(|opts|, i requires 0 <= i < |opts| => opts[i].value)
  }

  function Codes(list: seq<Entry>): (cs: seq<string>)
    ensures |cs| == |list| && forall i :: 0 <= i < |list| ==> cs[i] == list[i].code
  {
    seq(|list|, i requires 0 <= i < |list| => list[i].code)
  }

  /** The picker's top level: the provinces, or nothing when the table has no province list. */
  function AreaOptions(provinces: Option<seq<Entry>>, area: AreaTable): seq<CascaderOption>
  {
    match provinces
    case None => []
    case Some(list) => Convert(area, list, ProvinceTier)
  }

  /**
   * A province's children are exactly the cities whose code starts with its
   * first two characters, and a city's the counties whose code starts with
   * its first four, in table order; a county has none.
   */
  lemma ChildrenByPrefix(area: AreaTable, list: seq<Entry>, tier: Tier, i: int)
    requires 0 <= i < |list|
    ensures tier == ProvinceTier ==>
      Values(Convert(area, list, tier)[i].children) == Codes(Within(area.cities, Take(list[i].code, 2)))
    ensures tier == CityTier ==>
      Values(Convert(area, list, tier)[i].children) == Codes(Within(area.counties, Take(list[i].code, 4)))
    ensures tier == CountyTier ==> Convert(area, list, tier)[i].children == []
  {
    var o := Convert(area, list, tier)[i];
    assert o == ConvertEntry(area, list[i], tier);
  }

  /** Every city in a province's subtree carries the province's two-character prefix. */
  lemma CityUnderProvince(area: AreaTable, list: seq<Entry>, i: int, j: int)
    requires 0 <= i < |list|
    requires 0 <= j < |Convert(area, list, ProvinceTier)[i].children|
    ensures StartsWith(Convert(area, list, ProvinceTier)[i].children[j].value, Take(list[i].code, 2))
  {
    var below := Within(area.cities, Take(list[i].code, 2));
    ChildrenByPrefix(area, list, ProvinceTier, i);
    assert Convert(area, list, ProvinceTier)[i].children[j].value == below[j].code;
    assert StartsWithFn(Take(list[i].code, 2))(below[j]);
  }

  /** `getAreaOptions` and its one-time memo. */
  class AreaOptionsCache {
    const provinces: Option<seq<Entry>>
    const area: AreaTable
    var cached: Option<seq<CascaderOption>>

    /** Whatever is cached is the converted table. */
    predicate Valid()
      reads this
    {
      cached.Some? ==> cached.value == AreaOptions(provinces, area)
    }

    constructor (provinces: Option<seq<Entry>>, area: AreaTable)
      ensures this.provinces == provinces && this.area == area && cached.None? && Valid()
    {
      this.provinces := provinces;
      this.area := area;
      cached := None;
    }

    /** The tree is converted on the first call only; every call returns the same tree. */
    method GetAreaOptions() returns (r: seq<CascaderOption>)
      requires Valid()
      modifies this
      ensures Valid() && cached == Some(r)
      ensures r == AreaOptions(provinces, area)
      ensures old(cached).Some? ==> r == old(cached).value
    {
      if cached.None? {
        cached := Some(AreaOptions(provinces, area));
      }
      r := cached.value;
    }
  }

  // ---------------------------------------------------------------------
  // Naming a code path (`getAreaNameByCodes`)
  // ---------------------------------------------------------------------

  /** `opt => String(opt.value) === String(code)` */
  function HasValue(code: string): CascaderOption -> bool
  {
    (o: CascaderOption) => o.value == code
  }

  /** The labels met walking down the tree along `codes`, stopping at the first code not found. */
  function PathLabels(codes: seq<string>, options: seq<CascaderOption>): (labels: seq<string>)
    ensures |labels| <= |codes|
  {
    if codes == [] then []
    else match First(options, HasValue(codes[0]))
      case None => []
      case Some(k) => [options[k].caption] + PathLabels(codes[1..], options[k].children)
  }

  /** `getAreaNameByCodes`: the labels along the path, joined by '/'. */
  method AreaName(codes: seq<string>, tree: seq<CascaderOption>) returns (name: string)
    ensures name == Join(PathLabels(codes, tree), "/")
  {
    var result: seq<string> := [];
    var options := tree;
    var i := 0;
    while i < |codes|
      invariant 0 <= i <= |codes|
      invariant result + PathLabels(codes[i..], options) == PathLabels(codes, tree)
    {
      var found := First(options, HasValue(codes[i]));
      if found.None? {
        break;
      }
      assert codes[i..][1..] == codes[i + 1..];
      result := result + [options[found.value].caption];
      options := options[found.value].children;
      i := i + 1;
    }
    assert result == PathLabels(codes, tree) by {
      if i == |codes| {
        assert codes[i..] == [];
      }
    }
    name := Join(result, "/");
  }

  /** No label anywhere in the tree contains a '/'. */
  predicate SlashFree(options: seq<CascaderOption>)
  {
    forall i :: 0 <= i < |options| ==> '/' !in options[i].caption && SlashFree(options[i].children)
  }

  /**
   * With labels free of '/', the name splits back into the labels along the
   * path, one per code found, so it never has more segments than codes.
   */
  lemma {:induction false} AreaNameSegments(codes: seq<string>, options: seq<CascaderOption>)
    requires SlashFree(options)
    requires PathLabels(codes, options) != []
    ensures SplitOn(Join(PathLabels(codes, options), "/"), '/') == PathLabels(codes, options)
    ensures |SplitOn(Join(PathLabels(codes, options), "/"), '/')| <= |codes|
  {
    PathSlashFree(codes, options);
    SplitJoin(PathLabels(codes, options), '/');
  }

  lemma {:induction false} PathSlashFree(codes: seq<string>, options: seq<CascaderOption>)
    requires SlashFree(options)
    ensures forall p :: p in PathLabels(codes, options) ==> '/' !in p
    decreases |codes|
  {
    if codes != [] {
      match First(options, HasValue(codes[0]))
      case None =>
      case Some(k) =>
        PathSlashFree(codes[1..], options[k].children);
    }
  }

  /** A path of codes that names a province, one of its cities and one of that city's counties gives all three labels. */
  lemma FullPathNamed(codes: seq<string>, tree: seq<CascaderOption>, i: nat, j: nat, k: nat)
    requires |codes| == 3
    requires i < |tree| && tree[i].value == codes[0]
    requires j < |tree[i].children| && tree[i].children[j].value == codes[1]
    requires k < |tree[i].children[j].children| && tree[i].children[j].children[k].value == codes[2]
    requires forall a :: 0 <= a < |tree| && a != i ==> tree[a].value != codes[0]
    requires forall b :: 0 <= b < |tree[i].children| && b != j ==> tree[i].children[b].value != codes[1]
    requires forall c :: 0 <= c < |tree[i].children[j].children| && c != k ==>
      tree[i].children[j].children[c].value != codes[2]
    ensures PathLabels(codes, tree) ==
      [tree[i].caption, tree[i].children[j].caption, tree[i].children[j].children[k].caption]
  {
    var c1, c2 := tree[i].children, tree[i].children[j].children;
    assert First(tree, HasValue(codes[0])) == Some(i);
    assert First(c1, HasValue(codes[1..][0])) == Some(j);
    assert First(c2, HasValue(codes[1..][1..][0])) == Some(k);
    assert codes[1..][1..][1..] == [];
    assert PathLabels(codes[1..][1..], c2) == [c2[k].caption] + PathLabels([], c2[k].children);
    assert PathLabels(codes[1..], c1) == [c1[j].caption] + PathLabels(codes[1..][1..], c2);
  }
}

=== FILE: auth.dfy ===
/**
 * Administrator authentication (backend/api/auth.py): password strength,
 * the `Authorization: Bearer <token>` header check, login and password change.
 *
 * JWT decoding and password hashing are library calls; they are parameters
 * here.  `verify(hash, password)` stands for `check_password_hash`, which
 * needs a string password (given `None` it raises),
 * `hash(password)` for `generate_password_hash`, and `decode(token)` for
 * `jwt.decode` followed by reading the `admin_id` claim.
 */
module Auth {
  import opened Wrappers
  import opened Text

  // ---------------------------------------------------------------------
  // Password strength (`validate_password`)
  // ---------------------------------------------------------------------

  predicate IsAsciiLetter(c: char)
  {
    ('A' <= c <= 'Z') || ('a' <= c <= 'z')
  }

  /** `re.search(cls, s) is not None` for a one-character class. */
  function Search(s: string, cls: char -> bool): (found: bool)
    ensures found <==> exists i :: 0 <= i < |s| && cls(s[i])
  {
    if s == [] then false
    else if cls(s[0]) then true
    else
      var rest := Search(s[1..], cls);
      assert forall i :: 0 < i < |s| ==> s[i] == s[1..][i - 1];
      rest
  }

  const TooShortOrLong: string := "密码长度需为6-20位"
  const NeedsLetter: string := "密码必须包含字母"
  const NeedsDigit: string := "密码必须包含数字"
  const Acceptable: string := "密码符合要求"

  /** `validate_password`: the verdict, and the message of the first check that fails. */
  function ValidatePassword(password: string): (r: (bool, string))
    ensures r.0 <==>
      && 6 <= |password| <= 20
      && (exists i :: 0 <= i < |password| && IsAsciiLetter(password[i]))
      && (exists i :: 0 <= i < |password| && IsDigit(password[i]))
    ensures r.0 ==> r.1 == Acceptable
    ensures !(6 <= |password| <= 20) ==> r.1 == TooShortOrLong
    ensures 6 <= |password| <= 20 && (forall i :: 0 <= i < |password| ==> !IsAsciiLetter(password[i]))
      ==> r.1 == NeedsLetter
    ensures (&& 6 <= |password| <= 20
             && (exists i :: 0 <= i < |password| && IsAsciiLetter(password[i]))
             && (forall i :: 0 <= i < |password| ==> !IsDigit(password[i])))
      ==> r.1 == NeedsDigit
  {
    if !(6 <= |password| <= 20) then (false, TooShortOrLong)
    else if !Search(password, IsAsciiLetter) then (false, NeedsLetter)
    else if !Search(password, IsDigit) then (false, NeedsDigit)
    else (true, Acceptable)
  }

  /** Each verdict comes with its own message, so the message alone tells which check failed. */
  lemma PasswordMessagesDistinct()
    ensures TooShortOrLong != NeedsLetter && TooShortOrLong != NeedsDigit && NeedsLetter != NeedsDigit
    ensures Acceptable !in {TooShortOrLong, NeedsLetter, NeedsDigit}
  {
    assert TooShortOrLong[2] != NeedsLetter[2];
    assert TooShortOrLong[2] != NeedsDigit[2];
    assert NeedsLetter[6] != NeedsDigit[6];
    assert Acceptable[2] != TooShortOrLong[2];
    assert Acceptable[2] != NeedsLetter[2];
    assert Acceptable[2] != NeedsDigit[2];
  }

  // ---------------------------------------------------------------------
  // The Authorization header (`token_required`)
  // ---------------------------------------------------------------------

  /** What `jwt.decode` and the `admin_id` lookup make of a token. */
  datatype Decoded = Claims(adminId: Option<int>) | Expired | Invalid

  /** The bearer token of the header: present, two whitespace-separated words, the first 'Bearer'. */
  function BearerToken(header: Option<string>): (r: Result<string, string>)
    ensures r.Failure? ==> r.error in {"Token is missing", "Invalid token format"}
    ensures r.Failure? && r.error == "Token is missing" <==> !Given(header)
    ensures r.Success? <==> Given(header) && |Words(header.value)| == 2 && Words(header.value)[0] == "Bearer"
    ensures r.Success? ==> r.value == Words(header.value)[1]
  {
    if !Given(header) then Failure("Token is missing")
    else
      var parts := Words(header.value);
      if |parts| != 2 then Failure("Invalid token format")
      else if parts[0] != "Bearer" then Failure("Invalid token format")
      else Success(parts[1])
  }

  /** The leading word of `w + rest` is `w` when `w` is a word and `rest` starts with a separator. */
  lemma {:induction false} WordLenOfWord(w: string, rest: string)
    requires forall i :: 0 <= i < |w| ==> !IsSpace(w[i])
    requires rest == [] || IsSpace(rest[0])
    ensures WordLen(w + rest) == |w|
  {
    if w != [] {
      assert (w + rest)[1..] == w[1..] + rest;
      WordLenOfWord(w[1..], rest);
    }
  }

  /** The header a client sends, `"Bearer " + token`, yields the token back. */
  lemma BearerRoundTrip(token: string)
    requires token != [] && forall i :: 0 <= i < |token| ==> !IsSpace(token[i])
    ensures BearerToken(Some("Bearer " + token)) == Success(token)
  {
    var h := "Bearer " + token;
    WordLenOfWord("Bearer", " " + token);
    assert h == "Bearer" + (" " + token);
    assert h[..6] == "Bearer" && h[6..] == " " + token;
    WordLenOfWord(token, []);
    assert token + [] == token;
    assert (" " + token)[1..] == token;
    assert Words(" " + token) == Words(token);
    assert token[|token|..] == [];
    assert Words(token) == [token];
    assert Words(h) == ["Bearer"] + Words(" " + token);
  }

  datatype AdminRow = AdminRow(id: int, username: string, passwordHash: string)

  /** `Admin.query.get(id)` */
  function AdminById(admins: seq<AdminRow>, id: int): (r: Option<AdminRow>)
    ensures r.Some? ==> r.value in admins && r.value.id == id
    ensures r.None? ==> forall a :: a in admins ==> a.id != id
  {
    if admins == [] then None
    else if admins[0].id == id then Some(admins[0])
    else AdminById(admins[1..], id)
  }

  /**
   * `token_required`: the id of the administrator the request acts for, or
   * the 401 message.  A token without an `admin_id` claim raises a
   * `KeyError`, which the outer handler reports as a failed verification.
   */
  function Authenticate(header: Option<string>, decode: string -> Decoded, admins: seq<AdminRow>): (r: Result<int, string>)
    ensures r.Success? ==> BearerToken(header).Success? && decode(BearerToken(header).value) == Claims(Some(r.value))
    ensures r.Success? ==> exists a :: a in admins && a.id == r.value
    ensures BearerToken(header).Failure? ==> r == Failure(BearerToken(header).error)
    ensures BearerToken(header).Success? ==>
      var d := decode(BearerToken(header).value);
      && (d.Claims? && d.adminId.Some? && (exists a :: a in admins && a.id == d.adminId.value) ==> r == Success(d.adminId.value))
      && (d.Claims? && d.adminId.Some? && (forall a :: a in admins ==> a.id != d.adminId.value) ==> r == Failure("Invalid admin"))
      && (d == Claims(None) ==> r == Failure("Token verification failed"))
      && (d == Expired ==> r == Failure("Token has expired"))
      && (d == Invalid ==> r == Failure("Invalid token"))
  {
    match BearerToken(header)
    case Failure(msg) => Failure(msg)
    case Success(token) =>
      match decode(token)
      case Expired => Failure("Token has expired")
      case Invalid => Failure("Invalid token")
      case Claims(None) => Failure("Token verification failed")
      case Claims(Some(id)) =>
        match AdminById(admins, id)
        case None => Failure("Invalid admin")
        case Some(a) => Success(a.id)
  }

  // ---------------------------------------------------------------------
  // Login
  // ---------------------------------------------------------------------

  function AdminByName(admins: seq<AdminRow>, username: Option<string>): (r: Option<AdminRow>)
    ensures r.Some? ==> r.value in admins && username == Some(r.value.username)
    ensures r.None? ==> forall a :: a in admins ==> username != Some(a.username)
  {
    if admins == [] then None
    else if username == Some(admins[0].username) then Some(admins[0])
    else AdminByName(admins[1..], username)
  }

  /**
   * The outcome of `login`: a token for the administrator, the 401 reply, or
   * the 500 of an exception `login` does not catch.
   */
  datatype LoginReply = LoggedIn(adminId: int) | Unauthorized(msg: string) | ServerFault

  /**
   * `login`: an unknown user name is refused first; for a known one a missing
   * password reaches `check_password_hash`, which raises.
   */
  function Login(admins: seq<AdminRow>, username: Option<string>, password: Option<string>,
                 verify: (string, string) -> bool): (r: LoginReply)
    ensures r.LoggedIn? ==>
      exists a :: a in admins && a.id == r.adminId && username == Some(a.username) && password.Some? && verify(a.passwordHash, password.value)
    ensures r.Unauthorized? ==> r.msg == "用户名或密码错误"
    ensures r.ServerFault? <==> AdminByName(admins, username).Some? && password.None?
  {
    match AdminByName(admins, username)
    case None => Unauthorized("用户名或密码错误")
    case Some(a) =>
      match password
      case None => ServerFault
      case Some(p) => if verify(a.passwordHash, p) then LoggedIn(a.id) else Unauthorized("用户名或密码错误")
  }

  /** Usernames are unique (`unique=True` on the column). */
  predicate UniqueNames(admins: seq<AdminRow>)
  {
    forall i, j :: 0 <= i < j < |admins| ==> admins[i].username != admins[j].username
  }

  /**
   * Login succeeds exactly when a password is sent and the account with that
   * username accepts it; it fails with a 500 exactly when the account exists
   * and no password is sent.  An unknown username and a wrong password get
   * the same reply.
   */
  lemma LoginAccepts(admins: seq<AdminRow>, username: Option<string>, password: Option<string>,
                     verify: (string, string) -> bool)
    requires UniqueNames(admins)
    ensures Login(admins, username, password, verify).LoggedIn? <==>
      password.Some? && exists a :: a in admins && username == Some(a.username) && verify(a.passwordHash, password.value)
    ensures Login(admins, username, password, verify).ServerFault? <==>
      password.None? && exists a :: a in admins && username == Some(a.username)
  {
    if password.Some? && Login(admins, username, password, verify).Unauthorized? {
      var found := AdminByName(admins, username);
      forall a | a in admins && username == Some(a.username)
        ensures !verify(a.passwordHash, password.value)
      {
        assert found.Some?;
        var i :| 0 <= i < |admins| && admins[i] == a;
        var j :| 0 <= j < |admins| && admins[j] == found.value;
        assert i == j;
      }
    }
  }

  // ---------------------------------------------------------------------
  // Password change (`change_password`)
  // ---------------------------------------------------------------------

  datatype Reply = Reply(status: int, msg: string)

  /** The reply of `change_password` for an administrator with `passwordHash`, in the order the checks run. */
  function PasswordReply(passwordHash: string, oldPassword: Option<string>, newPassword: Option<string>,
                         verify: (string, string) -> bool): (r: Reply)
    ensures r.status == 200 || r.status == 400
    ensures r.status == 200 <==>
      && Given(oldPassword) && Given(newPassword)
      && verify(passwordHash, oldPassword.value)
      && ValidatePassword(newPassword.value).0
    ensures !Given(oldPassword) || !Given(newPassword) ==> r == Reply(400, "缺少参数")
    ensures Given(oldPassword) && Given(newPassword) && !verify(passwordHash, oldPassword.value) ==> r == Reply(400, "旧密码错误")
    ensures
      && Given(oldPassword) && Given(newPassword) && verify(passwordHash, oldPassword.value)
      && !ValidatePassword(newPassword.value).0
      ==> r == Reply(400, ValidatePassword(newPassword.value).1)
  {
    if !Given(oldPassword) || !Given(newPassword) then Reply(400, "缺少参数")
    else if !verify(passwordHash, oldPassword.value) then Reply(400, "旧密码错误")
    else
      var (ok, message) := ValidatePassword(newPassword.value);
      if !ok then Reply(400, message)
      else Reply(200, "Password updated")
  }

  /** An administrator account, whose password hash `change_password` replaces. */
  class Admin {
    const id: int
    var username: string
    var passwordHash: string

    constructor (id: int, username: string, passwordHash: string)
      ensures this.id == id && this.username == username && this.passwordHash == passwordHash
    {
      this.id := id;
      this.username := username;
      this.passwordHash := passwordHash;
    }

    /** `change_password` once the token names this administrator: the hash changes only when every check passes. */
    method ChangePassword(oldPassword: Option<string>, newPassword: Option<string>,
                          verify: (string, string) -> bool, hash: string -> string) returns (r: Reply)
      modifies this
      ensures r == PasswordReply(old(passwordHash), oldPassword, newPassword, verify)
      ensures r.status == 200 ==> passwordHash == hash(newPassword.value)
      ensures r.status != 200 ==> passwordHash == old(passwordHash)
      ensures username == old(username)
    {
      if !Given(oldPassword) || !Given(newPassword) {
        return Reply(400, "缺少参数");
      }
      if !verify(passwordHash, oldPassword.value) {
        return Reply(400, "旧密码错误");
      }
      var (ok, message) := ValidatePassword(newPassword.value);
      if !ok {
        return Reply(400, message);
      }
      passwordHash := hash(newPassword.value);
      r := Reply(200, "Password updated");
    }
  }
}

=== FILE: collections.dfy ===
/**
 * Counting and ordering helpers shared by the statistics code: a
 * dictionary of counters that remembers first-insertion order (Python's
 * `dict`, a JavaScript object with string keys), and a stable sort by an
 * integer key, largest first.
 */
module Collections {
  import opened Wrappers

  /** The position of the first element satisfying `p` (a query's `.first()`, `Array.find`). */
  function First<T>(rows: seq<T>, p: T -> bool): (r: Option<nat>)
    ensures r.Some? ==> r.value < |rows| && p(rows[r.value])
    ensures r.Some? ==> forall j :: 0 <= j < r.value ==> !p(rows[j])
    ensures r.None? ==> forall j :: 0 <= j < |rows| ==> !p(rows[j])
    decreases |rows|
  {
    if rows == [] then None
    else if p(rows[0]) then Some(0)
    else match First(rows[1..], p)
      case None => None
      case Some(k) => Some(k + 1)
  }

  /** `xs.slice(0, n)`: the first `n` elements, or all of them when there are fewer. */
  function Take<T>(xs: seq<T>, n: nat): (r: seq<T>)
    ensures |r| <= n && r <= xs
    ensures |xs| >= n ==> |r| == n
    ensures |xs| <= n ==> r == xs
  {
    if |xs| <= n then xs else xs[..n]
  }

  /** The elements of `s` that satisfy `p`, in order. */
  function Filter<T>(s: seq<T>, p: T -> bool): (r: seq<T>)
    ensures |r| <= |s|
    ensures forall i :: 0 <= i < |r| ==> p(r[i]) && r[i] in s
  {
    if s == [] then []
    else
      var rest := Filter(s[..|s| - 1], p);
      if p(s[|s| - 1]) then rest + [s[|s| - 1]] else rest
  }

  /** An element is kept exactly when it is in `s` and satisfies `p`. */
  lemma {:induction false} FilterMembers<T(!new)>(s: seq<T>, p: T -> bool)
    ensures forall x :: x in Filter(s, p) <==> x in s && p(x)
  {
    if s != [] {
      var init := s[..|s| - 1];
      FilterMembers(init, p);
      assert s == init + [s[|s| - 1]];
    }
  }

  /** Filtering a list extended by one element. */
  lemma FilterSnoc<T>(s: seq<T>, x: T, p: T -> bool)
    ensures Filter(s + [x], p) == Filter(s, p) + (if p(x) then [x] else [])
  {
    assert (s + [x])[..|s|] == s;
  }

  /** Filtering a list that starts with `x`. */
  /** Filtering keeps distinct keys distinct. */
  lemma {:induction false} FilterDistinctKeys<T, K>(s: seq<T>, p: T -> bool, key: T -> K)
    requires forall i, j :: 0 <= i < j < |s| ==> key(s[i]) != key(s[j])
    ensures forall i, j :: 0 <= i < j < |Filter(s, p)| ==> key(Filter(s, p)[i]) != key(Filter(s, p)[j])
  {
    if s != [] {
      var init, last := s[..|s| - 1], s[|s| - 1];
      FilterDistinctKeys(init, p, key);
      var f := Filter(init, p);
      if p(last) {
        assert Filter(s, p) == f + [last];
        forall i | 0 <= i < |f|
          ensures key(f[i]) != key(last)
        {
          var k :| 0 <= k < |init| && init[k] == f[i];
          assert s[k] == f[i];
        }
      }
    }
  }

  lemma {:induction false} FilterCons<T>(x: T, s: seq<T>, p: T -> bool)
    ensures Filter([x] + s, p) == (if p(x) then [x] else []) + Filter(s, p)
    decreases |s|
  {
    if s == [] {
      assert [x] + s == [x];
      assert [x][..0] == [];
    } else {
      var init := s[..|s| - 1];
      assert ([x] + s)[..|s|] == [x] + init;
      assert ([x] + s)[|s|] == s[|s| - 1];
      FilterCons(x, init, p);
      assert init + [s[|s| - 1]] == s;
    }
  }

  /** Nothing is kept when no element satisfies `p`. */
  lemma {:induction false} FilterNone<T>(s: seq<T>, p: T -> bool)
    requires forall i :: 0 <= i < |s| ==> !p(s[i])
    ensures Filter(s, p) == []
  {
    if s != [] {
      FilterNone(s[..|s| - 1], p);
    }
  }

  /** The defined results of `f` over `xs`, in order: a filter followed by a map. */
  function Collect<A, B>(xs: seq<A>, f: A -> Option<B>): (ys: seq<B>)
    ensures |ys| <= |xs|
  {
    if xs == [] then []
    else
      var rest := Collect(xs[..|xs| - 1], f);
      match f(xs[|xs| - 1])
      case None => rest
      case Some(y) => rest + [y]
  }

  /** Collecting over a list that starts with `x`. */
  lemma {:induction false} CollectCons<A, B>(x: A, xs: seq<A>, f: A -> Option<B>)
    ensures Collect([x] + xs, f) == (if f(x).Some? then [f(x).value] else []) + Collect(xs, f)
    decreases |xs|
  {
    if xs == [] {
      assert [x] + xs == [x];
      assert [x][..0] == [];
    } else {
      var init := xs[..|xs| - 1];
      assert ([x] + xs)[..|xs|] == [x] + init;
      assert ([x] + xs)[|xs|] == xs[|xs| - 1];
      CollectCons(x, init, f);
      assert init + [xs[|xs| - 1]] == xs;
    }
  }

  /** One more element of `xs` adds its result, if it has one. */
  lemma CollectStep<A, B>(xs: seq<A>, f: A -> Option<B>, i: nat)
    requires i < |xs|
    ensures Collect(xs[..i + 1], f) ==
      if f(xs[i]).Some? then Collect(xs[..i], f) + [f(xs[i]).value] else Collect(xs[..i], f)
  {
    assert xs[..i + 1][..i] == xs[..i];
  }

  /** How many elements of `xs` make `f` produce `y`. */
  function Hits<A, B(==)>(xs: seq<A>, f: A -> Option<B>, y: B): (n: nat)
    ensures n <= |xs|
  {
    if xs == [] then 0
    else Hits(xs[..|xs| - 1], f, y) + (if f(xs[|xs| - 1]) == Some(y) then 1 else 0)
  }

  /** Each defined result occurs once per element that produces it. */
  lemma {:induction false} CollectCounts<A, B>(xs: seq<A>, f: A -> Option<B>, y: B)
    ensures Occurrences(Collect(xs, f), y) == Hits(xs, f, y)
  {
    if xs != [] {
      var init := xs[..|xs| - 1];
      CollectCounts(init, f, y);
      var rest := Collect(init, f);
      if f(xs[|xs| - 1]).Some? {
        assert (rest + [f(xs[|xs| - 1]).value])[..|rest|] == rest;
      }
    }
  }

  /** How many elements of `xs` make `f` produce a result. */
  function Defined<A, B>(xs: seq<A>, f: A -> Option<B>): (n: nat)
    ensures n <= |xs|
  {
    if xs == [] then 0
    else Defined(xs[..|xs| - 1], f) + (if f(xs[|xs| - 1]).Some? then 1 else 0)
  }

  lemma {:induction false} CollectLength<A, B>(xs: seq<A>, f: A -> Option<B>)
    ensures |Collect(xs, f)| == Defined(xs, f)
  {
    if xs != [] {
      CollectLength(xs[..|xs| - 1], f);
    }
  }

  /** How often `k` occurs in `keys`. */
  function Occurrences<K(==)>(keys: seq<K>, k: K): (n: nat)
    ensures n <= |keys|
  {
    if keys == [] then 0
    else Occurrences(keys[..|keys| - 1], k) + (if keys[|keys| - 1] == k then 1 else 0)
  }

  // ---------------------------------------------------------------------
  // Counters
  // ---------------------------------------------------------------------

  /** The keys of a counter, in insertion order. */
  function Keys<K>(c: seq<(K, nat)>): (ks: seq<K>)
    ensures |ks| == |c|
    ensures forall i :: 0 <= i < |c| ==> ks[i] == c[i].0
  {
    if c == [] then [] else [c[0].0] + Keys(c[1..])
  }

  /** No key is stored twice. */
  predicate DistinctKeys<K(==)>(c: seq<(K, nat)>)
  {
    forall i, j :: 0 <= i < j < |c| ==> c[i].0 != c[j].0
  }

  /** `counter.get(k, 0)` */
  function Get<K(==)>(c: seq<(K, nat)>, k: K): nat
  {
    if c == [] then 0 else if c[0].0 == k then c[0].1 else Get(c[1..], k)
  }

  /** The sum of all counts. */
  function Total<K>(c: seq<(K, nat)>): nat
  {
    if c == [] then 0 else c[0].1 + Total(c[1..])
  }

  /** `counter[k] = counter.get(k, 0) + 1`: an existing key keeps its place, a new one goes last. */
  function Bump<K(==)>(c: seq<(K, nat)>, k: K): (r: seq<(K, nat)>)
    ensures Keys(r) == if k in Keys(c) then Keys(c) else Keys(c) + [k]
  {
    if c == [] then [(k, 1)]
    else if c[0].0 == k then [(k, c[0].1 + 1)] + c[1..]
    else
      var rest := Bump(c[1..], k);
      assert Keys(c) == [c[0].0] + Keys(c[1..]);
      assert Keys([c[0]] + rest) == [c[0].0] + Keys(rest);
      [c[0]] + rest
  }

  lemma {:induction false} BumpGet<K>(c: seq<(K, nat)>, k: K, j: K)
    requires DistinctKeys(c)
    ensures Get(Bump(c, k), j) == Get(c, j) + (if j == k then 1 else 0)
  {
    if c != [] && c[0].0 != k {
      BumpGet(c[1..], k, j);
      if j == c[0].0 && j != k {
        assert Get(c[1..], j) == 0 by { GetAbsent(c[1..], j); }
        assert Get(Bump(c[1..], k), j) == 0;
      }
    } else if c != [] && j != k {
      assert Get(c, j) == Get(c[1..], j);
    }
  }

  /** In a counter without repeated keys, the count stored at a position is the count of its key. */
  lemma {:induction false} GetAt<K>(c: seq<(K, nat)>, i: nat)
    requires DistinctKeys(c) && i < |c|
    ensures Get(c, c[i].0) == c[i].1
  {
    if i > 0 {
      assert c[0].0 != c[i].0;
      assert c[1..][i - 1] == c[i];
      GetAt(c[1..], i - 1);
    }
  }

  lemma {:induction false} GetAbsent<K>(c: seq<(K, nat)>, k: K)
    requires k !in Keys(c)
    ensures Get(c, k) == 0
  {
    if c != [] {
      assert Keys(c)[0] == c[0].0;
      assert Keys(c[1..]) == Keys(c)[1..];
      GetAbsent(c[1..], k);
    }
  }

  lemma {:induction false} BumpTotal<K>(c: seq<(K, nat)>, k: K)
    ensures Total(Bump(c, k)) == Total(c) + 1
  {
    if c != [] && c[0].0 != k {
      BumpTotal(c[1..], k);
    }
  }

  lemma BumpDistinct<K>(c: seq<(K, nat)>, k: K)
    requires DistinctKeys(c)
    ensures DistinctKeys(Bump(c, k))
  {
    var r := Bump(c, k);
    var kc, kr := Keys(c), Keys(r);
    forall i, j | 0 <= i < j < |r|
      ensures r[i].0 != r[j].0
    {
      assert r[i].0 == kr[i] && r[j].0 == kr[j];
      if j < |c| {
        assert kr[i] == kc[i] == c[i].0 && kr[j] == kc[j] == c[j].0;
      } else {
        assert kr == kc + [k] && kr[i] == kc[i] && k !in kc;
      }
    }
  }

  /** The counter a loop builds by bumping each key in turn. */
  function Tally<K(==)>(keys: seq<K>): seq<(K, nat)>
  {
    if keys == [] then [] else Bump(Tally(keys[..|keys| - 1]), keys[|keys| - 1])
  }

  /** Counting one more key bumps it. */
  lemma TallyStep<K>(keys: seq<K>, k: K)
    ensures Tally(keys + [k]) == Bump(Tally(keys), k)
  {
    assert (keys + [k])[..|keys|] == keys;
  }

  /**
   * Each key is stored once, with the number of times it occurs; the counts
   * add up to the number of keys counted.
   */
  lemma {:induction false} TallyCounts<K>(keys: seq<K>)
    ensures DistinctKeys(Tally(keys))
    ensures forall k :: Get(Tally(keys), k) == Occurrences(keys, k)
    ensures Total(Tally(keys)) == |keys|
  {
    if keys != [] {
      var init, last := keys[..|keys| - 1], keys[|keys| - 1];
      TallyCounts(init);
      BumpDistinct(Tally(init), last);
      BumpTotal(Tally(init), last);
      forall k
        ensures Get(Tally(keys), k) == Occurrences(keys, k)
      {
        BumpGet(Tally(init), last, k);
      }
    }
  }

  /** A key is stored exactly when it was counted at least once. */
  lemma {:induction false} TallyKeys<K>(keys: seq<K>)
    ensures forall k :: k in Keys(Tally(keys)) <==> k in keys
  {
    if keys != [] {
      var init := keys[..|keys| - 1];
      TallyKeys(init);
      assert keys == init + [keys[|keys| - 1]];
    }
  }

  /** `Array.from(new Set(xs))`: the distinct elements, in order of first appearance. */
  function Dedup<K(==)>(xs: seq<K>): seq<K>
  {
    Keys(Tally(xs))
  }

  /** Reads `xs` left to right and appends each element the first time it is met. */
  function FirstSeen<K(==)>(xs: seq<K>): seq<K>
  {
    if xs == [] then []
    else
      var seen := FirstSeen(xs[..|xs| - 1]);
      if xs[|xs| - 1] in seen then seen else seen + [xs[|xs| - 1]]
  }

  lemma {:induction false} DedupFirstSeen<K>(xs: seq<K>)
    ensures Dedup(xs) == FirstSeen(xs)
  {
    if xs != [] {
      DedupFirstSeen(xs[..|xs| - 1]);
    }
  }

  /**
   * The deduplicated list holds every element of `xs` exactly once, in the
   * order of first appearance.
   */
  lemma DedupExact<K>(xs: seq<K>)
    ensures forall k :: k in Dedup(xs) <==> k in xs
    ensures forall i, j :: 0 <= i < j < |Dedup(xs)| ==> Dedup(xs)[i] != Dedup(xs)[j]
    ensures Dedup(xs) == FirstSeen(xs)
  {
    TallyKeys(xs);
    TallyCounts(xs);
    DedupFirstSeen(xs);
  }

  // ---------------------------------------------------------------------
  // Sorting, largest key first
  // ---------------------------------------------------------------------

  predicate SortedDesc<T>(s: seq<T>, key: T -> int)
  {
    forall i, j :: 0 <= i < j < |s| ==> key(s[i]) >= key(s[j])
  }

  /** Puts `x` after every element whose key is at least its own. */
  function Insert<T>(x: T, s: seq<T>, key: T -> int): seq<T>
  {
    if s == [] then [x]
    else if key(s[0]) < key(x) then [x] + s
    else [s[0]] + Insert(x, s[1..], key)
  }

  lemma {:induction false} InsertBounded<T>(x: T, s: seq<T>, key: T -> int, b: int)
    requires key(x) <= b
    requires forall i :: 0 <= i < |s| ==> key(s[i]) <= b
    ensures forall i :: 0 <= i < |Insert(x, s, key)| ==> key(Insert(x, s, key)[i]) <= b
  {
    if s != [] && key(s[0]) >= key(x) {
      InsertBounded(x, s[1..], key, b);
    }
  }

  /** Inserting into a sorted list keeps it sorted. */
  lemma {:induction false} InsertSorted<T>(x: T, s: seq<T>, key: T -> int)
    requires SortedDesc(s, key)
    ensures SortedDesc(Insert(x, s, key), key)
  {
    var r := Insert(x, s, key);
    if s == [] {
    } else if key(s[0]) < key(x) {
      forall i, j | 0 <= i < j < |r|
        ensures key(r[i]) >= key(r[j])
      {
        assert r[j] == s[j - 1];
        if i > 0 {
          assert r[i] == s[i - 1];
        }
      }
    } else {
      var rest := Insert(x, s[1..], key);
      InsertSorted(x, s[1..], key);
      InsertBounded(x, s[1..], key, key(s[0]));
      forall i, j | 0 <= i < j < |r|
        ensures key(r[i]) >= key(r[j])
      {
        assert r[j] == rest[j - 1];
        if i > 0 {
          assert r[i] == rest[i - 1];
        }
      }
    }
  }

  /** Inserting adds exactly `x`. */
  lemma {:induction false} InsertAdds<T>(x: T, s: seq<T>, key: T -> int)
    ensures multiset(Insert(x, s, key)) == multiset(s) + multiset{x}
  {
    if s != [] && key(s[0]) >= key(x) {
      InsertAdds(x, s[1..], key);
      assert s == [s[0]] + s[1..];
    }
  }

  /** A stable sort by `key`, largest first (insertion sort). */
  function SortDesc<T>(s: seq<T>, key: T -> int): (r: seq<T>)
    ensures SortedDesc(r, key)
    ensures multiset(r) == multiset(s)
  {
    if s == [] then []
    else
      var init := s[..|s| - 1];
      assert s == init + [s[|s| - 1]];
      InsertSorted(s[|s| - 1], SortDesc(init, key), key);
      InsertAdds(s[|s| - 1], SortDesc(init, key), key);
      Insert(s[|s| - 1], SortDesc(init, key), key)
  }

  /** Sorting keeps exactly the elements it was given. */
  lemma SortDescMembers<T(!new)>(s: seq<T>, key: T -> int)
    ensures forall x :: x in SortDesc(s, key) <==> x in s
  {
    var r := SortDesc(s, key);
    forall x
      ensures x in r <==> x in s
    {
      assert x in r <==> x in multiset(r);
      assert x in s <==> x in multiset(s);
    }
  }

  /** Filtering keeps the order, so a sorted list stays sorted. */
  lemma {:induction false} FilterKeepsSorted<T>(s: seq<T>, p: T -> bool, key: T -> int)
    requires SortedDesc(s, key)
    ensures SortedDesc(Filter(s, p), key)
  {
    if s != [] {
      var init, last := s[..|s| - 1], s[|s| - 1];
      FilterKeepsSorted(init, p, key);
      var rest := Filter(init, p);
      if p(last) {
        var r := rest + [last];
        forall i, j | 0 <= i < j < |r|
          ensures key(r[i]) >= key(r[j])
        {
          if j == |rest| {
            assert r[i] == rest[i] && rest[i] in init;
            var m :| 0 <= m < |init| && init[m] == rest[i];
            assert s[m] == rest[i];
          } else {
            assert r[i] == rest[i] && r[j] == rest[j];
          }
        }
      }
    }
  }

  // ---------------------------------------------------------------------
  // Counting the defined results of a function
  // ---------------------------------------------------------------------

  /**
   * Counting the results of `f` over `xs`: each result is stored once, with
   * the number of elements that produce it, and the counts add up to the
   * number of elements that produce any result.
   */
  lemma TallyCollect<A, B>(xs: seq<A>, f: A -> Option<B>)
    ensures DistinctKeys(Tally(Collect(xs, f)))
    ensures forall y :: Get(Tally(Collect(xs, f)), y) == Hits(xs, f, y)
    ensures Total(Tally(Collect(xs, f))) == Defined(xs, f)
  {
    TallyCounts(Collect(xs, f));
    CollectLength(xs, f);
    forall y
      ensures Get(Tally(Collect(xs, f)), y) == Hits(xs, f, y)
    {
      CollectCounts(xs, f, y);
    }
  }
}

=== FILE: fill.dfy ===
/**
 * The respondent fill-in flow (front/src/components/Questionnaire/Fill.tsx).
 *
 * The live question tree is a sequence of root questions; every question
 * carries a `branch`, the follow-up questions fetched for its current answer.
 * The tree is flattened in pre-order for numbering, validation and the
 * submission payload.  Network fetches are inputs: the outcome of fetching a
 * branch questionnaire is passed to `HandleChange`.
 */
module FillEngine {
  import opened Wrappers
  import opened Text
  import Collections

  datatype QuestionType = Single | Multiple | TextQuestion | Address | Area | OtherType

  /** One option of a choice question; `isOther` asks for a free-text supplement. */
  datatype Choice = Choice(id: int, text: string, isOther: bool)

  /**
   * A branch rule: choosing `optionId` leads to another questionnaire.
   * A missing `next_questionnaire_id` is 0 and a missing access code is "",
   * the two falsy values the source tests for.
   */
  datatype BranchRule = BranchRule(optionId: int, nextQuestionnaireId: int, accessCode: string)

  /** A question's own data, as loaded from the server. */
  datatype QuestionData = QuestionData(
    id: int,
    text: string,
    kind: QuestionType,
    options: seq<Choice>,
    rules: seq<BranchRule>)

  /** A question of the live tree: its own data and the branch attached below it. */
  datatype Question = Question(info: QuestionData, branch: seq<Question>)
  {
    const id: int := info.id
    const kind: QuestionType := info.kind
    const options: seq<Choice> := info.options
    const rules: seq<BranchRule> := info.rules
  }

  /**
   * An answer as the form stores it: an option id (single choice), a list of
   * option ids (multiple choice), free text, a list of area codes (area
   * question) or an address (area codes plus detail text).
   */
  datatype Value =
    | Num(n: int)
    | Ids(ids: seq<int>)
    | Str(s: string)
    | Codes(codes: seq<string>)
    | AddressValue(area: seq<string>, detail: string)

  /** JavaScript truthiness of an answer: 0 and "" are falsy; every array and object is truthy. */
  predicate Truthy(v: Value)
  {
    v != Num(0) && v != Str("")
  }

  /** Keys of the other-input store: `${qid}` for single choice, `${qid}_${oid}` for multiple choice. */
  datatype OtherKey = QuestionKey(qid: int) | OptionKey(qid: int, oid: int)

  // ---------------------------------------------------------------------
  // The tree and its pre-order flattening
  // ---------------------------------------------------------------------

  /** Number of questions in a forest, every branch included. */
  function Count(qs: seq<Question>): nat
    decreases qs
  {
    if qs == [] then 0 else 1 + Count(qs[0].branch) + Count(qs[1..])
  }

  /** Number of questions in the subtree rooted at `q`. */
  function Size(q: Question): nat
  {
    1 + Count(q.branch)
  }

  /** The pre-order flattening: each node, then its branch, then its siblings. */
  function Flat(qs: seq<Question>): seq<Question>
    decreases qs
  {
    if qs == [] then [] else [qs[0]] + Flat(qs[0].branch) + Flat(qs[1..])
  }

  /** The flattening holds every node of the tree exactly once. */
  lemma {:induction false} FlatLength(qs: seq<Question>)
    ensures |Flat(qs)| == Count(qs)
    decreases qs
  {
    if qs != [] {
      FlatLength(qs[0].branch);
      FlatLength(qs[1..]);
    }
  }

  /** Flattening distributes over concatenation of sibling lists. */
  lemma {:induction false} FlatAppend(a: seq<Question>, b: seq<Question>)
    ensures Flat(a + b) == Flat(a) + Flat(b)
    decreases a
  {
    if a == [] {
      assert a + b == b;
    } else {
      assert (a + b)[0] == a[0];
      assert (a + b)[1..] == a[1..] + b;
      FlatAppend(a[1..], b);
    }
  }

  /** The three parts of a non-empty forest's flattening. */
  lemma {:induction false} FlatCons(qs: seq<Question>)
    requires qs != []
    ensures Flat(qs) == [qs[0]] + (Flat(qs[0].branch) + Flat(qs[1..]))
    ensures |Flat(qs[0].branch)| == Count(qs[0].branch) && Size(qs[0]) == 1 + |Flat(qs[0].branch)|
    ensures |Flat(qs[1..])| == Count(qs[1..])
  {
    FlatLength(qs[0].branch);
    FlatLength(qs[1..]);
  }

  /** In the flattening `f`, the node at position k is followed immediately by the flattening of its branch. */
  predicate SubtreeAt(f: seq<Question>, k: nat)
  {
    k < |f| && k + Size(f[k]) <= |f| && f[k..k + Size(f[k])] == [f[k]] + Flat(f[k].branch)
  }

  lemma SubtreeHead(q: Question, h: seq<Question>, f: seq<Question>)
    requires |Flat(q.branch)| == Count(q.branch)
    requires f == [q] + (Flat(q.branch) + h)
    ensures SubtreeAt(f, 0)
  {
    assert f[0..Size(q)] == [q] + Flat(q.branch);
  }

  lemma SubtreeInBranch(q: Question, g: seq<Question>, h: seq<Question>, j: nat, f: seq<Question>)
    requires SubtreeAt(g, j)
    requires f == [q] + (g + h)
    ensures SubtreeAt(f, j + 1)
  {
    assert f[j + 1] == g[j];
    assert f[j + 1..j + 1 + Size(g[j])] == g[j..j + Size(g[j])];
  }

  lemma SubtreeInRest(a: seq<Question>, h: seq<Question>, j: nat, f: seq<Question>, k: nat)
    requires SubtreeAt(h, j)
    requires f == a + h && k == |a| + j
    ensures SubtreeAt(f, k)
  {
    assert f[k] == h[j];
    assert f[k..k + Size(h[j])] == h[j..j + Size(h[j])];
  }

  /**
   * Pre-order: the node at flattened position k is followed immediately by the
   * flattening of its own branch.
   */
  lemma {:induction false} FlatSubtree(qs: seq<Question>, k: nat)
    requires k < Count(qs)
    ensures |Flat(qs)| == Count(qs)
    ensures SubtreeAt(Flat(qs), k)
    decreases qs, 1
  {
    FlatCons(qs);
    if k == 0 {
      SubtreeHead(qs[0], Flat(qs[1..]), Flat(qs));
    } else if k < Size(qs[0]) {
      FlatSubtreeInBranch(qs, k);
    } else {
      FlatSubtreeInRest(qs, k);
    }
  }

  lemma {:induction false} FlatSubtreeInBranch(qs: seq<Question>, k: nat)
    requires qs != [] && 0 < k < Size(qs[0])
    ensures |Flat(qs)| == Count(qs)
    ensures SubtreeAt(Flat(qs), k)
    decreases qs, 0
  {
    FlatCons(qs);
    var q := qs[0];
    FlatSubtree(q.branch, k - 1);
    SubtreeInBranch(q, Flat(q.branch), Flat(qs[1..]), k - 1, Flat(qs));
  }

  lemma {:induction false} FlatSubtreeInRest(qs: seq<Question>, k: nat)
    requires qs != [] && Size(qs[0]) <= k < Count(qs)
    ensures |Flat(qs)| == Count(qs)
    ensures SubtreeAt(Flat(qs), k)
    decreases qs, 0
  {
    FlatCons(qs);
    var q := qs[0];
    var a := [q] + Flat(q.branch);
    FlatSubtree(qs[1..], k - Size(q));
    SubtreeInRest(a, Flat(qs[1..]), k - Size(q), Flat(qs), k);
  }

  /**
   * flattenQuestions: walks the roots in order, pushing each node and then the
   * flattening of its non-empty branch.
   */
  method FlattenQuestions(tree: seq<Question>) returns (result: seq<Question>)
    ensures result == Flat(tree)
    ensures |result| == Count(tree)
    decreases tree
  {
    result := [];
    var i := 0;
    while i < |tree|
      invariant 0 <= i <= |tree|
      invariant result == Flat(tree[..i])
    {
      var node := tree[i];
      FlatSnoc(tree, i);
      result := result + [node];
      if |node.branch| > 0 {
        var sub := FlattenQuestions(node.branch);
        result := result + sub;
      }
      i := i + 1;
    }
    assert tree[..i] == tree;
    FlatLength(tree);
  }

  /** The flattening of one more root: that root, then its branch. */
  lemma FlatSnoc(tree: seq<Question>, i: nat)
    requires i < |tree|
    ensures Flat(tree[..i + 1]) == Flat(tree[..i]) + [tree[i]] + Flat(tree[i].branch)
  {
    var node := tree[i];
    assert Flat([node]) == [node] + Flat(node.branch) by {
      assert [node][1..] == [];
    }
    FlatAppend(tree[..i], [node]);
    assert tree[..i + 1] == tree[..i] + [node];
  }

  // ---------------------------------------------------------------------
  // Numbering (renderQuestions)
  // ---------------------------------------------------------------------

  /** A rendered question with its display number. */
  datatype Numbered = Numbered(question: Question, number: int)

  /**
   * renderQuestions: numbers the questions `startIndex + 1, startIndex + 2, ...`
   * in pre-order and returns the last number used.
   */
  method RenderQuestions(questions: seq<Question>, startIndex: int) returns (elements: seq<Numbered>, next: int)
    ensures |elements| == Count(questions)
    ensures next == startIndex + Count(questions)
    ensures |Flat(questions)| == |elements|
    ensures forall k :: 0 <= k < |elements| ==>
              elements[k] == Numbered(Flat(questions)[k], startIndex + k + 1)
    decreases questions
  {
    var idx := startIndex;
    elements := [];
    var i := 0;
    while i < |questions|
      invariant 0 <= i <= |questions|
      invariant |Flat(questions[..i])| == |elements|
      invariant idx == startIndex + |elements|
      invariant forall k :: 0 <= k < |elements| ==>
                  elements[k] == Numbered(Flat(questions[..i])[k], startIndex + k + 1)
    {
      var q := questions[i];
      idx := idx + 1;
      var before := elements;
      elements := elements + [Numbered(q, idx)];
      var sub: seq<Numbered> := [];
      if |q.branch| > 0 {
        var nextIdx;
        sub, nextIdx := RenderQuestions(q.branch, idx);
        elements := elements + sub;
        idx := nextIdx;
      } else {
        FlatLength(q.branch);
      }
      assert Flat([q]) == [q] + Flat(q.branch) by {
        assert [q][1..] == [];
      }
      FlatAppend(questions[..i], [q]);
      assert questions[..i + 1] == questions[..i] + [q];
      FlatLength(q.branch);
      assert |sub| == Count(q.branch);
      i := i + 1;
    }
    assert questions[..i] == questions;
    FlatLength(questions);
    next := idx;
  }

  // ---------------------------------------------------------------------
  // Branch resolution (handleChange)
  // ---------------------------------------------------------------------

  /** `findIndex(q => q.id === id)` over a question list. */
  function FirstIndexOf(all: seq<Question>, id: int): (r: Option<nat>)
    ensures r.Some? ==> r.value < |all| && all[r.value].id == id
    ensures r.Some? ==> forall j :: 0 <= j < r.value ==> all[j].id != id
    ensures r.None? ==> forall j :: 0 <= j < |all| ==> all[j].id != id
  {
    if all == [] then None
    else if all[0].id == id then Some(0)
    else match FirstIndexOf(all[1..], id)
      case None => None
      case Some(j) => Some(j + 1)
  }

  /** The source compares a rule's option with the answer by `===`. */
  predicate Matches(rule: BranchRule, value: Value)
  {
    value == Num(rule.optionId)
  }

  /** `branch_rules.find(br => br.option_id === value)`. */
  function FirstRule(rules: seq<BranchRule>, value: Value): (r: Option<BranchRule>)
    ensures r.Some? ==> exists i :: 0 <= i < |rules| && rules[i] == r.value &&
                          Matches(rules[i], value) &&
                          forall j :: 0 <= j < i ==> !Matches(rules[j], value)
    ensures r.None? ==> forall i :: 0 <= i < |rules| ==> !Matches(rules[i], value)
  {
    if rules == [] then None
    else if Matches(rules[0], value) then Some(rules[0])
    else
      var r := FirstRule(rules[1..], value);
      assert r.Some? ==> exists i :: 0 <= i < |rules[1..]| && rules[1..][i] == r.value &&
                          Matches(rules[1..][i], value) &&
                          forall j :: 0 <= j < i ==> !Matches(rules[1..][j], value);
      if r.Some? then
        var i :| 0 <= i < |rules[1..]| && rules[1..][i] == r.value &&
                 Matches(rules[1..][i], value) &&
                 forall j :: 0 <= j < i ==> !Matches(rules[1..][j], value);
        assert rules[i + 1] == r.value;
        assert forall j :: 0 <= j < i + 1 ==> !Matches(rules[j], value) by {
          forall j | 0 <= j < i + 1 ensures !Matches(rules[j], value) {
            if j > 0 { assert rules[j] == rules[1..][j - 1]; }
          }
        }
        r
      else r
  }

  /** Search loop of `handleChange` over the flattened tree. */
  method FindQuestionIndex(all: seq<Question>, id: int) returns (k: int)
    ensures -1 <= k < |all|
    ensures k == -1 <==> forall j :: 0 <= j < |all| ==> all[j].id != id
    ensures k >= 0 ==> all[k].id == id && forall j :: 0 <= j < k ==> all[j].id != id
  {
    k := 0;
    while k < |all|
      invariant 0 <= k <= |all|
      invariant forall j :: 0 <= j < k ==> all[j].id != id
    {
      if all[k].id == id {
        return;
      }
      k := k + 1;
    }
    k := -1;
  }

  /** Search loop of `handleChange` over a question's branch rules. */
  method FindRule(rules: seq<BranchRule>, value: Value) returns (r: Option<BranchRule>)
    ensures r == FirstRule(rules, value)
  {
    var i := 0;
    while i < |rules|
      invariant 0 <= i <= |rules|
      invariant FirstRule(rules, value) == FirstRule(rules[i..], value)
    {
      if Matches(rules[i], value) {
        assert rules[i..][0] == rules[i];
        return Some(rules[i]);
      }
      assert rules[i..][1..] == rules[i + 1..];
      i := i + 1;
    }
    r := None;
  }

  /**
   * The in-place `node.branch = []` of `handleChange`, applied to the node at
   * flattened position k (which may sit at any depth).
   */
  function ClearAt(qs: seq<Question>, k: nat): (r: seq<Question>)
    requires k < Count(qs)
    ensures |r| == |qs|
    decreases qs
  {
    var q := qs[0];
    if k == 0 then [q.(branch := [])] + qs[1..]
    else if k < Size(q) then [q.(branch := ClearAt(q.branch, k - 1))] + qs[1..]
    else [q] + ClearAt(qs[1..], k - Size(q))
  }

  /** The own data of every question of a forest, in pre-order. */
  function Infos(qs: seq<Question>): seq<QuestionData>
    decreases qs
  {
    if qs == [] then [] else [qs[0].info] + Infos(qs[0].branch) + Infos(qs[1..])
  }

  /** The own data of each question of a sequence, in order. */
  function Heads(s: seq<Question>): (r: seq<QuestionData>)
    ensures |r| == |s| && forall i :: 0 <= i < |s| ==> r[i] == s[i].info
  {
    seq(|s|, i requires 0 <= i < |s| => s[i].info)
  }

  lemma HeadsAppend(a: seq<Question>, b: seq<Question>)
    ensures Heads(a + b) == Heads(a) + Heads(b)
  {
  }

  /** `Infos` is the own data read off the flattening. */
  lemma {:induction false} InfosFlat(qs: seq<Question>)
    ensures Infos(qs) == Heads(Flat(qs))
    decreases qs
  {
    if qs != [] {
      InfosFlat(qs[0].branch);
      InfosFlat(qs[1..]);
      HeadsAppend([qs[0]], Flat(qs[0].branch));
      HeadsAppend([qs[0]] + Flat(qs[0].branch), Flat(qs[1..]));
    }
  }

  /** `fc` is `g` with the elements strictly between positions j and e left out. */
  predicate Spliced<T(==)>(fc: seq<T>, g: seq<T>, j: nat, e: nat)
  {
    j < e <= |g| && fc == g[..j + 1] + g[e..]
  }

  /** A splice in the right operand of a concatenation is a splice of the whole, shifted by the left operand. */
  lemma SpliceAfter<T>(a: seq<T>, h: seq<T>, fc: seq<T>, j: nat, e: nat, f: seq<T>, g: seq<T>, j': nat, e': nat)
    requires Spliced(fc, h, j, e)
    requires f == a + fc && g == a + h && j' == |a| + j && e' == |a| + e
    ensures Spliced(f, g, j', e')
  {
    assert (a + h)[..|a| + j + 1] == a + h[..j + 1];
    assert (a + h)[|a| + e..] == h[e..];
  }

  /** A splice in the middle part of `[x] + g + h` is a splice of the whole, one place further on. */
  lemma SpliceBranch<T>(x: T, g: seq<T>, h: seq<T>, fc: seq<T>, j: nat, e: nat, f: seq<T>, g': seq<T>, j': nat, e': nat)
    requires Spliced(fc, g, j, e)
    requires f == [x] + fc + h && g' == [x] + g + h && j' == j + 1 && e' == e + 1
    ensures Spliced(f, g', j', e')
  {
    assert ([x] + g + h)[..j + 2] == [x] + g[..j + 1];
    assert ([x] + g + h)[e + 1..] == g[e..] + h;
  }

  lemma {:induction false} InfosLength(qs: seq<Question>)
    ensures |Infos(qs)| == Count(qs)
    decreases qs
  {
    if qs != [] {
      InfosLength(qs[0].branch);
      InfosLength(qs[1..]);
    }
  }

  /** The size of the subtree rooted at flattened position k. */
  function SubtreeSize(qs: seq<Question>, k: nat): nat
    requires k < Count(qs)
    decreases qs
  {
    var q := qs[0];
    if k == 0 then Size(q)
    else if k < Size(q) then SubtreeSize(q.branch, k - 1)
    else SubtreeSize(qs[1..], k - Size(q))
  }

  lemma {:induction false} SubtreeSizeFlat(qs: seq<Question>, k: nat)
    requires k < Count(qs)
    ensures |Flat(qs)| == Count(qs) && SubtreeSize(qs, k) == Size(Flat(qs)[k])
    decreases qs
  {
    FlatCons(qs);
    var q := qs[0];
    if k == 0 {
      assert Flat(qs)[0] == q;
    } else if k < Size(q) {
      SubtreeSizeFlat(q.branch, k - 1);
      assert Flat(qs)[k] == Flat(q.branch)[k - 1];
    } else {
      SubtreeSizeFlat(qs[1..], k - Size(q));
      assert Flat(qs)[k] == Flat(qs[1..])[k - Size(q)];
    }
  }

  /**
   * Clearing the branch of the node at position k removes exactly that node's
   * follow-up questions from the pre-order sequence of question data; the
   * questions before it and after its subtree keep their order and their data.
   */
  lemma InfosCons(q: Question, rest: seq<Question>)
    ensures Infos([q] + rest) == [q.info] + Infos(q.branch) + Infos(rest)
  {
    assert ([q] + rest)[0] == q && ([q] + rest)[1..] == rest;
  }

  lemma {:induction false} ClearAtInfos(qs: seq<Question>, k: nat)
    requires k < Count(qs)
    ensures Spliced(Infos(ClearAt(qs, k)), Infos(qs), k, k + SubtreeSize(qs, k))
    decreases qs, 1
  {
    if k == 0 {
      ClearInfosHead(qs);
    } else if k < Size(qs[0]) {
      ClearInfosInBranch(qs, k);
    } else {
      ClearInfosInRest(qs, k);
    }
  }

  lemma ClearInfosHead(qs: seq<Question>)
    requires qs != []
    ensures 0 < Count(qs) && Spliced(Infos(ClearAt(qs, 0)), Infos(qs), 0, SubtreeSize(qs, 0))
  {
    var q := qs[0];
    var rest := qs[1..];
    InfosLength(q.branch);
    var r := ClearAt(qs, 0);
    assert r[0] == Question(q.info, []) && r[1..] == rest;
    assert Infos(r) == [q.info] + Infos(rest);
    var f := Infos(qs);
    assert f == [q.info] + Infos(q.branch) + Infos(rest);
    assert f[..1] == [q.info];
    assert f[Size(q)..] == Infos(rest);
  }

  lemma {:induction false} ClearInfosInBranch(qs: seq<Question>, k: nat)
    requires qs != [] && 0 < k < Size(qs[0])
    ensures k < Count(qs) && Spliced(Infos(ClearAt(qs, k)), Infos(qs), k, k + SubtreeSize(qs, k))
    decreases qs, 0
  {
    var q := qs[0];
    var rest := qs[1..];
    var c := ClearAt(q.branch, k - 1);
    ClearAtInfos(q.branch, k - 1);
    assert ClearAt(qs, k) == [q.(branch := c)] + rest;
    InfosCons(q.(branch := c), rest);
    InfosCons(q, rest);
    assert qs == [q] + rest;
    assert SubtreeSize(qs, k) == SubtreeSize(q.branch, k - 1);
    SpliceBranch(q.info, Infos(q.branch), Infos(rest), Infos(c), k - 1, k - 1 + SubtreeSize(q.branch, k - 1),
                 Infos(ClearAt(qs, k)), Infos(qs), k, k + SubtreeSize(qs, k));
  }

  lemma {:induction false} ClearInfosInRest(qs: seq<Question>, k: nat)
    requires qs != [] && Size(qs[0]) <= k < Count(qs)
    ensures Spliced(Infos(ClearAt(qs, k)), Infos(qs), k, k + SubtreeSize(qs, k))
    decreases qs, 0
  {
    var q := qs[0];
    var rest := qs[1..];
    InfosLength(q.branch);
    var j := k - Size(q);
    var c := ClearAt(rest, j);
    ClearAtInfos(rest, j);
    assert ClearAt(qs, k) == [q] + c;
    InfosCons(q, c);
    InfosCons(q, rest);
    assert qs == [q] + rest;
    var a := [q.info] + Infos(q.branch);
    assert SubtreeSize(qs, k) == SubtreeSize(rest, j);
    assert Infos(qs) == a + Infos(rest);
    assert Infos(ClearAt(qs, k)) == a + Infos(c);
    SpliceAfter(a, Infos(rest), Infos(c), j, j + SubtreeSize(rest, j), Infos(ClearAt(qs, k)), Infos(qs), k, k + SubtreeSize(qs, k));
  }

  /** Clearing a root question's branch (its flattened position follows the earlier roots' subtrees). */
  lemma {:induction false} ClearRoot(roots: seq<Question>, i: nat)
    requires i < |roots|
    ensures Count(roots[..i]) < Count(roots)
    ensures ClearAt(roots, Count(roots[..i])) == roots[i := roots[i].(branch := [])]
    decreases i
  {
    if i > 0 {
      var rest := roots[1..];
      assert roots[..i][1..] == rest[..i - 1];
      ClearRoot(rest, i - 1);
      assert roots[i := roots[i].(branch := [])] == [roots[0]] + rest[i - 1 := rest[i - 1].(branch := [])];
    }
  }

  /** `findIndex(q => q.id === id)` over the root list, then `{...root, branch}`. */
  function ReplaceRootBranch(roots: seq<Question>, id: int, branch: seq<Question>): (r: seq<Question>)
    ensures |r| == |roots|
  {
    match FirstIndexOf(roots, id)
    case None => roots
    case Some(i) => roots[i := roots[i].(branch := branch)]
  }

  /** Only the first root with that id is touched; every other root is unchanged. */
  lemma {:induction false} ReplaceRootBranchFrame(roots: seq<Question>, id: int, branch: seq<Question>)
    ensures var r := ReplaceRootBranch(roots, id, branch);
            |r| == |roots| &&
            (FirstIndexOf(roots, id).None? ==> r == roots) &&
            (FirstIndexOf(roots, id).Some? ==>
               var i := FirstIndexOf(roots, id).value;
               r[i] == Question(roots[i].info, branch) &&
               forall j :: 0 <= j < |roots| && j != i ==> r[j] == roots[j])
  {
  }

  /** A question list loaded from the server: every question starts with an empty branch. */
  function EmptyBranches(qs: seq<Question>): (r: seq<Question>)
    ensures |r| == |qs|
    ensures forall i :: 0 <= i < |qs| ==> r[i] == Question(qs[i].info, [])
  {
    seq(|qs|, i requires 0 <= i < |qs| => qs[i].(branch := []))
  }

  /** Fresh question lists flatten to themselves. */
  lemma {:induction false} EmptyBranchesFlat(qs: seq<Question>)
    ensures Flat(EmptyBranches(qs)) == EmptyBranches(qs)
    decreases qs
  {
    if qs != [] {
      var e := EmptyBranches(qs);
      assert e[1..] == EmptyBranches(qs[1..]);
      EmptyBranchesFlat(qs[1..]);
    }
  }

  /** The result of fetching a branch questionnaire. */
  datatype FetchOutcome = Fetched(questions: seq<Question>) | FetchFailed | FetchAborted

  /** The message `handleChange` shows, if any. */
  datatype Notice = NoNotice | IncompleteBranchConfig | BranchQuestionnaireMissing

  /** A rule leads somewhere only when `next_questionnaire_id` is truthy. */
  function RuleFor(question: Question, value: Value): Option<BranchRule>
  {
    match FirstRule(question.rules, value)
    case Some(rule) => if rule.nextQuestionnaireId != 0 then Some(rule) else None
    case None => None
  }

  /** The tree after `handleChange(id, value)` has resolved with the given fetch outcome. */
  function ChangedRoots(roots: seq<Question>, id: int, value: Value, fetch: FetchOutcome): seq<Question>
  {
    var all := Flat(roots);
    FlatLength(roots);
    match FirstIndexOf(all, id)
    case None => roots
    case Some(k) =>
      var cleared := ClearAt(roots, k);
      match RuleFor(all[k], value)
      case None => ReplaceRootBranch(cleared, id, [])
      case Some(rule) =>
        if rule.accessCode == "" then cleared
        else match fetch
          case Fetched(qs) => ReplaceRootBranch(cleared, id, EmptyBranches(qs))
          case _ => cleared
  }

  /** The warning `handleChange` raises. */
  function ChangeNotice(roots: seq<Question>, id: int, value: Value, fetch: FetchOutcome): Notice
  {
    var all := Flat(roots);
    FlatLength(roots);
    match FirstIndexOf(all, id)
    case None => NoNotice
    case Some(k) =>
      match RuleFor(all[k], value)
      case None => NoNotice
      case Some(rule) =>
        if rule.accessCode == "" then IncompleteBranchConfig
        else if fetch == FetchFailed then BranchQuestionnaireMissing
        else NoNotice
  }

  /**
   * The tree part of handleChange: find the question in flattened order,
   * clear its branch, then give the root with that id the fetched questions
   * or an empty branch.
   */
  method ResolveChange(roots: seq<Question>, questionId: int, value: Value, fetch: FetchOutcome)
    returns (changed: seq<Question>, notice: Notice)
    ensures changed == ChangedRoots(roots, questionId, value, fetch)
    ensures notice == ChangeNotice(roots, questionId, value, fetch)
  {
    var all := FlattenQuestions(roots);
    var qIdx := FindQuestionIndex(all, questionId);
    if qIdx == -1 {
      assert FirstIndexOf(all, questionId).None?;
      return roots, NoNotice;
    }
    assert FirstIndexOf(all, questionId) == Some(qIdx);
    var question := all[qIdx];
    var branchRule := FindRule(question.rules, value);
    changed := ClearAt(roots, qIdx);
    if branchRule.Some? && branchRule.value.nextQuestionnaireId != 0 {
      if branchRule.value.accessCode != "" {
        match fetch
        case Fetched(qs) =>
          changed := ReplaceRootBranch(changed, questionId, EmptyBranches(qs));
          notice := NoNotice;
        case FetchFailed =>
          notice := BranchQuestionnaireMissing;
        case FetchAborted =>
          notice := NoNotice;
      } else {
        notice := IncompleteBranchConfig;
      }
    } else {
      changed := ReplaceRootBranch(changed, questionId, []);
      notice := NoNotice;
    }
  }

  /** The branch a root question ends up with after the change. */
  function NewBranch(question: Question, value: Value, fetch: FetchOutcome): seq<Question>
  {
    match RuleFor(question, value)
    case None => []
    case Some(rule) =>
      if rule.accessCode != "" && fetch.Fetched? then EmptyBranches(fetch.questions) else []
  }

  /**
   * For a root question (no question before it in the flattened order has its
   * id), every outcome replaces that root's branch wholesale, with the fetched
   * questions or with nothing, and leaves every other root unchanged.
   */
  lemma {:induction false} RootChange(roots: seq<Question>, i: nat, value: Value, fetch: FetchOutcome)
    requires i < |roots|
    requires forall q :: q in Flat(roots[..i]) ==> q.id != roots[i].id
    ensures ChangedRoots(roots, roots[i].id, value, fetch) ==
            roots[i := roots[i].(branch := NewBranch(roots[i], value, fetch))]
  {
    var id := roots[i].id;
    RootPosition(roots, i);
    ClearRoot(roots, i);
    var cleared := roots[i := roots[i].(branch := [])];
    EarlierRootIds(roots, i);
    FirstRootIndex(cleared, i);
  }

  /** A root that no earlier root shares its id with is the one `findIndex` picks. */
  lemma {:induction false} FirstRootIndex(roots: seq<Question>, i: nat)
    requires i < |roots|
    requires forall j :: 0 <= j < i ==> roots[j].id != roots[i].id
    ensures FirstIndexOf(roots, roots[i].id) == Some(i)
  {
  }

  /** A root's flattened position is the size of the forest before it. */
  lemma {:induction false} RootPosition(roots: seq<Question>, i: nat)
    requires i < |roots|
    requires forall q :: q in Flat(roots[..i]) ==> q.id != roots[i].id
    ensures |Flat(roots)| == Count(roots) && Count(roots[..i]) < Count(roots)
    ensures Flat(roots)[Count(roots[..i])] == roots[i]
    ensures FirstIndexOf(Flat(roots), roots[i].id) == Some(Count(roots[..i]))
  {
    var id := roots[i].id;
    var pre := roots[..i];
    var post := roots[i..];
    assert roots == pre + post;
    FlatLength(roots);
    FlatAppend(pre, post);
    FlatCons(post);
    FlatLength(pre);
    assert post[0] == roots[i];
    var all := Flat(roots);
    var k := |Flat(pre)|;
    assert all[k] == roots[i];
    forall j | 0 <= j < k ensures all[j].id != id {
      assert all[j] == Flat(pre)[j];
    }
  }

  /** Every root before position i occurs in the flattening of the roots before i. */
  lemma {:induction false} EarlierRootIds(roots: seq<Question>, i: nat)
    requires i < |roots|
    requires forall q :: q in Flat(roots[..i]) ==> q.id != roots[i].id
    ensures forall j :: 0 <= j < i ==> roots[j].id != roots[i].id
  {
    var pre := roots[..i];
    forall j | 0 <= j < i ensures roots[j].id != roots[i].id {
      assert roots[j] == pre[j];
      FlatAppend(pre[..j], pre[j..]);
      assert pre == pre[..j] + pre[j..];
      assert pre[j..][0] == pre[j];
      assert Flat(pre[j..])[0] == pre[j];
      assert pre[j] in Flat(pre);
    }
  }


  /** A non-root question never receives a fetched branch: at most its own branch is cleared. */
  lemma {:induction false} NestedGetsNoBranch(roots: seq<Question>, id: int, value: Value, fetch: FetchOutcome)
    requires forall r :: r in roots ==> r.id != id
    ensures |Flat(roots)| == Count(roots)
    ensures FirstIndexOf(Flat(roots), id).None? ==> ChangedRoots(roots, id, value, fetch) == roots
    ensures FirstIndexOf(Flat(roots), id).Some? ==>
              ChangedRoots(roots, id, value, fetch) == ClearAt(roots, FirstIndexOf(Flat(roots), id).value)
  {
    FlatLength(roots);
    match FirstIndexOf(Flat(roots), id)
    case None =>
    case Some(k) =>
      var cleared := ClearAt(roots, k);
      ClearAtRootIds(roots, k);
      assert FirstIndexOf(cleared, id).None?;
  }

  /** Clearing a branch never changes the ids of the roots. */
  lemma {:induction false} ClearAtRootIds(qs: seq<Question>, k: nat)
    requires k < Count(qs)
    ensures forall i :: 0 <= i < |qs| ==> ClearAt(qs, k)[i].id == qs[i].id
    decreases qs
  {
    var q := qs[0];
    if k >= Size(q) {
      ClearAtRootIds(qs[1..], k - Size(q));
      var r := ClearAt(qs, k);
      forall i | 0 <= i < |qs| ensures r[i].id == qs[i].id {
        if i > 0 { assert r[i] == ClearAt(qs[1..], k - Size(q))[i - 1]; }
      }
    }
  }

  // ---------------------------------------------------------------------
  // Submission: validation and payload (handleSubmit)
  // ---------------------------------------------------------------------

  /** `!answers[q.id]`: no answer recorded, or a falsy one. */
  predicate IsMissing(answers: map<int, Value>, id: int)
  {
    id !in answers || !Truthy(answers[id])
  }

  /** `options.find(opt => opt.is_other)`: only the first "other" option is checked. */
  function FirstOther(options: seq<Choice>): (r: Option<Choice>)
    ensures r.Some? ==> r.value.isOther
    ensures r.Some? ==> exists i :: 0 <= i < |options| && options[i] == r.value &&
                          forall j :: 0 <= j < i ==> !options[j].isOther
    ensures r.None? ==> forall i :: 0 <= i < |options| ==> !options[i].isOther
  {
    if options == [] then None
    else if options[0].isOther then Some(options[0])
    else
      var r := FirstOther(options[1..]);
      if r.Some? then
        var i :| 0 <= i < |options[1..]| && options[1..][i] == r.value &&
                 forall j :: 0 <= j < i ==> !options[1..][j].isOther;
        assert options[i + 1] == r.value;
        assert forall j :: 0 <= j < i + 1 ==> !options[j].isOther by {
          forall j | 0 <= j < i + 1 ensures !options[j].isOther {
            if j > 0 { assert options[j] == options[1..][j - 1]; }
          }
        }
        r
      else r
  }

  /** `(answers[id] || []).includes(optionId)` for a list answer. */
  predicate Includes(answers: map<int, Value>, id: int, optionId: int)
  {
    id in answers && answers[id].Ids? && optionId in answers[id].ids
  }

  /** `!otherInputs[key]`: no text recorded, or the empty text. */
  predicate TextMissing(others: map<OtherKey, string>, key: OtherKey)
  {
    key !in others || others[key] == ""
  }

  /** The "other" option is chosen but its supplementary text is empty. */
  predicate OtherTextMissing(q: Question, answers: map<int, Value>, others: map<OtherKey, string>)
  {
    match FirstOther(q.options)
    case None => false
    case Some(o) =>
      (q.kind == Single && q.id in answers && answers[q.id] == Num(o.id) && TextMissing(others, QuestionKey(q.id)))
      || (q.kind == Multiple && Includes(answers, q.id, o.id) && TextMissing(others, OptionKey(q.id, o.id)))
  }

  /** The outcome of the check before submitting; positions are 1-based. */
  datatype Validation = Complete | MissingAnswer(position: nat) | MissingOtherText(position: nat)

  /**
   * The validation loop of `handleSubmit`: it reports the first flattened
   * position where the answer is missing or the "other" text is empty.
   */
  method Validate(all: seq<Question>, answers: map<int, Value>, others: map<OtherKey, string>)
    returns (r: Validation)
    ensures r.Complete? <==> forall k :: 0 <= k < |all| ==>
              !IsMissing(answers, all[k].id) && !OtherTextMissing(all[k], answers, others)
    ensures r.MissingAnswer? ==> 1 <= r.position <= |all| && IsMissing(answers, all[r.position - 1].id)
    ensures r.MissingOtherText? ==> 1 <= r.position <= |all|
    ensures r.MissingOtherText? ==> !IsMissing(answers, all[r.position - 1].id) && OtherTextMissing(all[r.position - 1], answers, others)
    ensures !r.Complete? ==> forall k :: 0 <= k < r.position - 1 ==>
              !IsMissing(answers, all[k].id) && !OtherTextMissing(all[k], answers, others)
  {
    var i := 0;
    while i < |all|
      invariant 0 <= i <= |all|
      invariant forall k :: 0 <= k < i ==>
                  !IsMissing(answers, all[k].id) && !OtherTextMissing(all[k], answers, others)
    {
      var q := all[i];
      if q.id !in answers || !Truthy(answers[q.id]) {
        return MissingAnswer(i + 1);
      }
      var otherOpt := FirstOther(q.options);
      if otherOpt.Some? {
        var o := otherOpt.value;
        var answer := answers[q.id];
        if (q.kind == Single && answer == Num(o.id) && TextMissing(others, QuestionKey(q.id)))
           || (q.kind == Multiple && answer.Ids? && o.id in answer.ids && TextMissing(others, OptionKey(q.id, o.id)))
        {
          return MissingOtherText(i + 1);
        }
      }
      i := i + 1;
    }
    r := Complete;
  }

  /**
   * One submission record per question.  The address text is JSON.stringify
   * of the stored value; the model keeps the value itself.
   */
  datatype Payload =
    | AddressPayload(questionId: int, encoded: Option<Value>)
    | SinglePayload(questionId: int, answer: Option<Value>, text: Option<string>)
    | MultiplePayload(questionId: int, answer: Option<Value>, text: Option<string>)
    | TextPayload(questionId: int, raw: Option<Value>)

  function Lookup(answers: map<int, Value>, id: int): Option<Value>
  {
    if id in answers then Some(answers[id]) else None
  }

  /** `otherInputs[key] || null`. */
  function NonEmptyText(others: map<OtherKey, string>, key: OtherKey): Option<string>
  {
    if key in others && others[key] != "" then Some(others[key]) else None
  }

  /** Non-empty other-texts of the selected "other" options of a multiple-choice question, in option order. */
  function OtherTexts(options: seq<Choice>, qid: int, answers: map<int, Value>, others: map<OtherKey, string>): (r: seq<string>)
    ensures |r| <= |options|
    ensures forall t :: t in r ==> t != ""
  {
    if options == [] then []
    else
      var o := options[0];
      var key := OptionKey(qid, o.id);
      var here := if o.isOther && Includes(answers, qid, o.id) && key in others && others[key] != ""
                  then [others[key]] else [];
      here + OtherTexts(options[1..], qid, answers, others)
  }

  /** Every collected text belongs to a selected "other" option of the question. */
  lemma {:induction false} OtherTextsSound(options: seq<Choice>, qid: int, answers: map<int, Value>, others: map<OtherKey, string>)
    ensures forall t :: t in OtherTexts(options, qid, answers, others) ==>
              exists o :: o in options && o.isOther && Includes(answers, qid, o.id) &&
                          OptionKey(qid, o.id) in others && others[OptionKey(qid, o.id)] == t
  {
    if options != [] {
      OtherTextsSound(options[1..], qid, answers, others);
      forall t | t in OtherTexts(options, qid, answers, others)
        ensures exists o :: o in options && o.isOther && Includes(answers, qid, o.id) &&
                            OptionKey(qid, o.id) in others && others[OptionKey(qid, o.id)] == t
      {
        if t !in OtherTexts(options[1..], qid, answers, others) {
          assert options[0] in options;
        } else {
          var o :| o in options[1..] && o.isOther && Includes(answers, qid, o.id) &&
                   OptionKey(qid, o.id) in others && others[OptionKey(qid, o.id)] == t;
          assert o in options;
        }
      }
    }
  }

  /** The text option `o` contributes to the multiple-choice record: its non-empty other-input when it is a selected "other" option. */
  function OtherTextOf(qid: int, answers: map<int, Value>, others: map<OtherKey, string>): Choice -> Option<string>
  {
    (o: Choice) =>
      if o.isOther && Includes(answers, qid, o.id) && OptionKey(qid, o.id) in others && others[OptionKey(qid, o.id)] != ""
      then Some(others[OptionKey(qid, o.id)]) else None
  }

  /**
   * The collected texts are exactly the contributions of the options, in
   * option order; so each text occurs once per selected "other" option
   * carrying it.
   */
  lemma {:induction false} OtherTextsExact(options: seq<Choice>, qid: int, answers: map<int, Value>, others: map<OtherKey, string>)
    ensures OtherTexts(options, qid, answers, others) == Collections.Collect(options, OtherTextOf(qid, answers, others))
    ensures forall t :: Collections.Occurrences(OtherTexts(options, qid, answers, others), t)
                        == Collections.Hits(options, OtherTextOf(qid, answers, others), t)
  {
    var f := OtherTextOf(qid, answers, others);
    if options != [] {
      OtherTextsExact(options[1..], qid, answers, others);
      Collections.CollectCons(options[0], options[1..], f);
      assert [options[0]] + options[1..] == options;
    }
    forall t {
      Collections.CollectCounts(options, f, t);
    }
  }

  /** Without a selected "other" option, no other-text is collected. */
  lemma {:induction false} OtherTextsNone(options: seq<Choice>, qid: int, answers: map<int, Value>, others: map<OtherKey, string>)
    requires forall o :: o in options && o.isOther ==> !Includes(answers, qid, o.id)
    ensures OtherTexts(options, qid, answers, others) == []
  {
    if options != [] {
      assert options[0] in options;
      OtherTextsNone(options[1..], qid, answers, others);
    }
  }

  function PayloadFor(q: Question, answers: map<int, Value>, others: map<OtherKey, string>): Payload
  {
    match q.kind
    case Address => AddressPayload(q.id, Lookup(answers, q.id))
    case Single => SinglePayload(q.id, Lookup(answers, q.id), NonEmptyText(others, QuestionKey(q.id)))
    case Multiple =>
      var texts := OtherTexts(q.options, q.id, answers, others);
      MultiplePayload(q.id, Lookup(answers, q.id), if |texts| > 0 then Some(Join(texts, ",")) else None)
    case _ => TextPayload(q.id, Lookup(answers, q.id))
  }

  /** The `answerArr` of `handleSubmit`: one record per flattened question, in the same order. */
  function BuildPayload(all: seq<Question>, answers: map<int, Value>, others: map<OtherKey, string>): (r: seq<Payload>)
    ensures |r| == |all|
    ensures forall i :: 0 <= i < |all| ==> r[i].questionId == all[i].id
    ensures forall i :: 0 <= i < |all| ==>
              (r[i].AddressPayload? <==> all[i].kind == Address) &&
              (r[i].SinglePayload? <==> all[i].kind == Single) &&
              (r[i].MultiplePayload? <==> all[i].kind == Multiple)
    ensures forall i :: 0 <= i < |all| && all[i].id in answers && !r[i].TextPayload? ==>
              (if r[i].AddressPayload? then r[i].encoded else r[i].answer) == Some(answers[all[i].id])
    ensures forall i :: 0 <= i < |all| && r[i].TextPayload? ==> r[i].raw == Lookup(answers, all[i].id)
    ensures forall i :: 0 <= i < |all| && r[i].SinglePayload? ==> r[i].text == NonEmptyText(others, QuestionKey(all[i].id))
    ensures forall i :: 0 <= i < |all| && r[i].MultiplePayload? ==>
      var texts := OtherTexts(all[i].options, all[i].id, answers, others);
      r[i].text == if texts != [] then Some(Join(texts, ",")) else None
  {
    seq(|all|, i requires 0 <= i < |all| => PayloadFor(all[i], answers, others))
  }

  // ---------------------------------------------------------------------
  // The form state
  // ---------------------------------------------------------------------

  /** The outcome of posting the payload. */
  datatype SubmitOutcome = Accepted(submissionId: int) | NoSubmissionId | PostFailed | PostAborted

  /** The state of the fill screen: the live tree, the answer store and the other-input store. */
  class FillForm {
    var roots: seq<Question>
    var answers: map<int, Value>
    var otherInputs: map<OtherKey, string>
    var submitted: bool
    const preview: bool

    /** The tree is created empty. */
    constructor (preview: bool)
      ensures this.preview == preview
      ensures roots == [] && answers == map[] && otherInputs == map[] && !submitted
    {
      this.preview := preview;
      roots := [];
      answers := map[];
      otherInputs := map[];
      submitted := false;
    }

    /** Loading the root questionnaire: every question starts with an empty branch; a failed load empties the tree. */
    method LoadRoot(fetch: FetchOutcome)
      modifies this`roots
      ensures fetch.Fetched? ==> roots == EmptyBranches(fetch.questions)
      ensures fetch.FetchFailed? ==> roots == []
      ensures fetch.FetchAborted? ==> roots == old(roots)
    {
      match fetch
      case Fetched(qs) =>
        var loaded: seq<Question> := [];
        for i := 0 to |qs|
          invariant loaded == EmptyBranches(qs[..i])
        {
          loaded := loaded + [qs[i].(branch := [])];
        }
        assert qs[..|qs|] == qs;
        roots := loaded;
      case FetchFailed =>
        roots := [];
      case FetchAborted =>
    }

    /** handleChange: record the answer, then resolve the question's branch. */
    method HandleChange(questionId: int, value: Value, fetch: FetchOutcome) returns (notice: Notice)
      modifies this`roots, this`answers
      ensures preview ==> roots == old(roots) && answers == old(answers) && notice == NoNotice
      ensures !preview ==> answers == old(answers)[questionId := value]
      ensures !preview ==> roots == ChangedRoots(old(roots), questionId, value, fetch)
      ensures !preview ==> notice == ChangeNotice(old(roots), questionId, value, fetch)
    {
      if preview {
        return NoNotice;
      }
      answers := answers[questionId := value];
      roots, notice := ResolveChange(roots, questionId, value, fetch);
    }

    /** handleOtherInput: record one supplementary text. */
    method HandleOtherInput(key: OtherKey, text: string)
      modifies this`otherInputs
      ensures preview ==> otherInputs == old(otherInputs)
      ensures !preview ==> otherInputs == old(otherInputs)[key := text]
    {
      if !preview {
        otherInputs := otherInputs[key := text];
      }
    }

    /**
     * handleSubmit: validate in flattened order, then build the payload and
     * post it; the post outcome is an input.  Returns the validation result,
     * the payload that was posted and the submission to navigate to.
     */
    method HandleSubmit(post: SubmitOutcome) returns (check: Option<Validation>, payload: Option<seq<Payload>>, navigateTo: Option<int>)
      modifies this`submitted
      ensures preview || old(submitted) ==> check.None? && payload.None? && navigateTo.None? && submitted == old(submitted)
      ensures !preview && !old(submitted) ==> check.Some?
      ensures check.Some? && !check.value.Complete? ==> payload.None? && navigateTo.None? && submitted == old(submitted)
      ensures check == Some(Complete) ==> payload == Some(BuildPayload(Flat(roots), answers, otherInputs))
      ensures check == Some(Complete) ==>
                (post.Accepted? && post.submissionId != 0 ==> navigateTo == Some(post.submissionId) && submitted) &&
                ((post.NoSubmissionId? || post.PostFailed? || (post.Accepted? && post.submissionId == 0)) ==>
                   navigateTo.None? && !submitted) &&
                (post.PostAborted? ==> navigateTo.None? && submitted)
    {
      check, payload, navigateTo := None, None, None;
      if preview || submitted {
        return;
      }
      var all := FlattenQuestions(roots);
      var v := Validate(all, answers, otherInputs);
      check := Some(v);
      if !v.Complete? {
        return;
      }
      submitted := true;
      payload := Some(BuildPayload(all, answers, otherInputs));
      match post
      case Accepted(sid) =>
        if sid != 0 {
          navigateTo := Some(sid);
        } else {
          submitted := false;
        }
      case NoSubmissionId =>
        submitted := false;
      case PostFailed =>
        submitted := false;
      case PostAborted =>
    }
  }

  // ---------------------------------------------------------------------
  // A worked example: answering X attaches questionnaire B, answering Y removes it
  // ---------------------------------------------------------------------

  lemma {:induction false} ReanswerReplacesBranch(a: Question, c: Question, x: int, y: int)
    requires a.kind == Single && a.branch == [] && x != y && x != 0 && y != 0
    requires a.rules == [BranchRule(x, 7, "b-code")]
    ensures var afterX := ChangedRoots([a], a.id, Num(x), Fetched([c]));
            Flat(afterX) == [a.(branch := [c.(branch := [])]), c.(branch := [])] &&
            Flat(ChangedRoots(afterX, a.id, Num(y), Fetched([c]))) == [a]
  {
    assert Flat([a]) == [a];
    RootChange([a], 0, Num(x), Fetched([c]));
    var a1 := a.(branch := [c.(branch := [])]);
    assert FirstRule(a.rules, Num(x)) == Some(a.rules[0]);
    assert NewBranch(a, Num(x), Fetched([c])) == [c.(branch := [])];
    assert Flat([a1]) == [a1] + Flat([c.(branch := [])]);
    assert Flat([c.(branch := [])]) == [c.(branch := [])];
    RootChange([a1], 0, Num(y), Fetched([c]));
    assert FirstRule(a1.rules, Num(y)) == None by {
      assert !Matches(a1.rules[0], Num(y));
    }
    assert a1.(branch := []) == a;
  }
}

=== FILE: fill_api.dfy ===
/**
 * The respondent side of backend/api/questionnaire.py: scoring a submitted
 * answer sheet (`submit_answers`) and the max-score lookup of `get_result`.
 *
 * The weighted dimension scores and the weighted total are floating point
 * and are not part of this model: `weigh` stands for the total the handler
 * computes from the raw dimension scores.  `pinyin` stands for
 * `''.join(lazy_pinyin(text))`.
 */
module FillApi {
  import opened Wrappers
  import opened Text
  import opened Records
  import opened Collections

  // ---------------------------------------------------------------------
  // The request body
  // ---------------------------------------------------------------------

  /** The `answer` field of one submitted answer, as JSON delivers it. */
  datatype AnswerField = NoAnswer | IntAnswer(n: int) | StrAnswer(s: string) | ListAnswer(items: seq<int>)

  /**
   * One entry of `answers`.  `questionId` is None when the field is missing,
   * null or not an integer (no question is keyed by anything else); `text`
   * is None when it is missing or null.
   */
  datatype AnswerInput = AnswerInput(questionId: Option<int>, answer: AnswerField, text: Option<string>)

  /** Python truthiness of the `answer` field. */
  predicate Truthy(f: AnswerField)
  {
    match f
    case NoAnswer => false
    case IntAnswer(n) => n != 0
    case StrAnswer(s) => s != ""
    case ListAnswer(items) => items != []
  }

  /** `int(answer)`, with None where Python raises TypeError or ValueError. */
  function AsInt(f: AnswerField): Option<int>
  {
    match f
    case IntAnswer(n) => Some(n)
    case StrAnswer(s) => ParseInt(s)
    case _ => None
  }

  /** A non-empty list in the `answer` field. */
  predicate NonEmptyList(f: AnswerField)
  {
    f.ListAnswer? && f.items != []
  }

  // ---------------------------------------------------------------------
  // The two lookups done before the loop
  // ---------------------------------------------------------------------

  /** The question ids of the payload, `[ans.get('question_id') for ans in answers]`. */
  function RequestedQuestions(answers: seq<AnswerInput>): (ids: seq<int>)
    ensures forall k :: 0 <= k < |answers| && answers[k].questionId.Some? ==> answers[k].questionId.value in ids
  {
    if answers == [] then []
    else
      var last := answers[|answers| - 1];
      RequestedQuestions(answers[..|answers| - 1]) + (if last.questionId.Some? then [last.questionId.value] else [])
  }

  /**
   * The ids one answer adds to the option query as the handler is written:
   * a list's items, or the truthy scalar itself.  A string is compared by
   * the database against the integer id column, which turns it into at most
   * one number; `coerce` stands for that conversion.
   */
  function RequestedAsWritten(f: AnswerField, coerce: string -> Option<int>): (ids: seq<int>)
    ensures f.StrAnswer? ==> |ids| <= 1
  {
    match f
    case ListAnswer(items) => items
    case IntAnswer(n) => if n != 0 then [n] else []
    case StrAnswer(s) => if s != "" && coerce(s).Some? then [coerce(s).value] else []
    case NoAnswer => []
  }

  /**
   * The ids one answer should add to the option query: besides the list's
   * items and the integer the answer spells, the ids of a comma-separated
   * string, which the multiple-choice branch reads.
   */
  function Requested(f: AnswerField): seq<int>
  {
    match f
    case ListAnswer(items) => items
    case IntAnswer(n) => [n]
    case StrAnswer(s) =>
      (if ParseInt(s).Some? then [ParseInt(s).value] else [])
      + (match ParsePieces(SplitOn(s, ',')) case Success(ids) => ids case Failure(_) => [])
    case NoAnswer => []
  }

  /**
   * An answer requests the id a single choice looks up and every id a
   * multiple choice selects.
   */
  lemma RequestedCovers(f: AnswerField)
    ensures AsInt(f).Some? ==> AsInt(f).value in Requested(f)
    ensures Selected(f).Success? ==> forall id :: id in Selected(f).value ==> id in Requested(f)
  {
  }

  /** The option ids collected over the whole payload, using `Requested`. */
  function RequestedOptions(answers: seq<AnswerInput>): (ids: seq<int>)
    ensures forall k, id :: 0 <= k < |answers| && id in Requested(answers[k].answer) ==> id in ids
  {
    if answers == [] then []
    else
      var init := answers[..|answers| - 1];
      assert forall k :: 0 <= k < |init| ==> init[k] == answers[k];
      RequestedOptions(init) + Requested(answers[|answers| - 1].answer)
  }

  /** `{q.id: q for q in Question.query.filter(Question.id.in_(ids), Question.is_deleted == False)}` */
  function QuestionsById(rows: seq<QuestionRow>, ids: seq<int>): (m: map<int, QuestionRow>)
    ensures forall id :: id in m ==> m[id] in rows && m[id].id == id && !m[id].isDeleted && id in ids
    ensures forall q :: q in rows && !q.isDeleted && q.id in ids ==> q.id in m
  {
    if rows == [] then map[]
    else
      var q := rows[|rows| - 1];
      var m := QuestionsById(rows[..|rows| - 1], ids);
      if !q.isDeleted && q.id in ids then m[q.id := q] else m
  }

  /** `{o.id: o for o in Option.query.filter(Option.id.in_(ids), Option.is_deleted == False)}` */
  function OptionsById(rows: seq<OptionRow>, ids: seq<int>): (m: map<int, OptionRow>)
    ensures forall id :: id in m ==> m[id] in rows && m[id].id == id && !m[id].isDeleted && id in ids
    ensures forall o :: o in rows && !o.isDeleted && o.id in ids ==> o.id in m
  {
    if rows == [] then map[]
    else
      var o := rows[|rows| - 1];
      var m := OptionsById(rows[..|rows| - 1], ids);
      if !o.isDeleted && o.id in ids then m[o.id := o] else m
  }

  // ---------------------------------------------------------------------
  // Selected options of a multiple-choice answer
  // ---------------------------------------------------------------------

  /**
   * `[int(x) for x in pieces if x.strip()]`: blank pieces are skipped and
   * the first piece that is not an integer raises.
   */
  function ParsePieces(pieces: seq<string>): (r: Result<seq<int>, ApiError>)
    ensures r.Success? ==> |r.value| <= |pieces|
    ensures r.Failure? ==> r.error.InvalidInteger?
  {
    if pieces == [] then Success([])
    else if Strip(pieces[0]) == "" then ParsePieces(pieces[1..])
    else match ParseInt(pieces[0])
      case None => Failure(InvalidInteger(pieces[0]))
      case Some(n) =>
        match ParsePieces(pieces[1..])
        case Failure(e) => Failure(e)
        case Success(ns) => Success([n] + ns)
  }

  /** The selected ids of a multiple-choice answer: a list as is, a string split on commas, anything else none. */
  function Selected(f: AnswerField): Result<seq<int>, ApiError>
  {
    match f
    case ListAnswer(items) => Success(items)
    case StrAnswer(s) => ParsePieces(SplitOn(s, ','))
    case _ => Success([])
  }

  /** The decimal forms of `ids`. */
  function Shown(ids: seq<int>): (parts: seq<string>)
    ensures |parts| == |ids|
    ensures forall k :: 0 <= k < |ids| ==> parts[k] == ShowInt(ids[k])
  {
    if ids == [] then [] else [ShowInt(ids[0])] + Shown(ids[1..])
  }

  lemma ShowIntNoComma(n: int)
    ensures ',' !in ShowInt(n)
  {
    var s := ShowInt(n);
    var d := if n < 0 then ShowNat(-n) else ShowNat(n);
    assert forall i :: 0 <= i < |d| ==> IsDigit(d[i]);
    if n < 0 {
      assert s == "-" + d;
      assert forall i :: 0 <= i < |s| ==> s[i] == '-' || IsDigit(s[i]);
    }
  }

  lemma {:induction false} ParseShown(ids: seq<int>)
    ensures ParsePieces(Shown(ids)) == Success(ids)
  {
    if ids != [] {
      var parts := Shown(ids);
      ParseShow(ids[0]);
      assert parts[0] == ShowInt(ids[0]);
      assert Strip(parts[0]) != "";
      assert parts[1..] == Shown(ids[1..]);
      ParseShown(ids[1..]);
      assert [ids[0]] + ids[1..] == ids;
    }
  }

  /** A string answer `"3,4,7"` selects exactly the ids it lists. */
  lemma SelectedCommaJoin(ids: seq<int>)
    ensures Selected(StrAnswer(Join(Shown(ids), ","))) == Success(ids)
  {
    if ids == [] {
      assert ParsePieces([""]) == ParsePieces([]);
    } else {
      forall p | p in Shown(ids)
        ensures ',' !in p
      {
        var k :| 0 <= k < |ids| && Shown(ids)[k] == p;
        ShowIntNoComma(ids[k]);
      }
      SplitJoin(Shown(ids), ',');
      ParseShown(ids);
    }
  }

  /** The 400 raised for a selected id that has no option: "选项不存在: <id>". */
  predicate MissingOption(e: ApiError)
  {
    e.BadRequest? && |e.msg| > 7 && e.msg[..7] == "选项不存在: "
  }

  /** An option's score: its value, with null counting as 0. */
  function ValueOf(o: OptionRow): int
  {
    o.value.GetOr(0)
  }

  /**
   * The running sum over the selected ids (`value += option.value`): the
   * first id without a fetched option stops it with a 400.
   */
  function SelectedTotal(ids: seq<int>, options: map<int, OptionRow>): (r: Result<int, ApiError>)
    ensures r.Success? <==> forall k :: 0 <= k < |ids| ==> ids[k] in options
    ensures r.Failure? ==> MissingOption(r.error)
  {
    if ids == [] then Success(0)
    else
      var id := ids[|ids| - 1];
      match SelectedTotal(ids[..|ids| - 1], options)
      case Failure(e) => Failure(e)
      case Success(v) =>
        if id in options then Success(v + ValueOf(options[id])) else Failure(BadRequest("选项不存在: " + ShowInt(id)))
  }

  /** The error names the first selected id that has no option. */
  lemma {:induction false} SelectedTotalFirstMissing(ids: seq<int>, options: map<int, OptionRow>, k: nat)
    requires k < |ids| && ids[k] !in options
    requires forall j :: 0 <= j < k ==> ids[j] in options
    ensures SelectedTotal(ids, options) == Failure(BadRequest("选项不存在: " + ShowInt(ids[k])))
  {
    if k < |ids| - 1 {
      var init := ids[..|ids| - 1];
      assert init[k] == ids[k];
      SelectedTotalFirstMissing(init, options, k);
    } else {
      assert SelectedTotal(ids[..|ids| - 1], options).Success?;
    }
  }

  lemma {:induction false} SelectedTotalFailedPrefix(ids: seq<int>, options: map<int, OptionRow>, n: nat)
    requires n <= |ids|
    requires SelectedTotal(ids[..n], options).Failure?
    ensures SelectedTotal(ids, options) == SelectedTotal(ids[..n], options)
    decreases |ids| - n
  {
    if n < |ids| {
      assert ids[..n + 1][..n] == ids[..n];
      SelectedTotalFailedPrefix(ids, options, n + 1);
    } else {
      assert ids[..n] == ids;
    }
  }

  /** The loop over `selected_ids`. */
  method SumSelected(ids: seq<int>, options: map<int, OptionRow>) returns (r: Result<int, ApiError>)
    ensures r == SelectedTotal(ids, options)
  {
    var value := 0;
    var i := 0;
    while i < |ids|
      invariant 0 <= i <= |ids|
      invariant SelectedTotal(ids[..i], options) == Success(value)
    {
      var id := ids[i];
      assert ids[..i + 1][..i] == ids[..i];
      if id !in options {
        SelectedTotalFailedPrefix(ids, options, i + 1);
        return Failure(BadRequest("选项不存在: " + ShowInt(id)));
      }
      value := value + ValueOf(options[id]);
      i := i + 1;
    }
    assert ids[..i] == ids;
    r := Success(value);
  }

  // ---------------------------------------------------------------------
  // One answer
  // ---------------------------------------------------------------------

  /** What the loop does with one answer: skip it, reject the sheet, or store a row. */
  datatype Scored = Skip | Rejected(error: ApiError) | Stored(row: AnswerRow)

  /**
   * The value of one answer and the ids it selects: a multiple-choice
   * answer sums its selected options; any other answer that reads as an
   * integer scores the option with that id.
   */
  function AnswerValue(kind: QuestionKind, answer: AnswerField, options: map<int, OptionRow>): (r: Result<(int, seq<int>), ApiError>)
    ensures r.Failure? ==> MissingOption(r.error) || r.error.InvalidInteger?
  {
    if kind == MultipleKind then
      match Selected(answer)
      case Failure(e) => Failure(e)
      case Success(ids) =>
        match SelectedTotal(ids, options)
        case Failure(e) => Failure(e)
        case Success(v) => Success((v, ids))
    else
      match AsInt(answer)
      case None => Success((0, []))
      case Some(id) =>
        if id in options then Success((ValueOf(options[id]), []))
        else Failure(BadRequest("选项不存在: " + ShowInt(id)))
  }

  /** Whether some selected id names an `is_other` option. */
  predicate SelectsOther(selected: seq<int>, options: map<int, OptionRow>)
  {
    exists k :: 0 <= k < |selected| && selected[k] in options && options[selected[k]].isOther
  }

  /**
   * One pass of the answer loop.  The checks run in source order: unknown
   * question, empty question id, empty answer, then the value computation;
   * an address answer keeps only its text.
   */
  function ScoreOne(a: AnswerInput, questions: map<int, QuestionRow>, options: map<int, OptionRow>, sid: int): (r: Scored)
    ensures r.Skip? <==> a.questionId.None? || a.questionId.value !in questions
    ensures r.Stored? ==> r.row.submissionId == sid && a.questionId == Some(r.row.questionId)
    ensures r == Rejected(BadRequest("题目ID不能为空")) ==> a.questionId == Some(0) && 0 in questions
    ensures r == Rejected(BadRequest("答案不能为空")) ==>
      AsInt(a.answer).None? && !Given(a.text) && !NonEmptyList(a.answer)
    ensures a.questionId.Some? && a.questionId.value in questions && a.questionId.value != 0 &&
            AsInt(a.answer).None? && !Given(a.text) && !NonEmptyList(a.answer) ==>
      r == Rejected(BadRequest("答案不能为空"))
  {
    if a.questionId.None? || a.questionId.value !in questions then Skip
    else
      var qid := a.questionId.value;
      var kind := questions[qid].kind;
      var optionId := AsInt(a.answer);
      if qid == 0 then Rejected(BadRequest("题目ID不能为空"))
      else if optionId.None? && !Given(a.text) && !NonEmptyList(a.answer) then Rejected(BadRequest("答案不能为空"))
      else
        match AnswerValue(kind, a.answer, options)
        case Failure(e) =>
          assert "题目ID不能为空"[0] != "选项不存在: "[0] && "答案不能为空"[0] != "选项不存在: "[0];
          Rejected(e)
        case Success(scored) =>
          var (value, selected) := scored;
          var savesText := Given(a.text) && (
            || (kind == MultipleKind && SelectsOther(selected, options))
            || (kind == SingleKind && optionId.Some? && optionId.value in options && options[optionId.value].isOther)
            || kind == TextKind);
          if kind == AddressKind then Stored(AnswerRow(sid, qid, None, None, None, a.text))
          else if kind == MultipleKind then
            Stored(AnswerRow(sid, qid, None, Some(value), Some(selected), if savesText then a.text else None))
          else Stored(AnswerRow(sid, qid, optionId, Some(value), None, if savesText then a.text else None))
  }

  /**
   * Free text is stored for exactly three kinds of answer: a multiple-choice
   * answer selecting an `is_other` option, a single-choice answer on an
   * `is_other` option, and a text question; an address answer stores its
   * text whatever it is.
   */
  lemma StoredText(a: AnswerInput, questions: map<int, QuestionRow>, options: map<int, OptionRow>, sid: int)
    requires ScoreOne(a, questions, options, sid).Stored?
    ensures var row, kind := ScoreOne(a, questions, options, sid).row, questions[a.questionId.value].kind;
      && (kind == AddressKind ==> row.textAnswer == a.text && row.optionId.None? && row.value.None? && row.selectedOptionIds.None?)
      && (kind != AddressKind ==> (row.textAnswer.Some? ==> row.textAnswer == a.text))
      && (kind != AddressKind ==>
           (row.textAnswer.Some? <==>
             Given(a.text) && (
               || (kind == MultipleKind && SelectsOther(row.selectedOptionIds.value, options))
               || (kind == SingleKind && row.optionId.Some? && row.optionId.value in options && options[row.optionId.value].isOther)
               || kind == TextKind)))
  {
  }

  /**
   * A stored multiple-choice answer selects only fetched options and scores
   * their sum; any other stored choice scores its option's value, or 0 when
   * the answer names no option.
   */
  lemma StoredValue(a: AnswerInput, questions: map<int, QuestionRow>, options: map<int, OptionRow>, sid: int)
    requires ScoreOne(a, questions, options, sid).Stored?
    ensures var row, kind := ScoreOne(a, questions, options, sid).row, questions[a.questionId.value].kind;
      && (kind == MultipleKind ==>
            && row.selectedOptionIds.Some?
            && Selected(a.answer) == Success(row.selectedOptionIds.value)
            && (forall id :: id in row.selectedOptionIds.value ==> id in options)
            && row.value == Some(SelectedTotal(row.selectedOptionIds.value, options).value)
            && row.optionId.None?)
      && (kind != MultipleKind && kind != AddressKind ==>
            && row.optionId == AsInt(a.answer)
            && (row.optionId.Some? ==> row.optionId.value in options && row.value == Some(ValueOf(options[row.optionId.value])))
            && (row.optionId.None? ==> row.value == Some(0)))
  {
    var kind := questions[a.questionId.value].kind;
    if kind == MultipleKind {
      var ids := Selected(a.answer).value;
      assert forall k :: 0 <= k < |ids| ==> ids[k] in options;
    }
  }

  /** The loop body of `submit_answers` for one answer, with its inner loop over the selected ids. */
  method ScoreAnswer(a: AnswerInput, questions: map<int, QuestionRow>, options: map<int, OptionRow>, sid: int) returns (r: Scored)
    ensures r == ScoreOne(a, questions, options, sid)
  {
    if a.questionId.None? || a.questionId.value !in questions {
      return Skip;
    }
    var qid := a.questionId.value;
    var kind := questions[qid].kind;
    var optionId := AsInt(a.answer);
    if qid == 0 {
      return Rejected(BadRequest("题目ID不能为空"));
    }
    if optionId.None? && !Given(a.text) && !NonEmptyList(a.answer) {
      return Rejected(BadRequest("答案不能为空"));
    }
    var value := 0;
    var selected: seq<int> := [];
    if kind == MultipleKind {
      var parsed := Selected(a.answer);
      if parsed.Failure? {
        return Rejected(parsed.error);
      }
      selected := parsed.value;
      var sum := SumSelected(selected, options);
      if sum.Failure? {
        return Rejected(sum.error);
      }
      value := sum.value;
    } else if optionId.Some? {
      if optionId.value !in options {
        return Rejected(BadRequest("选项不存在: " + ShowInt(optionId.value)));
      }
      value := ValueOf(options[optionId.value]);
    }
    var savesText := Given(a.text) && (
      || (kind == MultipleKind && SelectsOther(selected, options))
      || (kind == SingleKind && optionId.Some? && optionId.value in options && options[optionId.value].isOther)
      || kind == TextKind);
    if kind == AddressKind {
      return Stored(AnswerRow(sid, qid, None, None, None, a.text));
    }
    r := Stored(AnswerRow(sid, qid, if kind == MultipleKind then None else optionId, Some(value),
      if kind == MultipleKind then Some(selected) else None, if savesText then a.text else None));
  }

  // ---------------------------------------------------------------------
  // The answer loop
  // ---------------------------------------------------------------------

  /** The number of answers whose question was fetched. */
  function CountKnown(answers: seq<AnswerInput>, questions: map<int, QuestionRow>): (n: nat)
    ensures n <= |answers|
  {
    if answers == [] then 0
    else
      var last := answers[|answers| - 1];
      CountKnown(answers[..|answers| - 1], questions) + (if last.questionId.Some? && last.questionId.value in questions then 1 else 0)
  }

  /** `answers_to_insert`, or the first rejection. */
  function ScoreAll(answers: seq<AnswerInput>, questions: map<int, QuestionRow>, options: map<int, OptionRow>, sid: int): (r: Result<seq<AnswerRow>, ApiError>)
    ensures r.Success? <==> forall k :: 0 <= k < |answers| ==> !ScoreOne(answers[k], questions, options, sid).Rejected?
    ensures r.Success? ==> |r.value| == CountKnown(answers, questions)
    ensures r.Success? ==> forall row :: row in r.value ==> row.submissionId == sid && row.questionId in questions
  {
    if answers == [] then Success([])
    else
      var init := answers[..|answers| - 1];
      assert forall k :: 0 <= k < |init| ==> init[k] == answers[k];
      match ScoreAll(init, questions, options, sid)
      case Failure(e) => Failure(e)
      case Success(rows) =>
        match ScoreOne(answers[|answers| - 1], questions, options, sid)
        case Skip => Success(rows)
        case Rejected(e) => Failure(e)
        case Stored(row) => Success(rows + [row])
  }

  /** The sheet is rejected with the error of the first rejected answer. */
  lemma {:induction false} ScoreAllFirstRejection(answers: seq<AnswerInput>, questions: map<int, QuestionRow>, options: map<int, OptionRow>, sid: int, k: nat)
    requires k < |answers| && ScoreOne(answers[k], questions, options, sid).Rejected?
    requires forall j :: 0 <= j < k ==> !ScoreOne(answers[j], questions, options, sid).Rejected?
    ensures ScoreAll(answers, questions, options, sid) == Failure(ScoreOne(answers[k], questions, options, sid).error)
  {
    var init := answers[..|answers| - 1];
    if k < |answers| - 1 {
      assert init[k] == answers[k];
      assert forall j :: 0 <= j < k ==> init[j] == answers[j];
      ScoreAllFirstRejection(init, questions, options, sid, k);
    } else {
      assert forall j :: 0 <= j < |init| ==> init[j] == answers[j];
    }
  }

  lemma {:induction false} ScoreAllFailedPrefix(answers: seq<AnswerInput>, questions: map<int, QuestionRow>, options: map<int, OptionRow>, sid: int, n: nat)
    requires n <= |answers|
    requires ScoreAll(answers[..n], questions, options, sid).Failure?
    ensures ScoreAll(answers, questions, options, sid) == ScoreAll(answers[..n], questions, options, sid)
    decreases |answers| - n
  {
    if n < |answers| {
      assert answers[..n + 1][..n] == answers[..n];
      ScoreAllFailedPrefix(answers, questions, options, sid, n + 1);
    } else {
      assert answers[..n] == answers;
    }
  }

  /** The answer loop of `submit_answers`. */
  method ScoreAnswers(answers: seq<AnswerInput>, questions: map<int, QuestionRow>, options: map<int, OptionRow>, sid: int)
    returns (r: Result<seq<AnswerRow>, ApiError>)
    ensures r == ScoreAll(answers, questions, options, sid)
  {
    var rows: seq<AnswerRow> := [];
    var i := 0;
    while i < |answers|
      invariant 0 <= i <= |answers|
      invariant ScoreAll(answers[..i], questions, options, sid) == Success(rows)
    {
      var scored := ScoreAnswer(answers[i], questions, options, sid);
      assert answers[..i + 1][..i] == answers[..i];
      assert answers[..i + 1][i] == answers[i];
      match scored {
        case Skip =>
        case Rejected(e) =>
          ScoreAllFailedPrefix(answers, questions, options, sid, i + 1);
          return Failure(e);
        case Stored(row) =>
          rows := rows + [row];
      }
      i := i + 1;
    }
    assert answers[..i] == answers;
    r := Success(rows);
  }

  // ---------------------------------------------------------------------
  // Raw dimension scores
  // ---------------------------------------------------------------------

  /** `Dimension.query.get(id)`: the row with that primary key, deleted or not. */
  function DimensionById(dims: seq<DimensionRow>, id: int): (r: Option<DimensionRow>)
    ensures r.Some? ==> r.value in dims && r.value.id == id
    ensures r.None? ==> forall d :: d in dims ==> d.id != id
  {
    match First(dims, (d: DimensionRow) => d.id == id)
    case None => None
    case Some(k) => Some(dims[k])
  }

  /**
   * The dimension a stored row scores into: its question's dimension id
   * when that is truthy, the dimension exists and it is not the basic
   * information one.
   */
  function ScoredDimension(row: AnswerRow, questions: map<int, QuestionRow>, dims: seq<DimensionRow>): Option<int>
  {
    if row.questionId in questions && questions[row.questionId].dimensionId.Some? then
      var d := questions[row.questionId].dimensionId.value;
      var dim := DimensionById(dims, d);
      if d != 0 && dim.Some? && dim.value.name != Basic then Some(d) else None
    else None
  }

  /** `raw_dim_scores` after the loop over the stored rows. */
  function RawScores(rows: seq<AnswerRow>, questions: map<int, QuestionRow>, dims: seq<DimensionRow>): (m: map<int, int>)
    ensures forall d :: d in m ==> DimensionById(dims, d).Some? && DimensionById(dims, d).value.name != Basic
  {
    if rows == [] then map[]
    else
      var m := RawScores(rows[..|rows| - 1], questions, dims);
      var row := rows[|rows| - 1];
      match ScoredDimension(row, questions, dims)
      case None => m
      case Some(d) => m[d := (if d in m then m[d] else 0) + row.value.GetOr(0)]
  }

  /** Reference definition: the sum of the values of the rows that score into `d`. */
  function DimensionSum(rows: seq<AnswerRow>, questions: map<int, QuestionRow>, dims: seq<DimensionRow>, d: int): int
  {
    if rows == [] then 0
    else
      var row := rows[0];
      (if ScoredDimension(row, questions, dims) == Some(d) then row.value.GetOr(0) else 0)
      + DimensionSum(rows[1..], questions, dims, d)
  }

  /** Splitting off the last row of the reference sum. */
  lemma {:induction false} DimensionSumLast(rows: seq<AnswerRow>, questions: map<int, QuestionRow>, dims: seq<DimensionRow>, d: int)
    requires rows != []
    ensures var row := rows[|rows| - 1];
      DimensionSum(rows, questions, dims, d) ==
        DimensionSum(rows[..|rows| - 1], questions, dims, d) + (if ScoredDimension(row, questions, dims) == Some(d) then row.value.GetOr(0) else 0)
  {
    if |rows| > 1 {
      assert rows[1..][..|rows[1..]| - 1] == rows[..|rows| - 1][1..];
      DimensionSumLast(rows[1..], questions, dims, d);
    }
  }

  /**
   * A dimension has a raw score exactly when some row scores into it, and
   * the score is the sum of those rows' values; the basic information
   * dimension never has one.
   */
  lemma {:induction false} RawScoresAreSums(rows: seq<AnswerRow>, questions: map<int, QuestionRow>, dims: seq<DimensionRow>, d: int)
    ensures d in RawScores(rows, questions, dims) <==> exists k :: 0 <= k < |rows| && ScoredDimension(rows[k], questions, dims) == Some(d)
    ensures d in RawScores(rows, questions, dims) ==> RawScores(rows, questions, dims)[d] == DimensionSum(rows, questions, dims, d)
    ensures d !in RawScores(rows, questions, dims) ==> DimensionSum(rows, questions, dims, d) == 0
  {
    if rows != [] {
      var init := rows[..|rows| - 1];
      RawScoresAreSums(init, questions, dims, d);
      DimensionSumLast(rows, questions, dims, d);
      assert forall k :: 0 <= k < |init| ==> init[k] == rows[k];
    }
  }

  /** The loop that fills `raw_dim_scores`. */
  method DimensionScores(rows: seq<AnswerRow>, questions: map<int, QuestionRow>, dims: seq<DimensionRow>) returns (m: map<int, int>)
    ensures m == RawScores(rows, questions, dims)
  {
    m := map[];
    for i := 0 to |rows|
      invariant m == RawScores(rows[..i], questions, dims)
    {
      assert rows[..i + 1][..i] == rows[..i];
      var row := rows[i];
      var d := ScoredDimension(row, questions, dims);
      if d.Some? {
        m := m[d.value := (if d.value in m then m[d.value] else 0) + row.value.GetOr(0)];
      }
    }
    assert rows[..|rows|] == rows;
  }

  // ---------------------------------------------------------------------
  // The respondent's group
  // ---------------------------------------------------------------------

  /** The basic information dimension of a questionnaire, deleted or not. */
  function BasicDimension(dims: seq<DimensionRow>, questionnaireId: int): (r: Option<DimensionRow>)
    ensures r.Some? ==> r.value in dims && r.value.questionnaireId == questionnaireId && r.value.name == Basic
    ensures r.None? ==> forall d :: d in dims ==> !(d.questionnaireId == questionnaireId && d.name == Basic)
  {
    match First(dims, (d: DimensionRow) => d.questionnaireId == questionnaireId && d.name == Basic)
    case None => None
    case Some(k) => Some(dims[k])
  }

  /**
   * An answer decides the group when its question is a single-choice
   * question of the basic dimension whose text mentions the department
   * ("科室"), and its truthy answer reads as the id of a fetched option.
   */
  predicate DecidesGroup(a: AnswerInput, questions: map<int, QuestionRow>, options: map<int, OptionRow>, basicId: int)
  {
    && a.questionId.Some? && a.questionId.value in questions
    && questions[a.questionId.value].dimensionId == Some(basicId)
    && questions[a.questionId.value].kind == SingleKind
    && Contains(questions[a.questionId.value].text, "科室")
    && Truthy(a.answer)
    && AsInt(a.answer).Some? && AsInt(a.answer).value in options
  }

  /** `generate_group_key`: the question's pinyin, '_', the option's pinyin. */
  function GroupKeyOf(a: AnswerInput, questions: map<int, QuestionRow>, options: map<int, OptionRow>, basicId: int, pinyin: string -> string): string
    requires DecidesGroup(a, questions, options, basicId)
  {
    pinyin(questions[a.questionId.value].text) + "_" + pinyin(options[AsInt(a.answer).value].text)
  }

  /** The group key of a sheet: that of the first answer that decides it. */
  function GroupKey(answers: seq<AnswerInput>, questions: map<int, QuestionRow>, options: map<int, OptionRow>,
                    dims: seq<DimensionRow>, questionnaireId: int, pinyin: string -> string): (r: Option<string>)
    ensures BasicDimension(dims, questionnaireId).None? ==> r.None?
    ensures BasicDimension(dims, questionnaireId).Some? ==>
      var basicId := BasicDimension(dims, questionnaireId).value.id;
      && (r.None? <==> forall k :: 0 <= k < |answers| ==> !DecidesGroup(answers[k], questions, options, basicId))
      && (r.Some? ==>
            exists k :: 0 <= k < |answers| && DecidesGroup(answers[k], questions, options, basicId) &&
              (forall j :: 0 <= j < k ==> !DecidesGroup(answers[j], questions, options, basicId)) &&
              r.value == GroupKeyOf(answers[k], questions, options, basicId, pinyin))
  {
    match BasicDimension(dims, questionnaireId)
    case None => None
    case Some(basic) =>
      match First(answers, (a: AnswerInput) => DecidesGroup(a, questions, options, basic.id))
      case None => None
      case Some(k) => Some(GroupKeyOf(answers[k], questions, options, basic.id, pinyin))
  }

  /** The loop over the answers that breaks at the first answer deciding the group. */
  method FindGroupKey(answers: seq<AnswerInput>, questions: map<int, QuestionRow>, options: map<int, OptionRow>,
                      dims: seq<DimensionRow>, questionnaireId: int, pinyin: string -> string) returns (key: Option<string>)
    ensures key == GroupKey(answers, questions, options, dims, questionnaireId, pinyin)
  {
    var basic := BasicDimension(dims, questionnaireId);
    if basic.None? {
      return None;
    }
    var i := 0;
    while i < |answers|
      invariant 0 <= i <= |answers|
      invariant forall j :: 0 <= j < i ==> !DecidesGroup(answers[j], questions, options, basic.value.id)
    {
      if DecidesGroup(answers[i], questions, options, basic.value.id) {
        return Some(GroupKeyOf(answers[i], questions, options, basic.value.id, pinyin));
      }
      i := i + 1;
    }
    key := None;
  }

  // ---------------------------------------------------------------------
  // Assessment bands
  // ---------------------------------------------------------------------

  /** The bands a lookup considers: one dimension's, or the questionnaire's total-score bands. */
  datatype LevelScope = DimensionScope(dimensionId: int) | TotalScope(questionnaireId: int)

  predicate InScope(l: LevelRow, scope: LevelScope)
  {
    match scope
    case DimensionScope(d) => l.dimensionId == Some(d)
    case TotalScope(q) => l.questionnaireId == q && l.dimensionId.None?
  }

  /** A band of the scope and group whose closed interval holds the score (deleted bands included). */
  predicate Covers(l: LevelRow, scope: LevelScope, score: int, group: Option<string>)
  {
    InScope(l, scope) && l.minScore <= score <= l.maxScore && l.groupKey == group
  }

  function FirstBand(levels: seq<LevelRow>, scope: LevelScope, score: int, group: Option<string>): Option<LevelRow>
  {
    match First(levels, (l: LevelRow) => Covers(l, scope, score, group))
    case None => None
    case Some(k) => Some(levels[k])
  }

  /**
   * The band lookup of `submit_answers`: with a group key, the group's first
   * covering band, else the first ungrouped one; without, only ungrouped bands.
   */
  function ChooseLevel(levels: seq<LevelRow>, scope: LevelScope, score: int, group: Option<string>): (r: Option<LevelRow>)
    ensures r.Some? ==> r.value in levels && InScope(r.value, scope) && r.value.minScore <= score <= r.value.maxScore
    ensures r.Some? ==> r.value.groupKey.None? || (Given(group) && r.value.groupKey == group)
    ensures Given(group) && (exists l :: l in levels && Covers(l, scope, score, group)) ==> r.Some? && r.value.groupKey == group
    ensures r.None? <==>
      (forall l :: l in levels ==> !Covers(l, scope, score, None)) &&
      (Given(group) ==> forall l :: l in levels ==> !Covers(l, scope, score, group))
  {
    if Given(group) then
      match FirstBand(levels, scope, score, group)
      case Some(l) => Some(l)
      case None => FirstBand(levels, scope, score, None)
    else FirstBand(levels, scope, score, None)
  }

  /** A live band of the scope and group, as the max-score queries of `get_result` filter them. */
  predicate Configures(l: LevelRow, scope: LevelScope, group: Option<string>)
  {
    !l.isDeleted && InScope(l, scope) && l.groupKey == group
  }

  /** `.order_by(max_score.desc()).first()`: the earliest band with the largest upper bound. */
  function HighestBand(levels: seq<LevelRow>, scope: LevelScope, group: Option<string>): (r: Option<LevelRow>)
    ensures r.Some? ==> r.value in levels && Configures(r.value, scope, group)
    ensures r.Some? ==> forall l :: l in levels && Configures(l, scope, group) ==> l.maxScore <= r.value.maxScore
    ensures r.None? ==> forall l :: l in levels ==> !Configures(l, scope, group)
  {
    if levels == [] then None
    else
      var rest := HighestBand(levels[1..], scope, group);
      if Configures(levels[0], scope, group) && (rest.None? || rest.value.maxScore <= levels[0].maxScore) then Some(levels[0])
      else rest
  }

  /**
   * The max score `get_result` reports for a scope: the largest upper bound
   * among the group's live bands, else among the ungrouped ones, else 100.
   */
  function MaxScore(levels: seq<LevelRow>, scope: LevelScope, group: Option<string>): (m: int)
    ensures ((forall l :: l in levels ==> !Configures(l, scope, None)) &&
             (Given(group) ==> forall l :: l in levels ==> !Configures(l, scope, group))) ==> m == 100
    ensures Given(group) && (exists l :: l in levels && Configures(l, scope, group)) ==>
      (exists l :: l in levels && Configures(l, scope, group) && l.maxScore == m) &&
      (forall l :: l in levels && Configures(l, scope, group) ==> l.maxScore <= m)
    ensures ((!Given(group) || forall l :: l in levels ==> !Configures(l, scope, group)) &&
             (exists l :: l in levels && Configures(l, scope, None))) ==>
      (exists l :: l in levels && Configures(l, scope, None) && l.maxScore == m) &&
      (forall l :: l in levels && Configures(l, scope, None) ==> l.maxScore <= m)
  {
    var config :=
      if Given(group) then
        (match HighestBand(levels, scope, group) case Some(l) => Some(l) case None => HighestBand(levels, scope, None))
      else HighestBand(levels, scope, None);
    if config.Some? then config.value.maxScore else 100
  }

  /**
   * The dimensions `get_result` reports, with their max scores: the live
   * dimensions of the questionnaire, in table order, that some answered
   * question belongs to, except the basic information one.
   */
  function ReportedDimensions(dims: seq<DimensionRow>, questionnaireId: int, answered: set<int>, levels: seq<LevelRow>, group: Option<string>)
    : (r: seq<(int, int)>)
    ensures |r| <= |dims|
    ensures forall e :: e in r ==>
      exists d :: d in dims && d.id == e.0 && IsReported(d, questionnaireId, answered)
    ensures forall e :: e in r ==> e.1 == MaxScore(levels, DimensionScope(e.0), group)
  {
    if dims == [] then []
    else
      var d := dims[0];
      var rest := ReportedDimensions(dims[1..], questionnaireId, answered, levels, group);
      if IsReported(d, questionnaireId, answered)
      then [(d.id, MaxScore(levels, DimensionScope(d.id), group))] + rest
      else rest
  }

  /** A dimension `get_result` reports: live, of the questionnaire, answered, and not the basic information one. */
  predicate IsReported(d: DimensionRow, questionnaireId: int, answered: set<int>)
  {
    d.questionnaireId == questionnaireId && !d.isDeleted && d.id in answered && d.name != Basic
  }

  function ReportedFn(questionnaireId: int, answered: set<int>): DimensionRow -> bool
  {
    (d: DimensionRow) => IsReported(d, questionnaireId, answered)
  }

  /**
   * The report lists the reported dimensions in table order: its i-th entry
   * is the i-th dimension that qualifies, with that dimension's max score.
   */
  lemma {:induction false} ReportedDimensionsExact(dims: seq<DimensionRow>, questionnaireId: int, answered: set<int>,
                                                   levels: seq<LevelRow>, group: Option<string>)
    ensures var r, f := ReportedDimensions(dims, questionnaireId, answered, levels, group), Filter(dims, ReportedFn(questionnaireId, answered));
      && |r| == |f|
      && forall i :: 0 <= i < |r| ==> r[i] == (f[i].id, MaxScore(levels, DimensionScope(f[i].id), group))
  {
    if dims != [] {
      ReportedDimensionsExact(dims[1..], questionnaireId, answered, levels, group);
      FilterCons(dims[0], dims[1..], ReportedFn(questionnaireId, answered));
      assert [dims[0]] + dims[1..] == dims;
    }
  }

  /** Every live, answered dimension of the questionnaire other than basic information is reported. */
  lemma ReportedDimensionsComplete(dims: seq<DimensionRow>, questionnaireId: int, answered: set<int>,
                                   levels: seq<LevelRow>, group: Option<string>, d: DimensionRow)
    requires d in dims && IsReported(d, questionnaireId, answered)
    ensures (d.id, MaxScore(levels, DimensionScope(d.id), group)) in ReportedDimensions(dims, questionnaireId, answered, levels, group)
  {
    ReportedDimensionsExact(dims, questionnaireId, answered, levels, group);
    FilterMembers(dims, ReportedFn(questionnaireId, answered));
    var f := Filter(dims, ReportedFn(questionnaireId, answered));
    assert d in f;
    var i :| 0 <= i < |f| && f[i] == d;
    assert ReportedDimensions(dims, questionnaireId, answered, levels, group)[i] == (d.id, MaxScore(levels, DimensionScope(d.id), group));
  }

  /** Dimension ids are primary keys, so no dimension is reported twice. */
  lemma ReportedOnce(dims: seq<DimensionRow>, questionnaireId: int, answered: set<int>,
                      levels: seq<LevelRow>, group: Option<string>)
    requires forall i, j :: 0 <= i < j < |dims| ==> dims[i].id != dims[j].id
    ensures forall i, j :: 0 <= i < j < |ReportedDimensions(dims, questionnaireId, answered, levels, group)| ==>
      ReportedDimensions(dims, questionnaireId, answered, levels, group)[i].0 !=
      ReportedDimensions(dims, questionnaireId, answered, levels, group)[j].0
  {
    var r := ReportedDimensions(dims, questionnaireId, answered, levels, group);
    var f := Filter(dims, ReportedFn(questionnaireId, answered));
    ReportedDimensionsExact(dims, questionnaireId, answered, levels, group);
    FilterDistinctKeys(dims, ReportedFn(questionnaireId, answered), (d: DimensionRow) => d.id);
    forall i, j | 0 <= i < j < |r|
      ensures r[i].0 != r[j].0
    {
      assert r[i].0 == f[i].id && r[j].0 == f[j].id;
    }
  }

  // ---------------------------------------------------------------------
  // submit_answers
  // ---------------------------------------------------------------------

  /** `Questionnaire.query.filter_by(access_code=code, is_published=True).first()` */
  function FindPublished(questionnaires: seq<QuestionnaireRow>, accessCode: string): (r: Option<QuestionnaireRow>)
    ensures r.Some? ==> r.value in questionnaires && r.value.accessCode == accessCode && r.value.isPublished
    ensures r.None? ==> forall q :: q in questionnaires ==> !(q.accessCode == accessCode && q.isPublished)
  {
    match First(questionnaires, (q: QuestionnaireRow) => q.accessCode == accessCode && q.isPublished)
    case None => None
    case Some(k) => Some(questionnaires[k])
  }

  /**
   * What `submit_answers` writes, or why it answers with an error: the new
   * submission row (id `t.nextId`) and its answer rows.
   */
  function Submit(t: Tables, accessCode: string, answers: seq<AnswerInput>, pinyin: string -> string, weigh: map<int, int> -> int)
    : (r: Result<(SubmissionRow, seq<AnswerRow>), ApiError>)
    ensures answers == [] ==> r == Failure(BadRequest("答案数据不能为空"))
    ensures answers != [] && FindPublished(t.questionnaires, accessCode).None? ==> r == Failure(ServerError)
    ensures r.Success? ==>
      && r.value.0.id == t.nextId
      && FindPublished(t.questionnaires, accessCode).Some?
      && r.value.0.questionnaireId == FindPublished(t.questionnaires, accessCode).value.id
      && !r.value.0.isDeleted
      && forall row :: row in r.value.1 ==> row.submissionId == t.nextId
  {
    if answers == [] then Failure(BadRequest("答案数据不能为空"))
    else match FindPublished(t.questionnaires, accessCode)
      case None => Failure(ServerError)
      case Some(qn) =>
        var sid := t.nextId;
        var questions := QuestionsById(t.questions, RequestedQuestions(answers));
        var options := OptionsById(t.options, RequestedOptions(answers));
        match ScoreAll(answers, questions, options, sid)
        case Failure(e) => Failure(e)
        case Success(rows) =>
          var raw := RawScores(rows, questions, t.dimensions);
          var group := GroupKey(answers, questions, options, t.dimensions, qn.id, pinyin);
          var level := ChooseLevel(t.levels, TotalScope(qn.id), weigh(raw), group);
          var name := if level.Some? then Some(level.value.name) else None;
          Success((SubmissionRow(sid, qn.id, group, name, false), rows))
  }

  /**
   * The handler: on success the submission and its answers are appended;
   * on any error the transaction is rolled back and nothing changes.
   */
  method SubmitAnswers(db: Db, accessCode: string, answers: seq<AnswerInput>, pinyin: string -> string, weigh: map<int, int> -> int)
    returns (r: Result<int, ApiError>)
    requires db.tables.Valid()
    modifies db
    ensures db.tables.Valid()
    ensures Submit(old(db.tables), accessCode, answers, pinyin, weigh).Failure? ==>
      r == Failure(Submit(old(db.tables), accessCode, answers, pinyin, weigh).error) && db.tables == old(db.tables)
    ensures Submit(old(db.tables), accessCode, answers, pinyin, weigh).Success? ==>
      var t, (submission, rows) := old(db.tables), Submit(old(db.tables), accessCode, answers, pinyin, weigh).value;
      && r == Success(submission.id)
      && db.tables == t.(submissions := t.submissions + [submission], answers := t.answers + rows, nextId := t.nextId + 1)
  {
    var t := db.tables;
    if answers == [] {
      return Failure(BadRequest("答案数据不能为空"));
    }
    var qn := FindPublished(t.questionnaires, accessCode);
    if qn.None? {
      return Failure(ServerError);
    }
    var sid := t.nextId;
    var questions := QuestionsById(t.questions, RequestedQuestions(answers));
    var options := OptionsById(t.options, RequestedOptions(answers));
    var scored := ScoreAnswers(answers, questions, options, sid);
    if scored.Failure? {
      return Failure(scored.error);
    }
    var rows := scored.value;
    var raw := DimensionScores(rows, questions, t.dimensions);
    var group := FindGroupKey(answers, questions, options, t.dimensions, qn.value.id, pinyin);
    var level := ChooseLevel(t.levels, TotalScope(qn.value.id), weigh(raw), group);
    var submission := SubmissionRow(sid, qn.value.id, group, if level.Some? then Some(level.value.name) else None, false);
    Record(db, submission, rows);
    r := Success(sid);
  }

  /** The commit: the submission row and its answers are appended. */
  method Record(db: Db, submission: SubmissionRow, rows: seq<AnswerRow>)
    requires db.tables.Valid() && submission.id == db.tables.nextId
    modifies db
    ensures db.tables.Valid()
    ensures db.tables == old(db.tables).(submissions := old(db.tables).submissions + [submission],
      answers := old(db.tables).answers + rows, nextId := old(db.tables).nextId + 1)
  {
    var t := db.tables;
    db.tables := t.(submissions := t.submissions + [submission], answers := t.answers + rows, nextId := t.nextId + 1);
  }

  // ---------------------------------------------------------------------
  // The option query as written
  // ---------------------------------------------------------------------

  /** The option ids the handler as written collects over the payload. */
  function RequestedOptionsAsWritten(answers: seq<AnswerInput>, coerce: string -> Option<int>): (ids: seq<int>)
    ensures forall k, id :: 0 <= k < |answers| && id in RequestedAsWritten(answers[k].answer, coerce) ==> id in ids
  {
    if answers == [] then []
    else
      var init := answers[..|answers| - 1];
      assert forall k :: 0 <= k < |init| ==> init[k] == answers[k];
      RequestedOptionsAsWritten(init, coerce) + RequestedAsWritten(answers[|answers| - 1].answer, coerce)
  }

  /**
   * As written, a sheet whose only answer selects two live options of a
   * multiple-choice question as the string "3,4" is rejected: the string
   * brings at most one of the two ids into the option query.
   */
  lemma CommaAnswerRejectedAsWritten(question: QuestionRow, o3: OptionRow, o4: OptionRow, coerce: string -> Option<int>, sid: int)
    requires question.kind == MultipleKind && !question.isDeleted && question.id != 0
    requires o3.id == 3 && o4.id == 4 && !o3.isDeleted && !o4.isDeleted
    ensures var answers := [AnswerInput(Some(question.id), StrAnswer("3,4"), None)];
      var questions := QuestionsById([question], RequestedQuestions(answers));
      var options := OptionsById([o3, o4], RequestedOptionsAsWritten(answers, coerce));
      ScoreAll(answers, questions, options, sid).Failure?
  {
    var answers := [AnswerInput(Some(question.id), StrAnswer("3,4"), None)];
    var questions := QuestionsById([question], RequestedQuestions(answers));
    var requested := RequestedOptionsAsWritten(answers, coerce);
    var options := OptionsById([o3, o4], requested);
    assert answers[..0] == [];
    assert requested == RequestedOptionsAsWritten(answers[..0], coerce) + RequestedAsWritten(StrAnswer("3,4"), coerce);
    assert question.id in questions;
    SelectsThreeAndFour();
    assert 3 !in options || 4 !in options;
    assert SelectedTotal([3, 4], options).Failure?;
    assert AnswerValue(MultipleKind, StrAnswer("3,4"), options).Failure?;
    assert ScoreOne(answers[0], questions, options, sid).Rejected?;
  }

  lemma SelectsThreeAndFour()
    ensures Selected(StrAnswer("3,4")) == Success([3, 4])
  {
    SelectedCommaJoin([3, 4]);
    assert Join(Shown([3, 4]), ",") == "3,4";
  }

  /**
   * With `Requested`, a multiple-choice answer given as a comma-separated
   * list of live option ids is scored as the sum of their values.
   */
  lemma CommaAnswerScored(answers: seq<AnswerInput>, rows: seq<OptionRow>, k: nat, ids: seq<int>)
    requires k < |answers| && answers[k].answer == StrAnswer(Join(Shown(ids), ","))
    requires forall id :: id in ids ==> exists o :: o in rows && o.id == id && !o.isDeleted
    ensures var options := OptionsById(rows, RequestedOptions(answers));
      && SelectedTotal(ids, options).Success?
      && AnswerValue(MultipleKind, answers[k].answer, options) == Success((SelectedTotal(ids, options).value, ids))
  {
    var f := answers[k].answer;
    var requested := RequestedOptions(answers);
    var options := OptionsById(rows, requested);
    SelectedCommaJoin(ids);
    assert Selected(f) == Success(ids);
    RequestedCovers(f);
    forall id | id in ids
      ensures id in options
    {
      assert id in requested;
      var o :| o in rows && o.id == id && !o.isDeleted;
    }
    assert forall j :: 0 <= j < |ids| ==> ids[j] in options;
    assert SelectedTotal(ids, options).Success?;
  }
}

=== FILE: level_config.dfy ===
/**
 * The score-band editor (front/src/components/Admin/AssessmentLevelConfig.tsx):
 * the overlap check run before saving a band, the same check run while the
 * scores are typed, and the filtered, newest-first list of bands.
 *
 * A band's `group_key` or `dimension_id` that the backend sends as `null` is
 * `None`.  The form's dimension field is compared with `===`, which tells
 * `undefined` from `null`, so it has a type of its own (`FormDimension`).
 */
module LevelConfig {
  import opened Wrappers
  import opened Text
  import opened Collections

  datatype Level = Level(
    id: int,
    minScore: int,
    maxScore: int,
    name: string,
    groupKey: Option<string>,
    dimensionId: Option<int>)

  /** The editor's "配置类型": a band of the total score, or of one dimension. */
  datatype ConfigType = TotalConfig | DimensionConfig

  /**
   * The form's `dimension_id` field: never set since `form.resetFields()`
   * (`undefined`), set to `null` from a band without a dimension by
   * `handleEdit`, or a chosen dimension id.
   */
  datatype FormDimension = Unset | Cleared | Chosen(id: int)

  /** `level.dimension_id === currentDimensionId`, with the band's `null` as `None`. */
  predicate SameDimension(l: Level, dimension: FormDimension)
  {
    match dimension
    case Unset => false
    case Cleared => l.dimensionId.None?
    case Chosen(d) => l.dimensionId == Some(d)
  }

  /** `!level.dimension_id`: no dimension, or the falsy id 0. */
  predicate NoDimension(l: Level)
  {
    l.dimensionId.None? || l.dimensionId == Some(0)
  }

  /** `currentId && level.id === currentId`: the band being edited, when there is one. */
  predicate IsEdited(l: Level, currentId: Option<int>)
  {
    currentId.Some? && currentId.value != 0 && l.id == currentId.value
  }

  /** The bands a new or edited band is checked against. */
  predicate Comparable(l: Level, currentId: Option<int>, group: Option<string>, config: ConfigType, dimension: FormDimension)
  {
    && !IsEdited(l, currentId)
    && l.groupKey == group
    && match config
       case DimensionConfig => SameDimension(l, dimension)
       case TotalConfig => NoDimension(l)
  }

  function ComparableFn(currentId: Option<int>, group: Option<string>, config: ConfigType, dimension: FormDimension): Level -> bool
  {
    (l: Level) => Comparable(l, currentId, group, config, dimension)
  }

  /** The closed ranges `[minScore, maxScore]` and `[l.minScore, l.maxScore]` conflict; touching ends count. */
  predicate Overlaps(minScore: int, maxScore: int, l: Level)
  {
    minScore <= l.maxScore && maxScore >= l.minScore
  }

  /** The score `x` lies in the closed range `[lo, hi]`. */
  predicate InRange(x: int, lo: int, hi: int)
  {
    lo <= x <= hi
  }

  /**
   * For well-formed ranges the test is exactly "some score lies in both",
   * so [0,60] and [60,70] conflict while [0,59] and [60,70] do not.
   */
  lemma OverlapsMeansSharedScore(minScore: int, maxScore: int, l: Level)
    requires minScore <= maxScore && l.minScore <= l.maxScore
    ensures Overlaps(minScore, maxScore, l) <==>
      exists x :: InRange(x, minScore, maxScore) && InRange(x, l.minScore, l.maxScore)
  {
    if Overlaps(minScore, maxScore, l) {
      var x := if minScore < l.minScore then l.minScore else minScore;
      assert InRange(x, minScore, maxScore) && InRange(x, l.minScore, l.maxScore);
    }
  }

  /** The outcome of `checkScoreOverlap`, with what its error message names. */
  datatype Verdict = NoConflict | Inverted | Conflict(level: Level)

  /** `checkScoreOverlap`: an inverted range, or the first comparable band it overlaps. */
  function OverlapCheck(levels: seq<Level>, minScore: int, maxScore: int, currentId: Option<int>,
                        group: Option<string>, config: ConfigType, dimension: FormDimension): (v: Verdict)
    ensures v.Inverted? <==> minScore > maxScore
    ensures v.Conflict? ==> v.level in levels && Comparable(v.level, currentId, group, config, dimension)
                            && Overlaps(minScore, maxScore, v.level)
  {
    if minScore > maxScore then Inverted
    else
      var existing := Filter(levels, ComparableFn(currentId, group, config, dimension));
      match First(existing, (l: Level) => Overlaps(minScore, maxScore, l))
      case None => NoConflict
      case Some(k) => Conflict(existing[k])
  }

  /** The check passes exactly when the range is not inverted and no comparable band overlaps it. */
  lemma OverlapCheckPasses(levels: seq<Level>, minScore: int, maxScore: int, currentId: Option<int>,
                           group: Option<string>, config: ConfigType, dimension: FormDimension)
    ensures OverlapCheck(levels, minScore, maxScore, currentId, group, config, dimension) == NoConflict <==>
      && minScore <= maxScore
      && forall l :: l in levels && Comparable(l, currentId, group, config, dimension) ==> !Overlaps(minScore, maxScore, l)
  {
    var existing := Filter(levels, ComparableFn(currentId, group, config, dimension));
    FilterMembers(levels, ComparableFn(currentId, group, config, dimension));
    if minScore <= maxScore {
      var k := First(existing, (l: Level) => Overlaps(minScore, maxScore, l));
      if k.None? {
        forall l | l in levels && Comparable(l, currentId, group, config, dimension)
          ensures !Overlaps(minScore, maxScore, l)
        {
          assert l in existing;
          var i :| 0 <= i < |existing| && existing[i] == l;
        }
      }
    }
  }

  /** The loop of `checkScoreOverlap` over the comparable bands, returning at the first overlap. */
  method CheckScoreOverlap(levels: seq<Level>, minScore: int, maxScore: int, currentId: Option<int>,
                           group: Option<string>, config: ConfigType, dimension: FormDimension) returns (v: Verdict)
    ensures v == OverlapCheck(levels, minScore, maxScore, currentId, group, config, dimension)
  {
    if minScore > maxScore {
      return Inverted;
    }
    var existing := Filter(levels, ComparableFn(currentId, group, config, dimension));
    var i := 0;
    while i < |existing|
      invariant 0 <= i <= |existing|
      invariant forall j :: 0 <= j < i ==> !Overlaps(minScore, maxScore, existing[j])
    {
      if minScore <= existing[i].maxScore && maxScore >= existing[i].minScore {
        return Conflict(existing[i]);
      }
      i := i + 1;
    }
    return NoConflict;
  }

  // ---------------------------------------------------------------------
  // The check run while typing (`checkScoreOverlapRealTime`)
  // ---------------------------------------------------------------------

  const InvertedMessage: string := "分数下限不能大于分数上限"

  /** `分数范围与现有规则"<name>"(<min>-<max>)重叠` */
  function ConflictMessage(l: Level): string
  {
    "分数范围与现有规则\"" + l.name + "\"(" + ShowInt(l.minScore) + "-" + ShowInt(l.maxScore) + ")重叠"
  }

  /** A number field that is set and non-zero. */
  predicate TruthyScore(x: Option<int>)
  {
    x.Some? && x.value != 0
  }

  /** The state of the band editor the real-time check reads and writes. */
  class LevelEditor {
    var levels: seq<Level>
    var editing: Option<Level>
    var config: ConfigType
    var group: Option<string>
    var dimension: FormDimension
    var scoreOverlapError: string

    constructor (levels: seq<Level>)
      ensures this.levels == levels && editing.None? && config == TotalConfig
      ensures group.None? && dimension == Unset && scoreOverlapError == ""
    {
      this.levels := levels;
      editing := None;
      config := TotalConfig;
      group := None;
      dimension := Unset;
      scoreOverlapError := "";
    }

    /**
     * `handleAdd`: nothing is edited, the form is reset (so the dimension is
     * `undefined`), the type is "total" and the group is the list's group.
     */
    method HandleAdd(groupKey: Option<string>)
      modifies this
      ensures editing.None? && config == TotalConfig && group == groupKey && dimension == Unset
      ensures scoreOverlapError == "" && levels == old(levels)
    {
      editing := None;
      dimension := Unset;
      config := TotalConfig;
      scoreOverlapError := "";
      group := groupKey;
    }

    /**
     * `handleEdit`: the band is copied into the form, so a band without a
     * dimension puts `null` in the dimension field; the type is "dimension"
     * exactly when the band's dimension id is truthy.
     */
    method HandleEdit(record: Level)
      modifies this
      ensures editing == Some(record) && group == record.groupKey && scoreOverlapError == "" && levels == old(levels)
      ensures config == (if NoDimension(record) then TotalConfig else DimensionConfig)
      ensures dimension == (if record.dimensionId.Some? then Chosen(record.dimensionId.value) else Cleared)
    {
      editing := Some(record);
      config := if NoDimension(record) then TotalConfig else DimensionConfig;
      scoreOverlapError := "";
      dimension := if record.dimensionId.Some? then Chosen(record.dimensionId.value) else Cleared;
      group := record.groupKey;
    }

    /** The id of the band being edited (`editing?.id`). */
    function EditedId(): Option<int>
      reads this
    {
      match editing
      case Some(l) => Some(l.id)
      case None => None
    }

    /** The message the real-time check leaves for the scores typed so far. */
    function RealTimeError(minScore: Option<int>, maxScore: Option<int>): (msg: string)
      reads this
      ensures !TruthyScore(minScore) || !TruthyScore(maxScore) ==> msg == ""
      ensures TruthyScore(minScore) && TruthyScore(maxScore) && minScore.value <= maxScore.value && !Given(group) ==> msg == ""
    {
      if !TruthyScore(minScore) || !TruthyScore(maxScore) then ""
      else if minScore.value > maxScore.value then InvertedMessage
      else if !Given(group) then ""
      else match OverlapCheck(levels, minScore.value, maxScore.value, EditedId(), group, config, dimension)
        case Conflict(l) => ConflictMessage(l)
        case _ => ""
    }

    /** `checkScoreOverlapRealTime`: only `scoreOverlapError` changes. */
    method CheckRealTime(minScore: Option<int>, maxScore: Option<int>)
      modifies this
      ensures scoreOverlapError == old(RealTimeError(minScore, maxScore))
      ensures levels == old(levels) && editing == old(editing) && config == old(config)
      ensures group == old(group) && dimension == old(dimension)
    {
      if !TruthyScore(minScore) || !TruthyScore(maxScore) {
        scoreOverlapError := "";
        return;
      }
      if minScore.value > maxScore.value {
        scoreOverlapError := InvertedMessage;
        return;
      }
      if !Given(group) {
        scoreOverlapError := "";
        return;
      }
      var v := CheckScoreOverlap(levels, minScore.value, maxScore.value, EditedId(), group, config, dimension);
      if v.Conflict? {
        scoreOverlapError := ConflictMessage(v.level);
      } else {
        scoreOverlapError := "";
      }
    }

    /**
     * In dimension mode before a dimension is chosen, no band is comparable,
     * so the real-time check reports nothing but an inverted range.
     */
    lemma UnsetDimensionNoConflict(minScore: Option<int>, maxScore: Option<int>)
      requires config == DimensionConfig && dimension == Unset
      ensures RealTimeError(minScore, maxScore) == "" || RealTimeError(minScore, maxScore) == InvertedMessage
    {
      if TruthyScore(minScore) && TruthyScore(maxScore) && minScore.value <= maxScore.value && Given(group) {
        OverlapCheckPasses(levels, minScore.value, maxScore.value, EditedId(), group, config, dimension);
      }
    }

    /**
     * With both scores entered and a group chosen, the real-time check shows
     * an error exactly when the check run on saving would refuse the band.
     */
    lemma RealTimeAgreesWithSave(minScore: int, maxScore: int)
      requires minScore != 0 && maxScore != 0 && Given(group)
      ensures RealTimeError(Some(minScore), Some(maxScore)) != "" <==>
        OverlapCheck(levels, minScore, maxScore, EditedId(), group, config, dimension) != NoConflict
    {
      var v := OverlapCheck(levels, minScore, maxScore, EditedId(), group, config, dimension);
      if v.Conflict? {
        assert |ConflictMessage(v.level)| > 0;
      }
    }
  }

  // ---------------------------------------------------------------------
  // The list of bands (`filteredLevels`)
  // ---------------------------------------------------------------------

  /** The dimension selector above the list: all (`''` or cleared), 'none', or one dimension id. */
  datatype DimensionChoice = AllDimensions | Unassigned | OnlyDimension(id: int)

  /** Whether a band is listed under the dimension choice; the falsy id 0 lists everything. */
  predicate Listed(l: Level, choice: DimensionChoice)
  {
    match choice
    case AllDimensions => true
    case Unassigned => NoDimension(l)
    case OnlyDimension(d) => d == 0 || l.dimensionId == Some(d)
  }

  function ListedFn(choice: DimensionChoice): Level -> bool
  {
    (l: Level) => Listed(l, choice)
  }

  function LevelId(l: Level): int
  {
    l.id
  }

  /** `filteredLevels`: newest (largest id) first, then filtered by dimension. */
  function FilteredLevels(levels: seq<Level>, choice: DimensionChoice): seq<Level>
  {
    Filter(SortDesc(levels, LevelId), ListedFn(choice))
  }

  /** The list is ordered by id, largest first, and holds exactly the bands the choice admits. */
  lemma FilteredLevelsExact(levels: seq<Level>, choice: DimensionChoice)
    ensures SortedDesc(FilteredLevels(levels, choice), LevelId)
    ensures forall l :: l in FilteredLevels(levels, choice) <==> l in levels && Listed(l, choice)
    ensures choice == Unassigned ==> forall l :: l in FilteredLevels(levels, choice) ==> NoDimension(l)
  {
    FilterKeepsSorted(SortDesc(levels, LevelId), ListedFn(choice), LevelId);
    SortDescMembers(levels, LevelId);
    FilterMembers(SortDesc(levels, LevelId), ListedFn(choice));
  }
}

=== FILE: performance.dfy ===
/**
 * The request helpers of front/src/utils/performance.ts: the de-duplicating
 * request cache, the retry loop and the virtual-scroll window.
 *
 * A promise is an opaque handle here; what a request function or a call of
 * `fn` yields is an input to the model, never something it computes.
 */
module Performance {
  import opened Wrappers

  // ---------------------------------------------------------------------
  // RequestCache
  // ---------------------------------------------------------------------

  /** The promise a request function returned: only its identity matters. */
  datatype Request = Request(serial: nat)

  /** The cache after `withDeduplication(key, …)`, when the request would return `issued`. */
  function AfterCall(cache: map<string, Request>, key: string, issued: Request): map<string, Request>
  {
    if key in cache then cache else cache[key := issued]
  }

  /** The promise `withDeduplication(key, …)` hands back. */
  function Answer(cache: map<string, Request>, key: string, issued: Request): Request
  {
    if key in cache then cache[key] else issued
  }

  /** The `.finally` callback as written: it deletes whatever is stored under the key. */
  function AfterSettle(cache: map<string, Request>, key: string, settled: Request): map<string, Request>
  {
    cache - {key}
  }

  /** The callback that removes the key only while it still holds the promise that settled. */
  function AfterSettleOwn(cache: map<string, Request>, key: string, settled: Request): (c: map<string, Request>)
    ensures key in cache && cache[key] == settled ==> c == cache - {key}
    ensures !(key in cache && cache[key] == settled) ==> c == cache
  {
    if key in cache && cache[key] == settled then cache - {key} else cache
  }

  /**
   * While a request for a key is pending, every later call for that key
   * gets the same promise and issues nothing; other keys are not touched.
   */
  lemma CallsShareRequest(cache: map<string, Request>, key: string, first: Request, later: Request, other: string)
    requires other != key
    ensures AfterCall(AfterCall(cache, key, first), key, later) == AfterCall(cache, key, first)
    ensures Answer(AfterCall(cache, key, first), key, later) == Answer(cache, key, first)
    ensures key in AfterCall(cache, key, first)
    ensures (other in AfterCall(cache, key, first)) == (other in cache)
    ensures other in cache ==> AfterCall(cache, key, first)[other] == cache[other]
  {
  }

  /** A settlement drops exactly its key and leaves every other entry as it was. */
  lemma SettleDropsOnlyKey(cache: map<string, Request>, key: string, settled: Request)
    ensures key !in AfterSettle(cache, key, settled)
    ensures forall k :: k in cache && k != key ==>
      (k in AfterSettle(cache, key, settled) && AfterSettle(cache, key, settled)[k] == cache[k])
    ensures forall k :: k in AfterSettle(cache, key, settled) ==> k in cache
  {
  }

  /**
   * As written, a request that settles after its key was deleted and
   * requested again evicts the newer, still pending request, so the next
   * call issues a duplicate request instead of sharing the pending one.
   */
  lemma StaleSettleEvictsNewer(key: string)
    ensures var c1 := AfterCall(map[], key, Request(1));
      var c2 := c1 - {key};
      var c3 := AfterCall(c2, key, Request(2));
      var c4 := AfterSettle(c3, key, Request(1));
      Answer(c4, key, Request(3)) == Request(3) && Answer(c3, key, Request(3)) == Request(2)
  {
  }

  /**
   * With the identity check, a stale settlement leaves the newer pending
   * request in place, and a request's own settlement still removes it.
   */
  lemma OwnSettleKeepsNewer(cache: map<string, Request>, key: string, stale: Request, pending: Request, next: Request)
    requires stale != pending
    ensures var c := AfterCall(cache - {key}, key, pending);
      Answer(AfterSettleOwn(c, key, stale), key, next) == pending
      && key !in AfterSettleOwn(c, key, pending)
  {
  }

  /** `RequestCache`: a map from request keys to the promises still pending. */
  class RequestCache {
    var cache: map<string, Request>

    constructor ()
      ensures cache == map[]
    {
      cache := map[];
    }

    /**
     * `withDeduplication(key, requestFn)`, where `issued` is what `requestFn()`
     * would return; `called` says whether it was called.
     */
    method WithDeduplication(key: string, issued: Request) returns (p: Request, called: bool)
      modifies this
      ensures called <==> key !in old(cache)
      ensures p == Answer(old(cache), key, issued)
      ensures cache == AfterCall(old(cache), key, issued)
    {
      if key in cache {
        p := cache[key];
        called := false;
        return;
      }
      p := issued;
      called := true;
      cache := cache[key := p];
    }

    /**
     * The `.finally` callback of request `settled`, stored under `key`: it
     * removes the key only while the key still holds that request.
     */
    method Settle(key: string, settled: Request)
      modifies this
      ensures cache == AfterSettleOwn(old(cache), key, settled)
    {
      if key in cache && cache[key] == settled {
        cache := cache - {key};
      }
    }

    method Clear()
      modifies this
      ensures cache == map[]
    {
      cache := map[];
    }

    method Delete(key: string)
      modifies this
      ensures cache == old(cache) - {key}
    {
      cache := cache - {key};
    }
  }

  // ---------------------------------------------------------------------
  // withRetry
  // ---------------------------------------------------------------------

  /** An error thrown by `fn`; `abort` when its name is 'AbortError'. */
  datatype Failure = Failure(abort: bool, error: nat)

  /** What the `i`-th call of `fn` does. */
  datatype Attempt = Succeeded(value: int) | Failed(failure: Failure)

  /** The wrapped call returns a value or throws; `Threw(None)` throws `undefined`. */
  datatype RetryOutcome = Returned(value: int) | Threw(error: Option<Failure>)

  /** Every call before the `n`-th failed without an abort. */
  predicate RetriableUpTo(call: nat -> Attempt, n: nat)
  {
    forall k: nat :: k < n ==> call(k).Failed? && !call(k).failure.abort
  }

  /**
   * The outcome and the number of calls, from call `i` on: the first
   * success is returned; an abort, or a failure of the last allowed call,
   * is thrown.
   */
  function RetryFrom(maxRetries: nat, call: nat -> Attempt, i: nat): (r: (RetryOutcome, nat))
    requires i <= maxRetries
    ensures i < r.1 <= maxRetries + 1
    ensures RetriableUpTo(call, i) ==> RetriableUpTo(call, r.1 - 1)
    ensures r.0.Returned? ==> call(r.1 - 1) == Succeeded(r.0.value)
    ensures r.0.Threw? ==>
      (r.0.error.Some? && call(r.1 - 1) == Failed(r.0.error.value) && (r.0.error.value.abort || r.1 == maxRetries + 1))
    decreases maxRetries - i
  {
    match call(i)
    case Succeeded(v) => (Returned(v), i + 1)
    case Failed(f) =>
      if f.abort || i == maxRetries then (Threw(Some(f)), i + 1)
      else RetryFrom(maxRetries, call, i + 1)
  }

  /** The wrapped call's outcome and how many times it called `fn`. */
  function Retry(maxRetries: int, call: nat -> Attempt): (RetryOutcome, nat)
  {
    if maxRetries < 0 then (Threw(None), 0) else RetryFrom(maxRetries, call, 0)
  }

  /** The waits between calls: `delay * (k + 1)` after failed call `k`. */
  function Waits(delay: int, n: nat): (w: seq<int>)
    ensures |w| == n && forall k :: 0 <= k < n ==> w[k] == delay * (k + 1)
  {
    seq(n, k requires 0 <= k < n => delay * (k + 1))
  }

  lemma WaitsStep(delay: int, n: nat)
    ensures Waits(delay, n) + [delay * (n + 1)] == Waits(delay, n + 1)
  {
  }

  /**
   * The retry rule in full: at most `maxRetries + 1` calls; the outcome is
   * the first success, or the first abort, or the last call's error; every
   * call before the last failed without an abort.  A negative `maxRetries`
   * calls nothing and throws `undefined`.
   */
  lemma RetryRule(maxRetries: int, call: nat -> Attempt)
    ensures var (out, n) := Retry(maxRetries, call);
      && (maxRetries < 0 <==> n == 0)
      && (maxRetries < 0 ==> out == Threw(None))
      && (maxRetries >= 0 ==> n <= maxRetries + 1 && RetriableUpTo(call, n - 1))
      && (out.Returned? ==> call(n - 1) == Succeeded(out.value))
      && (out.Threw? && n > 0 ==>
            (out.error.Some? && call(n - 1) == Failed(out.error.value) && (out.error.value.abort || n == maxRetries + 1)))
  {
  }

  /** A success after `k` retriable failures, within the allowance, is returned after `k + 1` calls. */
  lemma {:induction false} SuccessReturned(maxRetries: nat, call: nat -> Attempt, i: nat, k: nat)
    requires i <= k <= maxRetries
    requires forall j: nat :: i <= j < k ==> call(j).Failed? && !call(j).failure.abort
    requires call(k).Succeeded?
    ensures RetryFrom(maxRetries, call, i) == (Returned(call(k).value), k + 1)
    decreases k - i
  {
    if i < k {
      SuccessReturned(maxRetries, call, i + 1, k);
    }
  }

  /**
   * `withRetry(fn, maxRetries, delay)` applied once; `call(i)` is what the
   * `i`-th call of `fn` does, and `waits` are the pauses taken, in order.
   */
  method WithRetry(maxRetries: int, delay: int, call: nat -> Attempt) returns (out: RetryOutcome, calls: nat, waits: seq<int>)
    ensures (out, calls) == Retry(maxRetries, call)
    ensures waits == Waits(delay, if calls == 0 then 0 else calls - 1)
  {
    var lastError: Option<Failure> := None;
    waits := [];
    var i: nat := 0;
    while i <= maxRetries
      invariant maxRetries >= 0 ==> i <= maxRetries && RetryFrom(maxRetries, call, i) == Retry(maxRetries, call)
      invariant maxRetries < 0 ==> i == 0 && lastError == None
      invariant waits == Waits(delay, i)
      decreases maxRetries - i
    {
      var attempt := call(i);
      if attempt.Succeeded? {
        return Returned(attempt.value), i + 1, waits;
      }
      lastError := Some(attempt.failure);
      if attempt.failure.abort {
        return Threw(lastError), i + 1, waits;
      }
      if i == maxRetries {
        return Threw(lastError), i + 1, waits;
      }
      WaitsStep(delay, i);
      waits := waits + [delay * (i + 1)];
      i := i + 1;
    }
    out, calls := Threw(lastError), i;
  }

  // ---------------------------------------------------------------------
  // useVirtualScroll
  // ---------------------------------------------------------------------

  /** `Math.floor(a / b)` for a positive divisor (Dafny's `/` floors when `b > 0`). */
  function FloorDiv(a: int, b: int): (q: int)
    requires b > 0
    ensures q * b <= a < q * b + b
  {
    a / b
  }

  /** `Math.ceil(a / b)` for a positive divisor. */
  function CeilDiv(a: int, b: int): (q: int)
    requires b > 0
    ensures q * b - b < a <= q * b
  {
    -((-a) / b)
  }

  /** Where `Array.prototype.slice` takes an index: negative ones count from the end, all are clamped. */
  function SliceIndex(i: int, len: nat): (j: nat)
    ensures j <= len
    ensures 0 <= i <= len ==> j == i
  {
    if i < 0 then (if len + i < 0 then 0 else len + i) else if i > len then len else i
  }

  /** `items.slice(start, end)` */
  function Slice<T>(items: seq<T>, start: int, end: int): (r: seq<T>)
    ensures 0 <= start <= end <= |items| ==> r == items[start..end]
  {
    var a, b := SliceIndex(start, |items|), SliceIndex(end, |items|);
    if a < b then items[a..b] else []
  }

  datatype Window<T> = Window(visibleItems: seq<T>, totalHeight: int, offsetY: int, startIndex: int, endIndex: int)

  function Max(a: int, b: int): int { if a < b then b else a }
  function Min(a: int, b: int): int { if a < b then a else b }

  /** The window the hook returns for the current scroll position. */
  function VirtualWindow<T>(items: seq<T>, itemHeight: int, containerHeight: int, overscan: int, scrollTop: int): (w: Window<T>)
    requires itemHeight > 0
    ensures w.startIndex >= 0 && w.endIndex <= |items| - 1
    ensures w.totalHeight == |items| * itemHeight && w.offsetY == w.startIndex * itemHeight
    ensures w.visibleItems == Slice(items, w.startIndex, w.endIndex + 1)
  {
    var startIndex := Max(0, FloorDiv(scrollTop, itemHeight) - overscan);
    var endIndex := Min(|items| - 1, CeilDiv(scrollTop + containerHeight, itemHeight) + overscan);
    Window(Slice(items, startIndex, endIndex + 1), |items| * itemHeight, startIndex * itemHeight, startIndex, endIndex)
  }

  /** An item whose box `[k*h, (k+1)*h)` meets the viewport `[top, top+height)`. */
  predicate InViewport(k: int, itemHeight: int, containerHeight: int, scrollTop: int)
  {
    k * itemHeight < scrollTop + containerHeight && scrollTop < (k + 1) * itemHeight
  }

  /** A product with a positive factor is positive only when the other factor is. */
  lemma PositiveFactor(d: int, b: int)
    requires b > 0 && d * b > 0
    ensures d > 0
  {
  }

  lemma FloorBelow(k: int, a: int, b: int)
    requires b > 0 && a < (k + 1) * b
    ensures FloorDiv(a, b) <= k
  {
    var q := FloorDiv(a, b);
    assert ((k + 1) - q) * b == (k + 1) * b - q * b;
    PositiveFactor((k + 1) - q, b);
  }

  lemma CeilAbove(k: int, a: int, b: int)
    requires b > 0 && k * b < a
    ensures k <= CeilDiv(a, b)
  {
    var q := CeilDiv(a, b);
    assert (q - k) * b == q * b - k * b;
    PositiveFactor(q - k, b);
  }

  /**
   * The window renders every item that is at least partly inside the
   * viewport, at its place: with `offsetY` as the top of the first
   * rendered item, item `k` is `visibleItems[k - startIndex]`.
   */
  lemma WindowCoversViewport<T>(items: seq<T>, itemHeight: int, containerHeight: int, overscan: int, scrollTop: int, k: int)
    requires itemHeight > 0 && overscan >= 0
    requires 0 <= k < |items| && InViewport(k, itemHeight, containerHeight, scrollTop)
    ensures var w := VirtualWindow(items, itemHeight, containerHeight, overscan, scrollTop);
      w.startIndex <= k <= w.endIndex && w.visibleItems[k - w.startIndex] == items[k]
  {
    FloorBelow(k, scrollTop, itemHeight);
    CeilAbove(k, scrollTop + containerHeight, itemHeight);
  }

  /**
   * With non-negative inputs the window is the contiguous run of items
   * from `startIndex` to `endIndex`, or nothing once the scroll position is
   * past the end; `endIndex` is never below -1.
   */
  lemma WindowShape<T>(items: seq<T>, itemHeight: int, containerHeight: int, overscan: int, scrollTop: int)
    requires itemHeight > 0 && containerHeight >= 0 && overscan >= 0 && scrollTop >= 0
    ensures var w := VirtualWindow(items, itemHeight, containerHeight, overscan, scrollTop);
      && (w.startIndex <= w.endIndex + 1 ==> w.visibleItems == items[w.startIndex..w.endIndex + 1])
      && (w.startIndex > w.endIndex ==> w.visibleItems == [])
      && w.endIndex >= -1
  {
    var w := VirtualWindow(items, itemHeight, containerHeight, overscan, scrollTop);
    assert CeilDiv(scrollTop + containerHeight, itemHeight) >= 0 by {
      CeilAbove(-1, scrollTop + containerHeight, itemHeight);
    }
  }
}

=== FILE: questionnaire_api.dfy ===
/**
 * The questionnaire API of the backend (backend/api/questionnaire.py):
 * creating questionnaires and questions, remapping branch-rule option
 * positions to option ids, scoring a submission and looking up assessment
 * bands.  Request bodies are datatypes whose fields are the JSON fields the
 * handlers read; the access code and the pinyin transliteration are inputs.
 */
module QuestionnaireApi {
  import opened Wrappers
  import opened Text
  import opened Records

  // ---------------------------------------------------------------------
  // create_questionnaire
  // ---------------------------------------------------------------------

  datatype CreateRequest = CreateRequest(title: Option<string>, description: Option<string>, parentId: Option<int>)

  /** `parent_id` is truthy: present and non-zero. */
  predicate HasParent(req: CreateRequest)
  {
    req.parentId.Some? && req.parentId.value != 0
  }

  /**
   * Creates a draft questionnaire.  A child questionnaire (one with a parent)
   * is published at once; a root questionnaire instead gets the basic-info
   * dimension, with weight 0.
   */
  method CreateQuestionnaire(db: Db, req: CreateRequest, accessCode: string) returns (r: Result<int, ApiError>)
    requires db.tables.Valid()
    modifies db
    ensures db.tables.Valid()
    ensures !(Given(req.title) && Given(req.description)) ==>
      r == Failure(BadRequest("标题和描述为必填项")) && db.tables == old(db.tables)
    ensures Given(req.title) && Given(req.description) ==>
      var t, id := old(db.tables), old(db.tables.nextId);
      && r == Success(id)
      && db.tables == t.(
           questionnaires := t.questionnaires + [QuestionnaireRow(id, req.title.value, req.description.value,
             "draft", accessCode, req.parentId, HasParent(req))],
           dimensions := t.dimensions + (if HasParent(req) then [] else [DimensionRow(id + 1, id, Basic, 0.0, false)]),
           nextId := if HasParent(req) then id + 1 else id + 2)
  {
    if !(Given(req.title) && Given(req.description)) {
      return Failure(BadRequest("标题和描述为必填项"));
    }
    var t := db.tables;
    var id := t.nextId;
    var created := QuestionnaireRow(id, req.title.value, req.description.value, "draft", accessCode, req.parentId, HasParent(req));
    t := t.(questionnaires := t.questionnaires + [created], nextId := id + 1);
    if !HasParent(req) {
      t := t.(dimensions := t.dimensions + [DimensionRow(id + 1, id, Basic, 0.0, false)], nextId := id + 2);
    }
    db.tables := t;
    r := Success(id);
  }

  // ---------------------------------------------------------------------
  // Question order
  // ---------------------------------------------------------------------

  /** A question of questionnaire `qid` that is not soft-deleted. */
  predicate LiveIn(q: QuestionRow, qid: int)
  {
    q.questionnaireId == qid && !q.isDeleted
  }

  /** `max(order)` over the questionnaire's live questions, None when it has none. */
  function MaxLiveOrder(questions: seq<QuestionRow>, qid: int): (r: Option<int>)
    ensures r.None? <==> forall i :: 0 <= i < |questions| ==> !LiveIn(questions[i], qid)
    ensures r.Some? ==> forall i :: 0 <= i < |questions| && LiveIn(questions[i], qid) ==> questions[i].order <= r.value
    ensures r.Some? ==> exists i :: 0 <= i < |questions| && LiveIn(questions[i], qid) && questions[i].order == r.value
  {
    if questions == [] then None
    else
      var rest := MaxLiveOrder(questions[..|questions| - 1], qid);
      var q := questions[|questions| - 1];
      assert forall i :: 0 <= i < |questions| - 1 ==> questions[..|questions| - 1][i] == questions[i];
      if !LiveIn(q, qid) then rest
      else if rest.Some? && q.order <= rest.value then rest
      else Some(q.order)
  }

  /** The order a new question gets: one past the largest live order, or 1 for the first question. */
  method NextOrder(questions: seq<QuestionRow>, qid: int) returns (order: int)
    ensures order == MaxLiveOrder(questions, qid).GetOr(0) + 1
  {
    var max: Option<int> := None;
    for i := 0 to |questions|
      invariant max == MaxLiveOrder(questions[..i], qid)
    {
      assert questions[..i + 1][..i] == questions[..i];
      var q := questions[i];
      if LiveIn(q, qid) && !(max.Some? && q.order <= max.value) {
        max := Some(q.order);
      }
    }
    assert questions[..|questions|] == questions;
    order := max.GetOr(0) + 1;
  }

  /** A new question is placed after every live question of its questionnaire. */
  lemma NextOrderIsLast(questions: seq<QuestionRow>, qid: int, i: int)
    requires 0 <= i < |questions| && LiveIn(questions[i], qid)
    ensures questions[i].order < MaxLiveOrder(questions, qid).GetOr(0) + 1
  {
    assert MaxLiveOrder(questions, qid).Some?;
  }

  // ---------------------------------------------------------------------
  // Options and branch rules of a question
  // ---------------------------------------------------------------------

  /** An option's `value` in the request: key absent (stored as 0), null, or a number. */
  datatype ValueField = ValueMissing | ValueNull | ValueGiven(n: int)

  function StoredValue(f: ValueField): Option<int>
  {
    match f
    case ValueMissing => Some(0)
    case ValueNull => None
    case ValueGiven(n) => Some(n)
  }

  datatype OptionInput = OptionInput(text: string, value: ValueField, isOther: bool)

  /**
   * A branch rule as the editor sends it: `option_id` holds the POSITION of
   * the option in the question's option list, not an option id.
   */
  datatype RuleInput = RuleInput(optionIndex: Option<int>, nextQuestionnaireId: Option<int>)

  /** A branch rule whose option position has been replaced by the option's id. */
  datatype MappedRule = MappedRule(optionId: int, nextQuestionnaireId: Option<int>)

  /** The option rows created for `inputs`, with consecutive fresh ids from `firstId`. */
  function NewOptions(questionId: int, inputs: seq<OptionInput>, firstId: int): (r: seq<OptionRow>)
    ensures |r| == |inputs|
    ensures forall o :: o in r ==> firstId <= o.id < firstId + |inputs| && LiveOption(o, questionId)
  {
    if inputs == [] then []
    else
      var first := OptionRow(firstId, questionId, inputs[0].text, StoredValue(inputs[0].value), inputs[0].isOther, false);
      [first] + NewOptions(questionId, inputs[1..], firstId + 1)
  }

  /**
   * Option row k carries the k-th input's text, stored value and "other"
   * flag, and has id `firstId + k`.
   */
  lemma {:induction false} NewOptionsShape(questionId: int, inputs: seq<OptionInput>, firstId: int)
    ensures forall k :: 0 <= k < |inputs| ==>
      var o := NewOptions(questionId, inputs, firstId)[k];
      && o.id == firstId + k
      && o.text == inputs[k].text
      && o.value == StoredValue(inputs[k].value)
      && o.isOther == inputs[k].isOther
  {
    forall k | 0 <= k < |inputs| {
      NewOptionAt(questionId, inputs, firstId, k);
    }
  }

  /** Option row k, spelled out. */
  lemma {:induction false} NewOptionAt(questionId: int, inputs: seq<OptionInput>, firstId: int, k: int)
    requires 0 <= k < |inputs|
    ensures NewOptions(questionId, inputs, firstId)[k]
      == OptionRow(firstId + k, questionId, inputs[k].text, StoredValue(inputs[k].value), inputs[k].isOther, false)
  {
    if k > 0 {
      NewOptionAt(questionId, inputs[1..], firstId + 1, k - 1);
    }
  }

  function OptionIds(rows: seq<OptionRow>): (ids: seq<int>)
    ensures |ids| == |rows| && forall k :: 0 <= k < |rows| ==> ids[k] == rows[k].id
  {
    if rows == [] then [] else [rows[0].id] + OptionIds(rows[1..])
  }

  /** `option_id_map.get(option_index)` is not None: the position names an option. */
  predicate Resolves(rule: RuleInput, count: int)
  {
    rule.optionIndex.Some? && 0 <= rule.optionIndex.value < count
  }

  function MapOne(optionIds: seq<int>, rule: RuleInput): seq<MappedRule>
  {
    if Resolves(rule, |optionIds|) then [MappedRule(optionIds[rule.optionIndex.value], rule.nextQuestionnaireId)] else []
  }

  /**
   * The rules kept after remapping, in request order: each position is
   * replaced by the id of the option at that position; a rule whose position
   * names no option is dropped.
   */
  function RemapRules(optionIds: seq<int>, rules: seq<RuleInput>): (r: seq<MappedRule>)
    ensures |r| <= |rules|
  {
    if rules == [] then [] else RemapRules(optionIds, rules[..|rules| - 1]) + MapOne(optionIds, rules[|rules| - 1])
  }

  /** Every kept rule points to one of the given option ids. */
  lemma {:induction false} RemapUsesGivenIds(optionIds: seq<int>, rules: seq<RuleInput>)
    ensures forall m :: m in RemapRules(optionIds, rules) ==> m.optionId in optionIds
  {
    if rules != [] {
      RemapUsesGivenIds(optionIds, rules[..|rules| - 1]);
    }
  }

  /** The loop over `branch_rules` that builds the rule records. */
  method MapRules(optionIds: seq<int>, rules: seq<RuleInput>) returns (mapped: seq<MappedRule>)
    ensures mapped == RemapRules(optionIds, rules)
  {
    mapped := [];
    for i := 0 to |rules|
      invariant mapped == RemapRules(optionIds, rules[..i])
    {
      assert rules[..i + 1][..i] == rules[..i];
      var rule := rules[i];
      if rule.optionIndex.Some? && 0 <= rule.optionIndex.value < |optionIds| {
        mapped := mapped + [MappedRule(optionIds[rule.optionIndex.value], rule.nextQuestionnaireId)];
      }
    }
    assert rules[..|rules|] == rules;
  }

  /** When every position names an option, no rule is dropped and each keeps its place. */
  lemma {:induction false} RemapKeepsResolved(optionIds: seq<int>, rules: seq<RuleInput>)
    requires forall k :: 0 <= k < |rules| ==> Resolves(rules[k], |optionIds|)
    ensures |RemapRules(optionIds, rules)| == |rules|
    ensures forall k :: 0 <= k < |rules| ==> (Resolves(rules[k], |optionIds|) &&
      RemapRules(optionIds, rules)[k] == MappedRule(optionIds[rules[k].optionIndex.value], rules[k].nextQuestionnaireId))
  {
    if rules != [] {
      RemapKeepsResolved(optionIds, rules[..|rules| - 1]);
    }
  }

  /** Rules none of whose positions name an option are all dropped, silently. */
  lemma {:induction false} RemapDropsUnresolved(optionIds: seq<int>, rules: seq<RuleInput>)
    requires forall k :: 0 <= k < |rules| ==> !Resolves(rules[k], |optionIds|)
    ensures RemapRules(optionIds, rules) == []
  {
    if rules != [] {
      RemapDropsUnresolved(optionIds, rules[..|rules| - 1]);
    }
  }

  /** The rule rows stored for `mapped`, with consecutive fresh ids from `firstId`. */
  function NewRules(qid: int, questionId: int, mapped: seq<MappedRule>, firstId: int): (r: seq<BranchRuleRow>)
    ensures |r| == |mapped|
    ensures forall b :: b in r ==> firstId <= b.id < firstId + |mapped|
  {
    if mapped == [] then []
    else
      var first := BranchRuleRow(firstId, qid, questionId, mapped[0].optionId, mapped[0].nextQuestionnaireId, false);
      [first] + NewRules(qid, questionId, mapped[1..], firstId + 1)
  }

  /**
   * Rule row k belongs to the questionnaire and the question, leads from the
   * k-th mapped option to the k-th mapped target, is live, and has id
   * `firstId + k`.
   */
  lemma {:induction false} NewRulesShape(qid: int, questionId: int, mapped: seq<MappedRule>, firstId: int)
    ensures forall k :: 0 <= k < |mapped| ==>
      var b := NewRules(qid, questionId, mapped, firstId)[k];
      && b.id == firstId + k
      && b.questionnaireId == qid
      && b.questionId == questionId
      && b.optionId == mapped[k].optionId
      && b.nextQuestionnaireId == mapped[k].nextQuestionnaireId
      && !b.isDeleted
  {
    forall k | 0 <= k < |mapped| {
      NewRuleAt(qid, questionId, mapped, firstId, k);
    }
  }

  /** Rule row k, spelled out. */
  lemma {:induction false} NewRuleAt(qid: int, questionId: int, mapped: seq<MappedRule>, firstId: int, k: int)
    requires 0 <= k < |mapped|
    ensures NewRules(qid, questionId, mapped, firstId)[k]
      == BranchRuleRow(firstId + k, qid, questionId, mapped[k].optionId, mapped[k].nextQuestionnaireId, false)
  {
    if k > 0 {
      NewRuleAt(qid, questionId, mapped[1..], firstId + 1, k - 1);
    }
  }

  /** A resolved rule keeps its target: the remapped list holds it, with the option at its position. */
  lemma {:induction false} RemapContains(optionIds: seq<int>, rules: seq<RuleInput>, k: int)
    requires 0 <= k < |rules| && Resolves(rules[k], |optionIds|)
    ensures MappedRule(optionIds[rules[k].optionIndex.value], rules[k].nextQuestionnaireId) in RemapRules(optionIds, rules)
  {
    var n := |rules| - 1;
    if k < n {
      RemapContains(optionIds, rules[..n], k);
    }
  }

  // ---------------------------------------------------------------------
  // add_question and update_question
  // ---------------------------------------------------------------------

  datatype QuestionRequest = QuestionRequest(
    text: Option<string>,
    kind: Option<QuestionKind>,
    dimensionId: Option<int>,
    options: seq<OptionInput>,
    rules: seq<RuleInput>)

  /**
   * A rule row the commit refuses: `next_questionnaire_id` is NOT NULL and a
   * foreign key to `questionnaire`, so it must name a stored questionnaire.
   */
  predicate DanglingTarget(b: BranchRuleRow, questionnaires: seq<QuestionnaireRow>)
  {
    b.nextQuestionnaireId.None? || forall q :: q in questionnaires ==> q.id != b.nextQuestionnaireId.value
  }

  /** The commit fails on these new rule rows, so the handler rolls back and answers 500. */
  predicate Refused(rows: seq<BranchRuleRow>, questionnaires: seq<QuestionnaireRow>)
  {
    exists b :: b in rows && DanglingTarget(b, questionnaires)
  }

  /**
   * The tables after creating the options of question `questionId` in
   * request order and storing its branch rules, with option positions
   * remapped to the new options' ids.
   */
  function WithOptionsAndRules(t: Tables, qid: int, questionId: int, inputs: seq<OptionInput>, rules: seq<RuleInput>): Tables
  {
    var created := NewOptions(questionId, inputs, t.nextId);
    var mapped := RemapRules(OptionIds(created), rules);
    t.(options := t.options + created,
       rules := t.rules + NewRules(qid, questionId, mapped, t.nextId + |created|),
       nextId := t.nextId + |created| + |mapped|)
  }

  /** The loops of add_question that create the options and then the rules. */
  method StoreOptionsAndRules(db: Db, qid: int, questionId: int, inputs: seq<OptionInput>, rules: seq<RuleInput>)
    requires db.tables.Valid()
    modifies db
    ensures db.tables.Valid()
    ensures db.tables == WithOptionsAndRules(old(db.tables), qid, questionId, inputs, rules)
  {
    var t := db.tables;
    var created := NewOptions(questionId, inputs, t.nextId);
    var mapped := MapRules(OptionIds(created), rules);
    db.tables := t.(
      options := t.options + created,
      rules := t.rules + NewRules(qid, questionId, mapped, t.nextId + |created|),
      nextId := t.nextId + |created| + |mapped|);
  }

  /**
   * The tables once the question itself is stored: a fresh id, the live
   * question after the last live one of `qid`.
   */
  function WithQuestion(t: Tables, qid: int, req: QuestionRequest): (after: Tables)
    requires Given(req.text) && req.kind.Some?
    ensures after.nextId == t.nextId + 1
    ensures after.questions == t.questions +
      [QuestionRow(t.nextId, qid, req.dimensionId, req.text.value, req.kind.value, MaxLiveOrder(t.questions, qid).GetOr(0) + 1, false)]
    ensures after == t.(questions := after.questions, nextId := after.nextId)
  {
    var row := QuestionRow(t.nextId, qid, req.dimensionId, req.text.value, req.kind.value, MaxLiveOrder(t.questions, qid).GetOr(0) + 1, false);
    t.(questions := t.questions + [row], nextId := t.nextId + 1)
  }

  /**
   * Adds a question at the end of questionnaire `qid`, then its options and
   * branch rules.  When a stored rule has no target, or one naming no
   * questionnaire, the commit fails: everything is rolled back and the
   * answer is a 500.
   */
  method AddQuestion(db: Db, qid: int, req: QuestionRequest) returns (r: Result<int, ApiError>)
    requires db.tables.Valid()
    modifies db
    ensures db.tables.Valid()
    ensures !(Given(req.text) && req.kind.Some?) ==>
      r == Failure(BadRequest("题干和类型为必填项")) && db.tables == old(db.tables)
    ensures Given(req.text) && req.kind.Some? ==>
      var t := old(db.tables);
      var after := WithOptionsAndRules(WithQuestion(t, qid, req), qid, t.nextId, req.options, req.rules);
      && |t.rules| <= |after.rules|
      && (Refused(after.rules[|t.rules|..], t.questionnaires) ==> r == Failure(ServerError) && db.tables == t)
      && (!Refused(after.rules[|t.rules|..], t.questionnaires) ==> r == Success(t.nextId) && db.tables == after)
  {
    if !(Given(req.text) && req.kind.Some?) {
      return Failure(BadRequest("题干和类型为必填项"));
    }
    var t := db.tables;
    var order := NextOrder(t.questions, qid);
    var id := t.nextId;
    var row := QuestionRow(id, qid, req.dimensionId, req.text.value, req.kind.value, order, false);
    var withRow := t.(questions := t.questions + [row], nextId := id + 1);
    assert withRow == WithQuestion(t, qid, req);
    db.tables := withRow;
    StoreOptionsAndRules(db, qid, id, req.options, req.rules);
    if Refused(db.tables.rules[|t.rules|..], t.questionnaires) {
      db.tables := t;
      return Failure(ServerError);
    }
    r := Success(id);
  }

  /**
   * A rule whose option is chosen but whose target is left empty, as a rule
   * freshly added in the editor is, makes the whole add_question fail.
   */
  lemma UnsetTargetRefused(t: Tables, qid: int, req: QuestionRequest, k: int)
    requires Given(req.text) && req.kind.Some?
    requires 0 <= k < |req.rules| && Resolves(req.rules[k], |req.options|) && req.rules[k].nextQuestionnaireId.None?
    ensures var after := WithOptionsAndRules(WithQuestion(t, qid, req), qid, t.nextId, req.options, req.rules);
      |t.rules| <= |after.rules| && Refused(after.rules[|t.rules|..], t.questionnaires)
  {
    var t1 := WithQuestion(t, qid, req);
    StoredRuleTarget(t1, qid, t.nextId, req.options, req.rules, k);
  }

  /** A resolved rule's target reaches one of the rule rows built from the remapped rules. */
  lemma RuleTargetStored(qid: int, questionId: int, ids: seq<int>, rules: seq<RuleInput>, firstId: int, k: int)
    requires 0 <= k < |rules| && Resolves(rules[k], |ids|)
    ensures exists b :: b in NewRules(qid, questionId, RemapRules(ids, rules), firstId) && b.nextQuestionnaireId == rules[k].nextQuestionnaireId
  {
    var mapped := RemapRules(ids, rules);
    RemapContains(ids, rules, k);
    var j :| 0 <= j < |mapped| && mapped[j] == MappedRule(ids[rules[k].optionIndex.value], rules[k].nextQuestionnaireId);
    var stored := NewRules(qid, questionId, mapped, firstId);
    NewRuleAt(qid, questionId, mapped, firstId, j);
    assert stored[j] in stored;
  }

  /** A resolved rule's target reaches one of the rule rows `WithOptionsAndRules` appends. */
  lemma StoredRuleTarget(t: Tables, qid: int, questionId: int, inputs: seq<OptionInput>, rules: seq<RuleInput>, k: int)
    requires 0 <= k < |rules| && Resolves(rules[k], |inputs|)
    ensures var after := WithOptionsAndRules(t, qid, questionId, inputs, rules);
      && |t.rules| <= |after.rules|
      && exists b :: b in after.rules[|t.rules|..] && b.nextQuestionnaireId == rules[k].nextQuestionnaireId
  {
    var created := NewOptions(questionId, inputs, t.nextId);
    var stored := NewRules(qid, questionId, RemapRules(OptionIds(created), rules), t.nextId + |created|);
    RuleTargetStored(qid, questionId, OptionIds(created), rules, t.nextId + |created|, k);
    AppendedRules(t, qid, questionId, inputs, rules);
    AppendedTarget(t.rules, WithOptionsAndRules(t, qid, questionId, inputs, rules).rules, stored, rules[k].nextQuestionnaireId);
  }

  lemma AppendedTarget(prefix: seq<BranchRuleRow>, all: seq<BranchRuleRow>, stored: seq<BranchRuleRow>, target: Option<int>)
    requires all == prefix + stored
    requires exists b :: b in stored && b.nextQuestionnaireId == target
    ensures |prefix| <= |all| && exists b :: b in all[|prefix|..] && b.nextQuestionnaireId == target
  {
    assert all[|prefix|..] == stored;
  }

  /** The rule rows `WithOptionsAndRules` appends. */
  lemma AppendedRules(t: Tables, qid: int, questionId: int, inputs: seq<OptionInput>, rules: seq<RuleInput>)
    ensures var created := NewOptions(questionId, inputs, t.nextId);
      WithOptionsAndRules(t, qid, questionId, inputs, rules).rules
        == t.rules + NewRules(qid, questionId, RemapRules(OptionIds(created), rules), t.nextId + |created|)
  {
  }

  /** The rules stored by add_question point at the question's new options. */
  lemma AddedRulesUseNewOptions(t: Tables, qid: int, questionId: int, inputs: seq<OptionInput>, rules: seq<RuleInput>)
    ensures var after := WithOptionsAndRules(t, qid, questionId, inputs, rules);
      forall k :: |t.rules| <= k < |after.rules| ==>
        after.rules[k].questionId == questionId && after.rules[k].optionId in OptionIds(NewOptions(questionId, inputs, t.nextId))
  {
    var created := NewOptions(questionId, inputs, t.nextId);
    var stored := NewRules(qid, questionId, RemapRules(OptionIds(created), rules), t.nextId + |created|);
    RulesUseIds(qid, questionId, OptionIds(created), rules, t.nextId + |created|);
    AppendedRules(t, qid, questionId, inputs, rules);
    AppendedFrom(t.rules, WithOptionsAndRules(t, qid, questionId, inputs, rules).rules, stored);
  }

  /** The rule rows built from the remapped rules belong to the question and point to the given option ids. */
  lemma RulesUseIds(qid: int, questionId: int, ids: seq<int>, rules: seq<RuleInput>, firstId: int)
    ensures forall b :: b in NewRules(qid, questionId, RemapRules(ids, rules), firstId) ==> b.questionId == questionId && b.optionId in ids
  {
    var mapped := RemapRules(ids, rules);
    var stored := NewRules(qid, questionId, mapped, firstId);
    RemapUsesGivenIds(ids, rules);
    forall b | b in stored
      ensures b.questionId == questionId && b.optionId in ids
    {
      var j :| 0 <= j < |stored| && stored[j] == b;
      NewRuleAt(qid, questionId, mapped, firstId, j);
      assert mapped[j] in mapped;
    }
  }

  lemma AppendedFrom(prefix: seq<BranchRuleRow>, all: seq<BranchRuleRow>, stored: seq<BranchRuleRow>)
    requires all == prefix + stored
    ensures forall k :: |prefix| <= k < |all| ==> all[k] in stored
  {
    forall k | |prefix| <= k < |all|
      ensures all[k] in stored
    {
      assert all[k] == stored[k - |prefix|];
    }
  }

  /** The request body of update_question; `None` for options or rules means the key is absent or null. */
  datatype UpdateRequest = UpdateRequest(
    text: string,
    kind: QuestionKind,
    dimensionId: Option<int>,
    options: Option<seq<OptionInput>>,
    rules: Option<seq<RuleInput>>)

  /** Position of the live question `questionId` of questionnaire `qid`. */
  function FindQuestion(questions: seq<QuestionRow>, questionId: int, qid: int): (r: Option<nat>)
    ensures r.Some? ==> r.value < |questions| && questions[r.value].id == questionId && LiveIn(questions[r.value], qid)
    ensures r.None? ==> forall i :: 0 <= i < |questions| ==> !(questions[i].id == questionId && LiveIn(questions[i], qid))
  {
    if questions == [] then None
    else if questions[0].id == questionId && LiveIn(questions[0], qid) then Some(0)
    else match FindQuestion(questions[1..], questionId, qid)
      case Some(i) => Some(i + 1)
      case None => None
  }

  /** A live option or rule row of question `questionId`: the rows the hard delete removes. */
  predicate LiveOption(o: OptionRow, questionId: int)
  {
    o.questionId == questionId && !o.isDeleted
  }

  predicate LiveRule(b: BranchRuleRow, questionId: int)
  {
    b.questionId == questionId && !b.isDeleted
  }

  /** The option table after deleting the live options of `questionId`. */
  function DropOptions(options: seq<OptionRow>, questionId: int): (r: seq<OptionRow>)
    ensures forall o :: o in r ==> !LiveOption(o, questionId)
    ensures forall o :: o in r ==> o in options
  {
    if options == [] then []
    else
      var rest := DropOptions(options[..|options| - 1], questionId);
      var last := options[|options| - 1];
      if LiveOption(last, questionId) then rest else rest + [last]
  }

  /** The rule table after deleting the live rules of `questionId`. */
  function DropRules(rules: seq<BranchRuleRow>, questionId: int): (r: seq<BranchRuleRow>)
    ensures forall b :: b in r ==> !LiveRule(b, questionId)
    ensures forall b :: b in r ==> b in rules
  {
    if rules == [] then []
    else
      var rest := DropRules(rules[..|rules| - 1], questionId);
      var last := rules[|rules| - 1];
      if LiveRule(last, questionId) then rest else rest + [last]
  }

  /** `{idx: opt.id for idx, opt in enumerate(live options of the question)}`, as a list. */
  function LiveOptionIds(options: seq<OptionRow>, questionId: int): seq<int>
  {
    if options == [] then []
    else
      var rest := LiveOptionIds(options[..|options| - 1], questionId);
      var last := options[|options| - 1];
      if LiveOption(last, questionId) then rest + [last.id] else rest
  }

  /** The tables after hard-deleting the live options of `questionId` and inserting the given ones. */
  function WithOptionsReplaced(t: Tables, questionId: int, inputs: seq<OptionInput>): Tables
  {
    t.(options := DropOptions(t.options, questionId) + NewOptions(questionId, inputs, t.nextId),
       nextId := t.nextId + |inputs|)
  }

  /**
   * The tables after hard-deleting the live rules of `questionId` and storing
   * the given ones, with positions resolved against the question's live
   * options in table order.
   */
  function WithRulesReplaced(t: Tables, qid: int, questionId: int, rules: seq<RuleInput>): Tables
  {
    t.(rules := DropRules(t.rules, questionId) + ReplacementRules(t, qid, questionId, rules),
       nextId := t.nextId + |ReplacementRules(t, qid, questionId, rules)|)
  }

  /** The rule rows update_question inserts: positions resolved against the question's live options. */
  function ReplacementRules(t: Tables, qid: int, questionId: int, rules: seq<RuleInput>): seq<BranchRuleRow>
  {
    NewRules(qid, questionId, RemapRules(LiveOptionIds(t.options, questionId), rules), t.nextId)
  }

  /**
   * Edits a live question in place.  Given options replace the question's
   * live options; given rules replace its live rules, with positions remapped
   * against the question's live options as they are after the option update.
   * A question that is missing, deleted or in another questionnaire gives a
   * 500: the handler's catch-all also catches the 404 raised by the lookup.
   * Sent options whose old rows a rule still refers to cannot be deleted:
   * a 500 and nothing changes.
   * A new rule without a target, or with one naming no questionnaire, makes
   * the commit fail: everything is rolled back and the answer is a 500.
   */
  method UpdateQuestion(db: Db, qid: int, questionId: int, req: UpdateRequest) returns (error: Option<ApiError>)
    requires db.tables.Valid()
    modifies db
    ensures db.tables.Valid()
    ensures FindQuestion(old(db.tables.questions), questionId, qid).None? ==>
      error == Some(ServerError) && db.tables == old(db.tables)
    ensures FindQuestion(old(db.tables.questions), questionId, qid).Some? ==>
      var t, i := old(db.tables), FindQuestion(old(db.tables.questions), questionId, qid).value;
      var edited := t.(questions := t.questions[i := t.questions[i].(text := req.text, kind := req.kind, dimensionId := req.dimensionId)]);
      var pinned := req.options.Some? && OptionsPinned(t, questionId);
      var withOptions := if req.options.Some? then WithOptionsReplaced(edited, questionId, req.options.value) else edited;
      var stored := if req.rules.Some? then ReplacementRules(withOptions, qid, questionId, req.rules.value) else [];
      && (pinned ==> error == Some(ServerError) && db.tables == t)
      && (!pinned && Refused(stored, t.questionnaires) ==> error == Some(ServerError) && db.tables == t)
      && (!pinned && !Refused(stored, t.questionnaires) ==>
            && error == None
            && db.tables == if req.rules.Some? then WithRulesReplaced(withOptions, qid, questionId, req.rules.value) else withOptions)
  {
    var found := FindQuestion(db.tables.questions, questionId, qid);
    if found.None? {
      return Some(ServerError);
    }
    var t := db.tables;
    var i := found.value;
    var edited := t.questions[i := t.questions[i].(text := req.text, kind := req.kind, dimensionId := req.dimensionId)];
    assert forall q: QuestionRow :: q in edited ==> q.id < t.nextId by {
      assert forall j :: 0 <= j < |edited| ==> edited[j].id == t.questions[j].id && t.questions[j] in t.questions;
    }
    db.tables := t.(questions := edited);
    if req.options.Some? {
      var refused := ReplaceOptions(db, questionId, req.options.value);
      if refused {
        db.tables := t;
        return Some(ServerError);
      }
    }
    var stored := [];
    if req.rules.Some? {
      stored := ReplacementRules(db.tables, qid, questionId, req.rules.value);
      ReplaceRules(db, qid, questionId, req.rules.value);
    }
    if Refused(stored, t.questionnaires) {
      db.tables := t;
      return Some(ServerError);
    }
    error := None;
  }

  /**
   * A rule row, live or soft-deleted, whose `option_id` names a live option
   * of `questionId`.  `branch_rule.option_id` is a foreign key to `option.id`,
   * so such a row makes the database refuse to delete that option.
   */
  predicate OptionsPinned(t: Tables, questionId: int)
  {
    exists r :: r in t.rules && r.optionId in LiveOptionIds(t.options, questionId)
  }

  /**
   * The bulk delete and the insert loop over `data['options']`.  When a rule
   * row still refers to one of the options, the delete fails at the flush and
   * nothing is changed.
   */
  method ReplaceOptions(db: Db, questionId: int, inputs: seq<OptionInput>) returns (refused: bool)
    requires db.tables.Valid()
    modifies db
    ensures db.tables.Valid()
    ensures refused <==> OptionsPinned(old(db.tables), questionId)
    ensures refused ==> db.tables == old(db.tables)
    ensures !refused ==> db.tables == WithOptionsReplaced(old(db.tables), questionId, inputs)
  {
    var t := db.tables;
    refused := exists r :: r in t.rules && r.optionId in LiveOptionIds(t.options, questionId);
    if refused {
      return;
    }
    var kept := DropOptions(t.options, questionId);
    var created := NewOptions(questionId, inputs, t.nextId);
    assert forall o: OptionRow :: o in kept + created ==> o in kept || o in created;
    db.tables := t.(options := kept + created, nextId := t.nextId + |inputs|);
  }

  /** The bulk delete and the remapping loop over `data['branch_rules']`. */
  method ReplaceRules(db: Db, qid: int, questionId: int, rules: seq<RuleInput>)
    requires db.tables.Valid()
    modifies db
    ensures db.tables.Valid()
    ensures db.tables == WithRulesReplaced(old(db.tables), qid, questionId, rules)
  {
    var t := db.tables;
    var mapped := MapRules(LiveOptionIds(t.options, questionId), rules);
    var kept := DropRules(t.rules, questionId);
    var stored := NewRules(qid, questionId, mapped, t.nextId);
    assert stored == ReplacementRules(t, qid, questionId, rules);
    assert forall b: BranchRuleRow :: b in kept + stored ==> b in kept || b in stored;
    db.tables := t.(rules := kept + stored, nextId := t.nextId + |mapped|);
  }

  lemma {:induction false} LiveOptionIdsAppend(a: seq<OptionRow>, b: seq<OptionRow>, questionId: int)
    ensures LiveOptionIds(a + b, questionId) == LiveOptionIds(a, questionId) + LiveOptionIds(b, questionId)
    decreases |b|
  {
    if b == [] {
      assert a + b == a;
    } else {
      assert (a + b)[..|a + b| - 1] == a + b[..|b| - 1];
      LiveOptionIdsAppend(a, b[..|b| - 1], questionId);
    }
  }

  lemma {:induction false} LiveOptionIdsNone(options: seq<OptionRow>, questionId: int)
    requires forall o :: o in options ==> !LiveOption(o, questionId)
    ensures LiveOptionIds(options, questionId) == []
  {
    if options != [] {
      LiveOptionIdsNone(options[..|options| - 1], questionId);
    }
  }

  lemma {:induction false} LiveOptionIdsAll(options: seq<OptionRow>, questionId: int)
    requires forall o :: o in options ==> LiveOption(o, questionId)
    ensures LiveOptionIds(options, questionId) == OptionIds(options)
  {
    if options != [] {
      var init := options[..|options| - 1];
      LiveOptionIdsAll(init, questionId);
      OptionIdsAppend(init, [options[|options| - 1]]);
      assert init + [options[|options| - 1]] == options;
    }
  }

  lemma {:induction false} OptionIdsAppend(a: seq<OptionRow>, b: seq<OptionRow>)
    ensures OptionIds(a + b) == OptionIds(a) + OptionIds(b)
  {
    if a != [] {
      assert (a + b)[1..] == a[1..] + b;
      OptionIdsAppend(a[1..], b);
    } else {
      assert a + b == b;
    }
  }

  /**
   * When an update sends both options and rules, the rule positions resolve
   * against exactly the options just written, in request order: the same
   * mapping `add_question` uses.
   */
  lemma UpdateRemapsAgainstNewOptions(options: seq<OptionRow>, questionId: int, inputs: seq<OptionInput>, firstId: int)
    ensures LiveOptionIds(DropOptions(options, questionId) + NewOptions(questionId, inputs, firstId), questionId)
         == OptionIds(NewOptions(questionId, inputs, firstId))
  {
    var created := NewOptions(questionId, inputs, firstId);
    LiveOptionIdsAppend(DropOptions(options, questionId), created, questionId);
    LiveOptionIdsNone(DropOptions(options, questionId), questionId);
    LiveOptionIdsAll(created, questionId);
  }
}

=== FILE: questionnaire_list.dfy ===
/**
 * The administrator's questionnaire list
 * (front/src/components/Admin/QuestionnaireList.tsx): the flat list the
 * server returns is cleaned of deleted questionnaires and turned into a
 * tree of parents and sub-questionnaires, whose parents with children are
 * shown expanded.
 *
 * A `parent_id` of 0 is falsy in JavaScript, so such an item is a root just
 * like one without a parent.  Questionnaire ids are primary keys, so they
 * are distinct.
 */
module QuestionnaireList {
  import opened Wrappers
  import opened Records
  import opened Collections

  /** `!item.parent_id` */
  predicate IsRoot(q: QuestionnaireRow)
  {
    q.parentId.None? || q.parentId == Some(0)
  }

  /** The item hangs under the questionnaire with id `p`. */
  predicate ChildOf(q: QuestionnaireRow, p: int)
  {
    !IsRoot(q) && q.parentId == Some(p)
  }

  function RootFn(): QuestionnaireRow -> bool
  {
    (q: QuestionnaireRow) => IsRoot(q)
  }

  function ChildFn(p: int): QuestionnaireRow -> bool
  {
    (q: QuestionnaireRow) => ChildOf(q, p)
  }

  /** The roots of the tree, in list order. */
  function Roots(data: seq<QuestionnaireRow>): seq<QuestionnaireRow>
  {
    Filter(data, RootFn())
  }

  /** The children of questionnaire `p`, in list order. */
  function ChildrenOf(data: seq<QuestionnaireRow>, p: int): seq<QuestionnaireRow>
  {
    Filter(data, ChildFn(p))
  }

  /** Extending the list by one item adds it to its parent's children only. */
  lemma ChildrenSnoc(data: seq<QuestionnaireRow>, item: QuestionnaireRow, p: int)
    ensures ChildrenOf(data + [item], p) == ChildrenOf(data, p) + (if ChildOf(item, p) then [item] else [])
  {
    FilterSnoc(data, item, ChildFn(p));
  }

  predicate HasId(data: seq<QuestionnaireRow>, id: int)
  {
    exists i :: 0 <= i < |data| && data[i].id == id
  }

  predicate UniqueIds(data: seq<QuestionnaireRow>)
  {
    forall i, j :: 0 <= i < j < |data| ==> data[i].id != data[j].id
  }

  /** A tree node: a copy of the list item and the nodes of its children. */
  class Node {
    const item: QuestionnaireRow
    var children: seq<Node>

    constructor (item: QuestionnaireRow)
      ensures this.item == item && children == []
    {
      this.item := item;
      children := [];
    }
  }

  /** The items the nodes copy, in order. */
  function Items(nodes: seq<Node>): (r: seq<QuestionnaireRow>)
    ensures |r| == |nodes| && forall k :: 0 <= k < |nodes| ==> r[k] == nodes[k].item
  {
    seq(|nodes|, k requires 0 <= k < |nodes| => nodes[k].item)
  }

  /** `byId` holds one node per id of `data`, copying the item with that id. */
  ghost predicate Indexed(byId: map<int, Node>, data: seq<QuestionnaireRow>)
  {
    && (forall id :: id in byId <==> HasId(data, id))
    && (forall i :: 0 <= i < |data| ==> data[i].id in byId && byId[data[i].id].item == data[i])
  }

  /** Every indexed node copies an item of the list that carries its key. */
  lemma IndexedItems(byId: map<int, Node>, data: seq<QuestionnaireRow>)
    requires Indexed(byId, data)
    ensures forall id :: id in byId ==> byId[id].item.id == id && byId[id].item in data
  {
    forall id | id in byId
      ensures byId[id].item.id == id && byId[id].item in data
    {
      var i :| 0 <= i < |data| && data[i].id == id;
    }
  }

  /** The first pass of `buildTree`: a fresh, childless node per item, indexed by id. */
  method IndexNodes(data: seq<QuestionnaireRow>) returns (byId: map<int, Node>)
    requires UniqueIds(data)
    ensures Indexed(byId, data) && Distinct(byId)
    ensures fresh(byId.Values) && forall id :: id in byId ==> byId[id].children == []
  {
    byId := map[];
    for i := 0 to |data|
      invariant Indexed(byId, data[..i])
      invariant fresh(byId.Values) && forall id :: id in byId ==> byId[id].children == []
    {
      var item := data[i];
      assert data[..i + 1] == data[..i] + [item];
      IndexedSnoc(byId, data, i);
      var node := new Node(item);
      ValuesAdd(byId, item.id, node);
      byId := byId[item.id := node];
    }
    assert data[..|data|] == data;
    IndexedDistinct(byId, data);
  }

  /** Nodes indexed by their own ids are distinct. */
  lemma IndexedDistinct(byId: map<int, Node>, data: seq<QuestionnaireRow>)
    requires Indexed(byId, data)
    ensures Distinct(byId)
  {
    IndexedItems(byId, data);
    forall a, b | a in byId && b in byId && a != b
      ensures byId[a] != byId[b]
    {
      assert byId[a].item.id != byId[b].item.id;
    }
  }

  /** Adding a new key adds exactly its value to the map's values. */
  lemma ValuesAdd<K, V>(m: map<K, V>, k: K, v: V)
    requires k !in m
    ensures m[k := v].Values == m.Values + {v}
  {
    forall x | x in m.Values
      ensures x in m[k := v].Values
    {
      var j :| j in m && m[j] == x;
      assert m[k := v][j] == x;
    }
    assert m[k := v][k] == v;
  }

  /** Indexing one more item, whose id is new, keeps the map in step with the list. */
  lemma IndexedSnoc(byId: map<int, Node>, data: seq<QuestionnaireRow>, i: int)
    requires UniqueIds(data) && 0 <= i < |data| && Indexed(byId, data[..i])
    ensures data[i].id !in byId
    ensures forall node: Node {:trigger byId[data[i].id := node]} :: node.item == data[i] ==>
      Indexed(byId[data[i].id := node], data[..i + 1])
  {
    assert data[..i + 1] == data[..i] + [data[i]];
  }

  /** The nodes are distinct objects, one per id. */
  predicate Distinct(byId: map<int, Node>)
  {
    forall a, b :: a in byId && b in byId && a != b ==> byId[a] != byId[b]
  }

  /** The tree and the children lists once the items in `done` have been placed. */
  predicate Placed(byId: map<int, Node>, tree: seq<Node>, done: seq<QuestionnaireRow>)
    reads byId.Values
  {
    && Items(tree) == Roots(done)
    && (forall k :: 0 <= k < |tree| ==> tree[k].item.id in byId && tree[k] == byId[tree[k].item.id])
    && (forall id :: id in byId ==> Items(byId[id].children) == ChildrenOf(done, id))
  }

  /** One step of the second pass of `buildTree`: place `item`'s node under its parent or at the top. */
  method Attach(byId: map<int, Node>, tree: seq<Node>, item: QuestionnaireRow, ghost done: seq<QuestionnaireRow>)
    returns (tree': seq<Node>)
    requires item.id in byId && byId[item.id].item == item
    requires Distinct(byId) && Placed(byId, tree, done)
    modifies byId.Values
    ensures Placed(byId, tree', done + [item])
  {
    var node := byId[item.id];
    FilterSnoc(done, item, RootFn());
    tree' := tree;
    if !IsRoot(item) && item.parentId.value in byId {
      var parent := byId[item.parentId.value];
      parent.children := parent.children + [node];
      forall id | id in byId
        ensures Items(byId[id].children) == ChildrenOf(done + [item], id)
      {
        ChildrenSnoc(done, item, id);
        if id != item.parentId.value {
          assert byId[id] != parent;
        }
      }
    } else {
      if IsRoot(item) {
        tree' := tree + [node];
      }
      forall id | id in byId
        ensures ChildrenOf(done + [item], id) == ChildrenOf(done, id)
      {
        ChildrenSnoc(done, item, id);
      }
    }
  }

  /**
   * `buildTree`: every non-root is pushed onto its parent's children when
   * the parent is in the list, and every root onto the tree.  The roots in
   * `tree` are the indexed nodes, so their children are the ones filled in
   * by the second pass.
   */
  method BuildTree(data: seq<QuestionnaireRow>) returns (tree: seq<Node>, byId: map<int, Node>)
    requires UniqueIds(data)
    ensures Indexed(byId, data) && fresh(byId.Values)
    ensures Placed(byId, tree, data)
  {
    byId := IndexNodes(data);
    tree := [];
    for i := 0 to |data|
      invariant fresh(byId.Values)
      invariant Placed(byId, tree, data[..i])
    {
      var item := data[i];
      assert data[..i + 1] == data[..i] + [item];
      tree := Attach(byId, tree, item, data[..i]);
    }
    assert data[..|data|] == data;
  }

  /**
   * An item whose parent is not in the list is neither a root nor anybody's
   * child, so it is not shown at all.
   */
  lemma OrphanDropped(data: seq<QuestionnaireRow>, q: QuestionnaireRow)
    requires q in data && !IsRoot(q) && !HasId(data, q.parentId.value)
    ensures q !in Roots(data)
    ensures forall id :: HasId(data, id) ==> q !in ChildrenOf(data, id)
  {
    FilterMembers(data, RootFn());
    forall id | HasId(data, id)
      ensures q !in ChildrenOf(data, id)
    {
      FilterMembers(data, ChildFn(id));
    }
  }

  // ---------------------------------------------------------------------
  // The page: deleted items, expanded rows, the add-child button
  // ---------------------------------------------------------------------

  function NotDeletedFn(): QuestionnaireRow -> bool
  {
    (q: QuestionnaireRow) => q.status != "deleted"
  }

  /** `res.data.filter(q => q.status !== 'deleted')` */
  function Visible(data: seq<QuestionnaireRow>): seq<QuestionnaireRow>
  {
    Filter(data, NotDeletedFn())
  }

  function IdsOf(qs: seq<QuestionnaireRow>): (ids: seq<int>)
    ensures |ids| == |qs| && forall k :: 0 <= k < |qs| ==> ids[k] == qs[k].id
  {
    seq(|qs|, k requires 0 <= k < |qs| => qs[k].id)
  }

  function HasChildrenFn(data: seq<QuestionnaireRow>): QuestionnaireRow -> bool
  {
    (q: QuestionnaireRow) => ChildrenOf(data, q.id) != []
  }

  /** The rows shown expanded: the ids of the roots that have children, in tree order. */
  function Expanded(data: seq<QuestionnaireRow>): seq<int>
  {
    IdsOf(Filter(Roots(data), HasChildrenFn(data)))
  }

  /** A row is expanded exactly when it is a root with at least one child. */
  lemma ExpandedExact(data: seq<QuestionnaireRow>)
    ensures forall q :: q in Roots(data) && ChildrenOf(data, q.id) != [] ==> q.id in Expanded(data)
    ensures forall id :: id in Expanded(data) ==>
      exists q :: q in data && IsRoot(q) && q.id == id && ChildrenOf(data, id) != []
  {
    var kept := Filter(Roots(data), HasChildrenFn(data));
    FilterMembers(Roots(data), HasChildrenFn(data));
    FilterMembers(data, RootFn());
    forall q | q in Roots(data) && ChildrenOf(data, q.id) != []
      ensures q.id in Expanded(data)
    {
      var k :| 0 <= k < |kept| && kept[k] == q;
      assert Expanded(data)[k] == q.id;
    }
  }

  /** The expanded rows among the first `k` roots. */
  function ExpandedUpTo(data: seq<QuestionnaireRow>, k: nat): seq<int>
    requires k <= |Roots(data)|
  {
    IdsOf(Filter(Roots(data)[..k], HasChildrenFn(data)))
  }

  /** Looking at one more root adds its id exactly when it has children. */
  lemma ExpandedStep(data: seq<QuestionnaireRow>, k: nat)
    requires k < |Roots(data)|
    ensures ExpandedUpTo(data, k + 1) ==
      ExpandedUpTo(data, k) + (if ChildrenOf(data, Roots(data)[k].id) != [] then [Roots(data)[k].id] else [])
  {
    var roots := Roots(data);
    assert roots[..k + 1] == roots[..k] + [roots[k]];
    FilterSnoc(roots[..k], roots[k], HasChildrenFn(data));
  }

  /** The `k`-th root node copies the `k`-th root and has as many children as it. */
  lemma PlacedRoot(byId: map<int, Node>, tree: seq<Node>, data: seq<QuestionnaireRow>, k: int)
    requires Placed(byId, tree, data) && 0 <= k < |tree|
    ensures |tree| == |Roots(data)| && tree[k].item == Roots(data)[k]
    ensures |tree[k].children| == |ChildrenOf(data, tree[k].item.id)|
  {
    assert Items(tree)[k] == tree[k].item;
    assert Items(tree[k].children) == ChildrenOf(data, tree[k].item.id);
  }

  /** The `expandedRowKeys` effect, reading the children off the built tree. */
  method ExpandedKeys(tree: seq<Node>, byId: map<int, Node>, ghost data: seq<QuestionnaireRow>) returns (keys: seq<int>)
    requires Placed(byId, tree, data)
    ensures keys == Expanded(data)
  {
    keys := [];
    assert |tree| == |Roots(data)| by {
      assert Items(tree) == Roots(data);
    }
    for k := 0 to |tree|
      invariant keys == ExpandedUpTo(data, k)
    {
      var node := tree[k];
      PlacedRoot(byId, tree, data, k);
      ExpandedStep(data, k);
      if |node.children| > 0 {
        keys := keys + [node.item.id];
      }
    }
    assert Roots(data)[..|tree|] == Roots(data);
  }

  /** The add-child button: only on a root, and only while it has fewer than 10 children. */
  function ShowsAddChild(q: QuestionnaireRow, childCount: nat): bool
  {
    IsRoot(q) && childCount < 10
  }

  /**
   * Creating sub-questionnaires only through the button, a root never gets
   * more than 10 of them.
   */
  lemma AddChildKeepsAtMostTen(data: seq<QuestionnaireRow>, q: QuestionnaireRow, child: QuestionnaireRow)
    requires ShowsAddChild(q, |ChildrenOf(data, q.id)|)
    ensures |ChildrenOf(data + [child], q.id)| <= 10
  {
    ChildrenSnoc(data, child, q.id);
  }

  /** The state of the list page. */
  class ListPage {
    var data: seq<QuestionnaireRow>
    var treeData: seq<Node>
    var expandedRowKeys: seq<int>

    constructor ()
      ensures data == [] && treeData == [] && expandedRowKeys == []
    {
      data := [];
      treeData := [];
      expandedRowKeys := [];
    }

    /**
     * `fetchList` followed by the `expandedRowKeys` effect.  `response` is
     * the list of a successful reply, `None` for an error reply or a
     * failed request.
     */
    method FetchList(response: Option<seq<QuestionnaireRow>>)
      requires response.Some? ==> UniqueIds(Visible(response.value))
      modifies this
      ensures response.None? ==> data == [] && treeData == [] && expandedRowKeys == []
      ensures response.Some? ==> data == Visible(response.value)
      ensures Items(treeData) == Roots(data)
      ensures forall k :: 0 <= k < |treeData| ==> Items(treeData[k].children) == ChildrenOf(data, treeData[k].item.id)
      ensures expandedRowKeys == Expanded(data)
    {
      if response.None? {
        data := [];
        treeData := [];
        expandedRowKeys := [];
        return;
      }
      var filtered := Visible(response.value);
      var tree, byId := BuildTree(filtered);
      data := filtered;
      treeData := tree;
      expandedRowKeys := ExpandedKeys(tree, byId, filtered);
    }
  }
}

=== FILE: questionnaire_stats.dfy ===
/**
 * The statistics page (front/src/components/Admin/QuestionnaireStats.tsx):
 * the area × level table built from the raw rows the overview returns, the
 * level × option bar matrix built from the cross statistics, and the CSV
 * export of the raw answers.
 *
 * A level that is `null`, `undefined` or `''` is the empty string here, so
 * "truthy level" reads `level != ""`.
 */
module StatsView {
  import opened Wrappers
  import opened Text
  import opened Collections
  import opened Areas
  import Records
  import StatsApi

  // ---------------------------------------------------------------------
  // Area × level (`aggregateAreaLevelStats`)
  // ---------------------------------------------------------------------

  /** One row of `area_level_stats_raw`: an address answer's codes and its submission's level. */
  datatype RawLevelItem = RawLevelItem(questionId: int, area: seq<string>, level: string)

  /** The granularity selector: province, city or district. */
  datatype Granularity = ProvinceLevel | CityLevel | DistrictLevel

  /** The grouping key: the province code, or the first two or three codes joined by '/'. */
  function GroupKey(area: seq<string>, g: Granularity): string
  {
    match g
    case ProvinceLevel => if area == [] then "" else area[0]
    case CityLevel => Join(Take(area, 2), "/")
    case DistrictLevel => Join(Take(area, 3), "/")
  }

  function SelectedFn(qid: int): RawLevelItem -> bool
  {
    (item: RawLevelItem) => item.questionId == qid && item.level != ""
  }

  /** The rows of the chosen question that have a level. */
  function Selected(raw: seq<RawLevelItem>, qid: int): seq<RawLevelItem>
  {
    Filter(raw, SelectedFn(qid))
  }

  function LevelOfFn(): RawLevelItem -> Option<string>
  {
    (item: RawLevelItem) => Some(item.level)
  }

  /** `levelList`: the levels of the selected rows, each once, in order of first appearance. */
  function LevelList(selected: seq<RawLevelItem>): seq<string>
  {
    Dedup(Collect(selected, LevelOfFn()))
  }

  /** The area a row is grouped under, when its key is not empty. */
  function AreaKeyFn(g: Granularity): RawLevelItem -> Option<string>
  {
    (item: RawLevelItem) => var key := GroupKey(item.area, g); if key == "" then None else Some(key)
  }

  /** The `areaMap[key][level]` cell a row increments, when its key is not empty. */
  function CellFn(g: Granularity): RawLevelItem -> Option<(string, string)>
  {
    (item: RawLevelItem) =>
      var key := GroupKey(item.area, g);
      if key == "" then None else Some((key, item.level))
  }

  /** `levelList.forEach(lv => row[lv] = areaMap[area][lv] || 0)` */
  function CountsFor(cells: seq<((string, string), nat)>, area: string, levels: seq<string>): (r: seq<nat>)
    ensures |r| == |levels|
    ensures forall j :: 0 <= j < |levels| ==> r[j] == Get(cells, (area, levels[j]))
  {
    if levels == [] then [] else [Get(cells, (area, levels[0]))] + CountsFor(cells, area, levels[1..])
  }

  datatype AreaLevelRow = AreaLevelRow(area: string, areaName: string, counts: seq<nat>)

  datatype AreaLevelAgg = AreaLevelAgg(areaList: seq<string>, levelList: seq<string>, data: seq<AreaLevelRow>)

  /** The table row of one area. */
  function RowOf(cells: seq<((string, string), nat)>, levels: seq<string>, tree: seq<CascaderOption>, area: string): AreaLevelRow
  {
    AreaLevelRow(area, Join(PathLabels(SplitOn(area, '/'), tree), "/"), CountsFor(cells, area, levels))
  }

  /** What `aggregateAreaLevelStats` returns. */
  function AreaLevelStats(raw: seq<RawLevelItem>, questionId: Option<int>, g: Granularity, tree: seq<CascaderOption>): AreaLevelAgg
  {
    if questionId.None? || questionId.value == 0 then AreaLevelAgg([], [], [])
    else
      var selected := Selected(raw, questionId.value);
      var levels := LevelList(selected);
      var areas := Keys(Tally(Collect(selected, AreaKeyFn(g))));
      var cells := Tally(Collect(selected, CellFn(g)));
      AreaLevelAgg(areas, levels, Rows(cells, levels, tree, areas))
  }

  /** One table row per area, in area order. */
  function Rows(cells: seq<((string, string), nat)>, levels: seq<string>, tree: seq<CascaderOption>, areas: seq<string>)
    : (rows: seq<AreaLevelRow>)
    ensures |rows| == |areas| && forall i :: 0 <= i < |areas| ==> rows[i] == RowOf(cells, levels, tree, areas[i])
  {
    seq(|areas|, i requires 0 <= i < |areas| => RowOf(cells, levels, tree, areas[i]))
  }

  /** The `areaMap` loop: the areas in order of first appearance, and the per-area, per-level counts. */
  method CountAreaLevels(selected: seq<RawLevelItem>, g: Granularity)
    returns (areas: seq<(string, nat)>, cells: seq<((string, string), nat)>)
    ensures areas == Tally(Collect(selected, AreaKeyFn(g)))
    ensures cells == Tally(Collect(selected, CellFn(g)))
  {
    var keyOf, cellOf := AreaKeyFn(g), CellFn(g);
    areas, cells := [], [];
    for i := 0 to |selected|
      invariant areas == Tally(Collect(selected[..i], keyOf))
      invariant cells == Tally(Collect(selected[..i], cellOf))
    {
      CollectStep(selected, keyOf, i);
      CollectStep(selected, cellOf, i);
      var item := selected[i];
      var key := GroupKey(item.area, g);
      if key != "" {
        TallyStep(Collect(selected[..i], keyOf), key);
        TallyStep(Collect(selected[..i], cellOf), (key, item.level));
        areas := Bump(areas, key);
        cells := Bump(cells, (key, item.level));
      }
    }
    assert selected[..|selected|] == selected;
  }

  /** `aggregateAreaLevelStats` */
  method AggregateAreaLevelStats(raw: seq<RawLevelItem>, questionId: Option<int>, g: Granularity, tree: seq<CascaderOption>)
    returns (agg: AreaLevelAgg)
    ensures agg == AreaLevelStats(raw, questionId, g, tree)
  {
    if questionId.None? || questionId.value == 0 {
      return AreaLevelAgg([], [], []);
    }
    var selected := Selected(raw, questionId.value);
    var levels := LevelList(selected);
    var areaCounter, cells := CountAreaLevels(selected, g);
    var areas := Keys(areaCounter);
    var data := BuildRows(cells, levels, tree, areas);
    agg := AreaLevelAgg(areas, levels, data);
  }

  /** The `data` loop: names each area through `getAreaNameByCodes` and fills in its counts. */
  method BuildRows(cells: seq<((string, string), nat)>, levels: seq<string>, tree: seq<CascaderOption>, areas: seq<string>)
    returns (data: seq<AreaLevelRow>)
    ensures data == Rows(cells, levels, tree, areas)
  {
    data := [];
    for i := 0 to |areas|
      invariant |data| == i
      invariant forall k :: 0 <= k < i ==> data[k] == RowOf(cells, levels, tree, areas[k])
    {
      var name := AreaName(SplitOn(areas[i], '/'), tree);
      data := data + [AreaLevelRow(areas[i], name, CountsFor(cells, areas[i], levels))];
    }
  }

  /** The sum of a row's counts. */
  function Sum(xs: seq<nat>): nat
  {
    if xs == [] then 0 else xs[0] + Sum(xs[1..])
  }

  /** The selected rows in `xs` grouped under `area` at `level`, summed over `levels`. */
  function HitsOver(xs: seq<RawLevelItem>, g: Granularity, area: string, levels: seq<string>): nat
  {
    if levels == [] then 0 else Hits(xs, CellFn(g), (area, levels[0])) + HitsOver(xs, g, area, levels[1..])
  }

  /** One more row adds one to the sum exactly when it lies in `area` and its level is listed. */
  lemma {:induction false} HitsOverSnoc(xs: seq<RawLevelItem>, x: RawLevelItem, g: Granularity, area: string, levels: seq<string>)
    requires forall i, j :: 0 <= i < j < |levels| ==> levels[i] != levels[j]
    ensures HitsOver(xs + [x], g, area, levels) ==
      HitsOver(xs, g, area, levels) + (if AreaKeyFn(g)(x) == Some(area) && x.level in levels then 1 else 0)
  {
    assert (xs + [x])[..|xs|] == xs;
    if levels != [] {
      HitsOverSnoc(xs, x, g, area, levels[1..]);
      assert x.level in levels <==> x.level == levels[0] || x.level in levels[1..];
      if x.level == levels[0] {
        assert x.level !in levels[1..] by {
          forall j | 0 <= j < |levels[1..]|
            ensures levels[1..][j] != x.level
          {
            assert levels[1..][j] == levels[j + 1];
          }
        }
      }
    }
  }

  /** Summed over a list that holds every level once, the cells of an area count its rows. */
  lemma {:induction false} HitsOverArea(xs: seq<RawLevelItem>, g: Granularity, area: string, levels: seq<string>)
    requires forall i, j :: 0 <= i < j < |levels| ==> levels[i] != levels[j]
    requires forall i :: 0 <= i < |xs| ==> xs[i].level in levels
    ensures HitsOver(xs, g, area, levels) == Hits(xs, AreaKeyFn(g), area)
  {
    if xs == [] {
      HitsOverEmpty(g, area, levels);
    } else {
      var init, last := xs[..|xs| - 1], xs[|xs| - 1];
      HitsOverArea(init, g, area, levels);
      assert init + [last] == xs;
      HitsOverSnoc(init, last, g, area, levels);
    }
  }

  lemma {:induction false} HitsOverEmpty(g: Granularity, area: string, levels: seq<string>)
    ensures HitsOver([], g, area, levels) == 0
  {
    if levels != [] {
      HitsOverEmpty(g, area, levels[1..]);
    }
  }

  lemma {:induction false} SumCounts(xs: seq<RawLevelItem>, g: Granularity, area: string, levels: seq<string>)
    ensures Sum(CountsFor(Tally(Collect(xs, CellFn(g))), area, levels)) == HitsOver(xs, g, area, levels)
  {
    if levels != [] {
      TallyCollect(xs, CellFn(g));
      SumCounts(xs, g, area, levels[1..]);
    }
  }

  /** The table of a chosen question, its parts named. */
  lemma AreaLevelStatsParts(raw: seq<RawLevelItem>, qid: int, g: Granularity, tree: seq<CascaderOption>)
    requires qid != 0
    ensures var selected := Selected(raw, qid);
      var agg := AreaLevelStats(raw, Some(qid), g, tree);
      && agg.areaList == Dedup(Collect(selected, AreaKeyFn(g)))
      && agg.levelList == LevelList(selected)
      && agg.data == Rows(Tally(Collect(selected, CellFn(g))), agg.levelList, tree, agg.areaList)
  {
  }

  /** The level columns: every level of the chosen question's answers, each once. */
  lemma LevelListExact(raw: seq<RawLevelItem>, qid: int)
    ensures var levels := LevelList(Selected(raw, qid));
      && (forall i, j :: 0 <= i < j < |levels| ==> levels[i] != levels[j])
      && (forall lv :: lv in levels <==> exists item :: item in raw && item.questionId == qid && item.level == lv && lv != "")
  {
    var selected := Selected(raw, qid);
    DedupExact(Collect(selected, LevelOfFn()));
    FilterMembers(raw, SelectedFn(qid));
    CollectLevels(selected);
  }

  /**
   * The table has one row per area, each area once, and every level of the
   * question appears once as a column.
   */
  lemma AreaLevelColumns(raw: seq<RawLevelItem>, qid: int, g: Granularity, tree: seq<CascaderOption>)
    requires qid != 0
    ensures var agg := AreaLevelStats(raw, Some(qid), g, tree);
      && |agg.data| == |agg.areaList|
      && (forall i, j :: 0 <= i < j < |agg.areaList| ==> agg.areaList[i] != agg.areaList[j])
      && (forall i, j :: 0 <= i < j < |agg.levelList| ==> agg.levelList[i] != agg.levelList[j])
      && (forall lv :: lv in agg.levelList <==> exists item :: item in raw && item.questionId == qid && item.level == lv && lv != "")
  {
    AreaLevelStatsParts(raw, qid, g, tree);
    DedupExact(Collect(Selected(raw, qid), AreaKeyFn(g)));
    LevelListExact(raw, qid);
  }

  /** Each row's counts add up to the number of rows grouped under its area. */
  lemma AreaLevelRowSum(raw: seq<RawLevelItem>, qid: int, g: Granularity, tree: seq<CascaderOption>, i: int)
    requires qid != 0
    requires 0 <= i < |AreaLevelStats(raw, Some(qid), g, tree).data|
    ensures var agg := AreaLevelStats(raw, Some(qid), g, tree);
      && agg.data[i].area == agg.areaList[i]
      && Sum(agg.data[i].counts) == Hits(Selected(raw, qid), AreaKeyFn(g), agg.areaList[i])
  {
    var selected := Selected(raw, qid);
    var agg := AreaLevelStats(raw, Some(qid), g, tree);
    AreaLevelStatsParts(raw, qid, g, tree);
    var cells := Tally(Collect(selected, CellFn(g)));
    var area := agg.areaList[i];
    assert agg.data[i] == RowOf(cells, agg.levelList, tree, area);
    LevelListExact(raw, qid);
    SumCounts(selected, g, area, agg.levelList);
    forall k | 0 <= k < |selected|
      ensures selected[k].level in agg.levelList
    {
      assert selected[k] in selected;
      FilterMembers(raw, SelectedFn(qid));
    }
    HitsOverArea(selected, g, area, agg.levelList);
  }

  /** The levels collected from the rows are exactly the rows' levels. */
  lemma {:induction false} CollectLevels(xs: seq<RawLevelItem>)
    ensures forall lv :: lv in Collect(xs, LevelOfFn()) <==> exists item :: item in xs && item.level == lv
  {
    if xs != [] {
      var init := xs[..|xs| - 1];
      CollectLevels(init);
      assert xs == init + [xs[|xs| - 1]];
    }
  }

  /** Without a chosen question the table is empty. */
  lemma NoQuestionNoTable(raw: seq<RawLevelItem>, g: Granularity, tree: seq<CascaderOption>)
    ensures AreaLevelStats(raw, None, g, tree) == AreaLevelAgg([], [], [])
    ensures AreaLevelStats(raw, Some(0), g, tree) == AreaLevelAgg([], [], [])
  {
  }

  // ---------------------------------------------------------------------
  // Level × option bar matrix (`barOption`)
  // ---------------------------------------------------------------------

  /** One entry of the `level-by-basic` reply. */
  datatype CrossRow = CrossRow(level: string, option: string, count: nat)

  /** The reply's list, one entry per counter key, in the counter's order. */
  function CrossRows(stats: seq<((string, string), nat)>): (rows: seq<CrossRow>)
    ensures |rows| == |stats|
    ensures forall i :: 0 <= i < |stats| ==> rows[i] == CrossRow(stats[i].0.0, stats[i].0.1, stats[i].1)
  {
    seq(|stats|, i requires 0 <= i < |stats| => CrossRow(stats[i].0.0, stats[i].0.1, stats[i].1))
  }

  function MatchesFn(level: string, option: string): CrossRow -> bool
  {
    (r: CrossRow) => r.level == level && r.option == option
  }

  /** `found ? found.count : 0` for the first entry with that level and option. */
  function BarCell(rows: seq<CrossRow>, level: string, option: string): nat
  {
    match First(rows, MatchesFn(level, option))
    case Some(k) => rows[k].count
    case None => 0
  }

  function RowLevelFn(): CrossRow -> Option<string>
  {
    (r: CrossRow) => Some(r.level)
  }

  function RowOptionFn(): CrossRow -> Option<string>
  {
    (r: CrossRow) => Some(r.option)
  }

  /** The stacked bar chart: one series per level, one bar per option. */
  datatype BarMatrix = BarMatrix(levels: seq<string>, options: seq<string>, series: seq<seq<nat>>)

  /** One series: the level's bar segment for each option, in option order. */
  function Series(rows: seq<CrossRow>, level: string, options: seq<string>): (r: seq<nat>)
    ensures |r| == |options|
    ensures forall j :: 0 <= j < |options| ==> r[j] == BarCell(rows, level, options[j])
  {
    seq(|options|, j requires 0 <= j < |options| => BarCell(rows, level, options[j]))
  }

  /** `barOption`: none for an empty reply. */
  function BarOption(rows: seq<CrossRow>): (b: Option<BarMatrix>)
    ensures b.Some? <==> rows != []
    ensures b.Some? ==> |b.value.series| == |b.value.levels|
    ensures b.Some? ==> forall i :: 0 <= i < |b.value.levels| ==>
      b.value.series[i] == Series(rows, b.value.levels[i], b.value.options)
  {
    if rows == [] then None
    else
      var levels := Dedup(Collect(rows, RowLevelFn()));
      var options := Dedup(Collect(rows, RowOptionFn()));
      Some(BarMatrix(levels, options, seq(|levels|, i requires 0 <= i < |levels| => Series(rows, levels[i], options))))
  }

  /** Over a reply without repeated keys, a cell is the count of its (level, option) key, 0 when absent. */
  lemma BarCellIsCount(stats: seq<((string, string), nat)>, level: string, option: string)
    requires DistinctKeys(stats)
    ensures BarCell(CrossRows(stats), level, option) == Get(stats, (level, option))
  {
    var rows := CrossRows(stats);
    match First(rows, MatchesFn(level, option))
    case Some(k) =>
      GetAt(stats, k);
    case None =>
      forall i | 0 <= i < |stats|
        ensures Keys(stats)[i] != (level, option)
      {
        assert !MatchesFn(level, option)(rows[i]);
      }
      GetAbsent(stats, (level, option));
  }

  /**
   * Drawn from the cross statistics of a question, each bar segment is the
   * number of levelled answers with that level and that label.
   */
  lemma BarSegmentsCountAnswers(t: Records.Tables, qid: int, q: Records.QuestionRow, parse: StatsApi.AreaParser,
                                level: string, option: string)
    ensures BarCell(CrossRows(StatsApi.CrossStats(t, qid, q, parse)), level, option) ==
      Hits(Collect(t.answers, StatsApi.Levelled(t, qid, q.id)), StatsApi.CrossKey(t, q, parse), (level, option))
  {
    StatsApi.CrossStatsCounts(t, qid, q, parse);
    BarCellIsCount(StatsApi.CrossStats(t, qid, q, parse), level, option);
  }

  /** The axes list every level and every option of the reply, each once. */
  lemma BarAxes(rows: seq<CrossRow>)
    requires rows != []
    ensures var b := BarOption(rows).value;
      && (forall lv :: lv in b.levels <==> exists r :: r in rows && r.level == lv)
      && (forall o :: o in b.options <==> exists r :: r in rows && r.option == o)
      && (forall i, j :: 0 <= i < j < |b.levels| ==> b.levels[i] != b.levels[j])
      && (forall i, j :: 0 <= i < j < |b.options| ==> b.options[i] != b.options[j])
  {
    LevelAxis(rows);
    OptionAxis(rows);
  }

  lemma LevelAxis(rows: seq<CrossRow>)
    requires rows != []
    ensures var levels := BarOption(rows).value.levels;
      && (forall lv :: lv in levels <==> exists r :: r in rows && r.level == lv)
      && (forall i, j :: 0 <= i < j < |levels| ==> levels[i] != levels[j])
  {
    var found := Collect(rows, RowLevelFn());
    assert BarOption(rows).value.levels == Dedup(found);
    DedupExact(found);
    CollectFields(rows);
  }

  lemma OptionAxis(rows: seq<CrossRow>)
    requires rows != []
    ensures var options := BarOption(rows).value.options;
      && (forall o :: o in options <==> exists r :: r in rows && r.option == o)
      && (forall i, j :: 0 <= i < j < |options| ==> options[i] != options[j])
  {
    var found := Collect(rows, RowOptionFn());
    assert BarOption(rows).value.options == Dedup(found);
    DedupExact(found);
    CollectFields(rows);
  }

  lemma {:induction false} CollectFields(rows: seq<CrossRow>)
    ensures forall lv :: lv in Collect(rows, RowLevelFn()) <==> exists r :: r in rows && r.level == lv
    ensures forall o :: o in Collect(rows, RowOptionFn()) <==> exists r :: r in rows && r.option == o
  {
    if rows != [] {
      var init := rows[..|rows| - 1];
      CollectFields(init);
      assert rows == init + [rows[|rows| - 1]];
    }
  }

  // ---------------------------------------------------------------------
  // CSV export (`handleExport`)
  // ---------------------------------------------------------------------

  /** A raw answer as its (key, value) entries in `Object.keys` order, values already rendered as text. */
  type RawRecord = seq<(string, string)>

  function Names(r: RawRecord): (ns: seq<string>)
    ensures |ns| == |r| && forall i :: 0 <= i < |r| ==> ns[i] == r[i].0
  {
    seq(|r|, i requires 0 <= i < |r| => r[i].0)
  }

  function FieldValues(r: RawRecord): (vs: seq<string>)
    ensures |vs| == |r| && forall i :: 0 <= i < |r| ==> vs[i] == r[i].1
  {
    seq(|r|, i requires 0 <= i < |r| => r[i].1)
  }

  /** Each record's values joined by ','. */
  function CsvRows(records: seq<RawRecord>): (lines: seq<string>)
    ensures |lines| == |records|
    ensures forall i :: 0 <= i < |records| ==> lines[i] == Join(FieldValues(records[i]), ",")
  {
    seq(|records|, i requires 0 <= i < |records| => Join(FieldValues(records[i]), ","))
  }

  /** The header (the first record's keys joined by ',') and the rows, joined by newlines. */
  function CsvText(records: seq<RawRecord>): string
    requires records != []
  {
    Join([Join(Names(records[0]), ",")] + CsvRows(records), "\n")
  }

  /** What pressing export does: nothing, a thrown `TypeError`, or a download. */
  datatype ExportOutcome = NoExport | ExportCrash | Download(csv: string)

  /**
   * `handleExport` as written: `raw` is `stats.raw_answers`, `None` when
   * there are no statistics.  An empty list passes the guard and
   * `Object.keys(undefined)` throws.
   */
  function ExportAsWritten(raw: Option<seq<RawRecord>>): (e: ExportOutcome)
    ensures e == ExportCrash <==> raw == Some([])
    ensures raw.None? ==> e == NoExport
  {
    match raw
    case None => NoExport
    case Some(records) => if records == [] then ExportCrash else Download(CsvText(records))
  }

  /** `handleExport` with an empty answer list treated like missing statistics. */
  function Export(raw: Option<seq<RawRecord>>): (e: ExportOutcome)
    ensures e != ExportCrash
    ensures raw.None? || raw == Some([]) ==> e == NoExport
  {
    match raw
    case None => NoExport
    case Some(records) => if records == [] then NoExport else Download(CsvText(records))
  }

  /** The two agree except on an empty answer list, where the code as written throws. */
  lemma ExportDiffersOnlyWhenEmpty(raw: Option<seq<RawRecord>>)
    ensures raw != Some([]) ==> ExportAsWritten(raw) == Export(raw)
    ensures ExportAsWritten(Some([])) == ExportCrash && Export(Some([])) == NoExport
  {
  }

  lemma {:induction false} JoinAvoids(parts: seq<string>, sep: string, c: char)
    requires c !in sep
    requires forall i :: 0 <= i < |parts| ==> c !in parts[i]
    ensures c !in Join(parts, sep)
  {
    if |parts| > 1 {
      JoinAvoids(parts[1..], sep, c);
    }
  }

  /**
   * With no newline in any key or value, the download has one line for the
   * header and one per answer: splitting it at newlines gives them back.
   */
  lemma CsvLines(records: seq<RawRecord>)
    requires records != []
    requires forall i, k :: 0 <= i < |records| && 0 <= k < |records[i]| ==>
      '\n' !in records[i][k].0 && '\n' !in records[i][k].1
    ensures Export(Some(records)).Download?
    ensures SplitOn(Export(Some(records)).csv, '\n') == [Join(Names(records[0]), ",")] + CsvRows(records)
    ensures |SplitOn(Export(Some(records)).csv, '\n')| == |records| + 1
  {
    var lines := [Join(Names(records[0]), ",")] + CsvRows(records);
    JoinAvoids(Names(records[0]), ",", '\n');
    forall i | 0 <= i < |records|
      ensures '\n' !in CsvRows(records)[i]
    {
      JoinAvoids(FieldValues(records[i]), ",", '\n');
    }
    forall p | p in lines
      ensures '\n' !in p
    {
      var i :| 0 <= i < |lines| && lines[i] == p;
      if i > 0 {
        assert p == CsvRows(records)[i - 1];
      }
    }
    SplitJoin(lines, '\n');
  }
}

=== FILE: records.dfy ===
/**
 * The backend's tables (backend/models.py) as in-memory sequences of rows.
 *
 * Option values, scores and band limits are integers here; the database's
 * Float columns are not modelled.  Rows are kept in insertion order, which
 * is the order an unordered query returns them in.
 */
module Records {
  import opened Wrappers

  /** The name of the dimension that holds respondent information and is never scored. */
  const Basic: string := "用户基本信息(不参与得分评估)"

  datatype QuestionKind = TextKind | SingleKind | MultipleKind | AreaKind | AddressKind

  datatype QuestionnaireRow = QuestionnaireRow(
    id: int,
    title: string,
    description: string,
    status: string,
    accessCode: string,
    parentId: Option<int>,
    isPublished: bool)

  datatype DimensionRow = DimensionRow(
    id: int,
    questionnaireId: int,
    name: string,
    weight: real,
    isDeleted: bool)

  datatype QuestionRow = QuestionRow(
    id: int,
    questionnaireId: int,
    dimensionId: Option<int>,
    text: string,
    kind: QuestionKind,
    order: int,
    isDeleted: bool)

  datatype OptionRow = OptionRow(
    id: int,
    questionId: int,
    text: string,
    value: Option<int>,
    isOther: bool,
    isDeleted: bool)

  datatype BranchRuleRow = BranchRuleRow(
    id: int,
    questionnaireId: int,
    questionId: int,
    optionId: int,
    nextQuestionnaireId: Option<int>,
    isDeleted: bool)

  datatype SubmissionRow = SubmissionRow(
    id: int,
    questionnaireId: int,
    groupKey: Option<string>,
    assessmentLevel: Option<string>,
    isDeleted: bool)

  datatype AnswerRow = AnswerRow(
    submissionId: int,
    questionId: int,
    optionId: Option<int>,
    value: Option<int>,
    selectedOptionIds: Option<seq<int>>,
    textAnswer: Option<string>)

  datatype LevelRow = LevelRow(
    id: int,
    questionnaireId: int,
    name: string,
    minScore: int,
    maxScore: int,
    opinion: string,
    groupKey: Option<string>,
    dimensionId: Option<int>,
    isDeleted: bool)

  /**
   * The error responses of the API: 400 with a message, 404 with a message,
   * 500, and the 400 whose message is Python's `int()` complaint about a
   * literal that is not an integer.
   */
  datatype ApiError = BadRequest(msg: string) | NotFound(msg: string) | ServerError | InvalidInteger(literal: string)

  /**
   * The content of the database.  `nextId` stands for the autoincrement
   * counters: every id handed out so far is below it, so a new row never
   * reuses an id.
   */
  datatype Tables = Tables(
    questionnaires: seq<QuestionnaireRow>,
    dimensions: seq<DimensionRow>,
    questions: seq<QuestionRow>,
    options: seq<OptionRow>,
    rules: seq<BranchRuleRow>,
    submissions: seq<SubmissionRow>,
    answers: seq<AnswerRow>,
    levels: seq<LevelRow>,
    nextId: int)
  {
    /** Every stored id is below the counter. */
    predicate Valid()
    {
      && (forall q :: q in questionnaires ==> q.id < nextId)
      && (forall d :: d in dimensions ==> d.id < nextId)
      && (forall q :: q in questions ==> q.id < nextId)
      && (forall o :: o in options ==> o.id < nextId)
      && (forall b :: b in rules ==> b.id < nextId)
      && (forall s :: s in submissions ==> s.id < nextId)
      && (forall l :: l in levels ==> l.id < nextId)
    }
  }

  /** The database connection: the handlers read and replace its tables. */
  class Db {
    var tables: Tables

    constructor ()
      ensures tables == Tables([], [], [], [], [], [], [], [], 1)
      ensures tables.Valid()
    {
      tables := Tables([], [], [], [], [], [], [], [], 1);
    }
  }
}

=== FILE: result_view.dfy ===
/**
 * The result page (front/src/components/Questionnaire/Result.tsx): the
 * colour of a level tag and the common scale of the dimension bars.
 */
module ResultView {
  import opened Wrappers
  import opened Text

  const Red: string := "#f5222d"
  const Amber: string := "#faad14"
  const Green: string := "#52c41a"
  const DefaultColor: string := "#1890ff"

  /** `LEVEL_COLOR_MAP` without its `default` entry, in declaration order. */
  const LevelColors: seq<(string, string)> := [("初级", Red), ("中级", Amber), ("高级", Green)]

  /** The first entry from `from` on whose key the level contains, else the default colour. */
  function ColorFrom(level: string, from: nat): (c: string)
    requires from <= |LevelColors|
    ensures c == DefaultColor <==> forall k :: from <= k < |LevelColors| ==> !Contains(level, LevelColors[k].0)
    ensures c != DefaultColor ==>
      exists k :: (from <= k < |LevelColors| && c == LevelColors[k].1 && Contains(level, LevelColors[k].0)
        && forall j :: from <= j < k ==> !Contains(level, LevelColors[j].0))
    decreases |LevelColors| - from
  {
    if from == |LevelColors| then DefaultColor
    else if Contains(level, LevelColors[from].0) then LevelColors[from].1
    else ColorFrom(level, from + 1)
  }

  /** `getLevelColor`: the default colour for a missing or empty level. */
  function LevelColor(level: Option<string>): (c: string)
    ensures !Given(level) ==> c == DefaultColor
    ensures Given(level) ==> c == ColorFrom(level.value, 0)
  {
    if !Given(level) then DefaultColor else ColorFrom(level.value, 0)
  }

  /**
   * The colour follows the first of 初级, 中级, 高级 that the level
   * contains, so "初级到中级" is red; a level with none of them gets the
   * default colour.
   */
  lemma LevelColorChoice(level: string)
    requires level != ""
    ensures Contains(level, "初级") ==> LevelColor(Some(level)) == Red
    ensures !Contains(level, "初级") && Contains(level, "中级") ==> LevelColor(Some(level)) == Amber
    ensures !Contains(level, "初级") && !Contains(level, "中级") && Contains(level, "高级") ==> LevelColor(Some(level)) == Green
    ensures !Contains(level, "初级") && !Contains(level, "中级") && !Contains(level, "高级") ==>
      LevelColor(Some(level)) == DefaultColor
  {
    assert ColorFrom(level, 0) == if Contains(level, "初级") then Red else ColorFrom(level, 1);
    assert ColorFrom(level, 1) == if Contains(level, "中级") then Amber else ColorFrom(level, 2);
    assert ColorFrom(level, 2) == if Contains(level, "高级") then Green else ColorFrom(level, 3);
  }

  /** `Math.max(...maxScores, 100)`: the scale of every dimension bar. */
  function GlobalMaxScore(maxScores: seq<int>): (m: int)
    ensures m >= 100
    ensures forall i :: 0 <= i < |maxScores| ==> maxScores[i] <= m
    ensures m == 100 || exists i :: 0 <= i < |maxScores| && m == maxScores[i]
  {
    if maxScores == [] then 100
    else
      var rest := GlobalMaxScore(maxScores[1..]);
      assert forall i :: 1 <= i < |maxScores| ==> maxScores[i] == maxScores[1..][i - 1];
      if maxScores[0] > rest then maxScores[0] else rest
  }
}

=== FILE: stats_api.dfy ===
/**
 * The statistics endpoints (backend/api/stats.py): the area distribution of
 * the overview, the level distribution, the basic-question lists, the cross
 * count of levels against a basic question's answers, the filtered list of
 * submissions and the soft delete of a submission.
 *
 * `parse` stands for `json.loads(text).get('area')` with every item passed
 * through `str`: it yields the area codes when the text is a JSON object
 * holding an `area` list, and None when decoding fails, the value is not an
 * object, or `area` is missing or not a list.  `like(text, needle)` stands
 * for MySQL's `text LIKE '%needle%'`.
 */
module StatsApi {
  import opened Wrappers
  import opened Text
  import opened Records
  import opened Collections
  import FillApi

  type AreaParser = string -> Option<seq<string>>

  /** The area codes of an answer's text when they form a non-empty list (`if area and isinstance(area, list)`). */
  function AreaOf(text: string, parse: AreaParser): (r: Option<seq<string>>)
    ensures r.Some? ==> r.value != [] && parse(text) == r
  {
    match parse(text)
    case Some(area) => if area != [] then Some(area) else None
    case None => None
  }

  // ---------------------------------------------------------------------
  // Lookups by primary key (`Model.query.get(id)`)
  // ---------------------------------------------------------------------

  function QuestionById(t: Tables, id: int): (r: Option<QuestionRow>)
    ensures r.Some? ==> r.value in t.questions && r.value.id == id
  {
    match First(t.questions, (q: QuestionRow) => q.id == id)
    case None => None
    case Some(k) => Some(t.questions[k])
  }

  function OptionById(t: Tables, id: int): (r: Option<OptionRow>)
    ensures r.Some? ==> r.value in t.options && r.value.id == id
  {
    match First(t.options, (o: OptionRow) => o.id == id)
    case None => None
    case Some(k) => Some(t.options[k])
  }

  function SubmissionById(t: Tables, id: int): (r: Option<SubmissionRow>)
    ensures r.Some? ==> r.value in t.submissions && r.value.id == id
  {
    match First(t.submissions, (s: SubmissionRow) => s.id == id)
    case None => None
    case Some(k) => Some(t.submissions[k])
  }

  /** A submission of questionnaire `qid` that is not deleted. */
  predicate LiveIn(s: SubmissionRow, qid: int)
  {
    s.questionnaireId == qid && !s.isDeleted
  }

  function LiveFn(qid: int): SubmissionRow -> bool
  {
    (s: SubmissionRow) => LiveIn(s, qid)
  }

  /** `Submission.query.filter_by(questionnaire_id=qid, is_deleted=False)` */
  function Live(t: Tables, qid: int): seq<SubmissionRow>
  {
    Filter(t.submissions, LiveFn(qid))
  }

  /** An answer joined to a live submission of `qid`. */
  predicate OfLive(t: Tables, qid: int, a: AnswerRow)
  {
    match SubmissionById(t, a.submissionId)
    case Some(s) => LiveIn(s, qid)
    case None => false
  }

  function OfLiveFn(t: Tables, qid: int): AnswerRow -> bool
  {
    (a: AnswerRow) => OfLive(t, qid, a)
  }

  /** `Answer.query.join(Submission).filter(questionnaire_id == qid, is_deleted == False)` */
  function LiveAnswers(t: Tables, qid: int): seq<AnswerRow>
  {
    Filter(t.answers, OfLiveFn(t, qid))
  }

  // ---------------------------------------------------------------------
  // Overview: the area distribution
  // ---------------------------------------------------------------------

  /** The counter key of an answer: its area codes joined by '/', for a parseable answer to an address question. */
  function AreaKey(t: Tables, parse: AreaParser, a: AnswerRow): (r: Option<string>)
    ensures r.Some? ==> Given(a.textAnswer)
  {
    match QuestionById(t, a.questionId)
    case None => None
    case Some(q) =>
      if q.kind == AddressKind && Given(a.textAnswer) then
        match AreaOf(a.textAnswer.value, parse)
        case Some(area) => Some(Join(area, "/"))
        case None => None
      else None
  }

  function AreaKeyFn(t: Tables, parse: AreaParser): AnswerRow -> Option<string>
  {
    (a: AnswerRow) => AreaKey(t, parse, a)
  }

  /** The `area_counter` loop of the overview. */
  method CountAreas(t: Tables, qid: int, parse: AreaParser) returns (counter: seq<(string, nat)>)
    ensures counter == Tally(Collect(LiveAnswers(t, qid), AreaKeyFn(t, parse)))
  {
    var answers := LiveAnswers(t, qid);
    var f := AreaKeyFn(t, parse);
    counter := [];
    var i := 0;
    while i < |answers|
      invariant 0 <= i <= |answers|
      invariant counter == Tally(Collect(answers[..i], f))
    {
      CollectStep(answers, f, i);
      var key := AreaKey(t, parse, answers[i]);
      if key.Some? {
        TallyStep(Collect(answers[..i], f), key.value);
        counter := Bump(counter, key.value);
      }
      i := i + 1;
    }
    assert answers[..|answers|] == answers;
  }

  /**
   * Every parseable address answer of a live submission is counted once,
   * under its codes joined by '/': each key appears once, with the number of
   * answers that produce it, and the counts add up to the number of such answers.
   */
  lemma AreaCounts(t: Tables, qid: int, parse: AreaParser, counter: seq<(string, nat)>)
    requires counter == Tally(Collect(LiveAnswers(t, qid), AreaKeyFn(t, parse)))
    ensures DistinctKeys(counter)
    ensures forall k :: Get(counter, k) == Hits(LiveAnswers(t, qid), AreaKeyFn(t, parse), k)
    ensures Total(counter) == Defined(LiveAnswers(t, qid), AreaKeyFn(t, parse))
  {
    TallyCollect(LiveAnswers(t, qid), AreaKeyFn(t, parse));
  }

  // ---------------------------------------------------------------------
  // The level distribution (`get_level_stats`)
  // ---------------------------------------------------------------------

  /** The level of a live submission of `qid` that has one. */
  function LevelOf(qid: int): SubmissionRow -> Option<string>
  {
    (s: SubmissionRow) => if LiveIn(s, qid) && s.assessmentLevel.Some? then s.assessmentLevel else None
  }

  /** `count(id) ... group_by(assessment_level)` over the live submissions that have a level. */
  function LevelStats(t: Tables, qid: int): seq<(string, nat)>
  {
    Tally(Collect(t.submissions, LevelOf(qid)))
  }

  /** Each level is reported once, with the number of live submissions that have it. */
  lemma LevelStatsCounts(t: Tables, qid: int)
    ensures DistinctKeys(LevelStats(t, qid))
    ensures forall l :: Get(LevelStats(t, qid), l) == Hits(t.submissions, LevelOf(qid), l)
    ensures Total(LevelStats(t, qid)) == Defined(t.submissions, LevelOf(qid))
  {
    TallyCollect(t.submissions, LevelOf(qid));
  }

  // ---------------------------------------------------------------------
  // The basic-question lists
  // ---------------------------------------------------------------------

  /** Some branch rule, deleted or not, hangs on the question. */
  predicate HasRule(t: Tables, questionId: int)
  {
    First(t.rules, (b: BranchRuleRow) => b.questionId == questionId).Some?
  }

  function InBasic(t: Tables, qid: int, basicId: int): QuestionRow -> bool
  {
    (q: QuestionRow) => q.questionnaireId == qid && q.dimensionId == Some(basicId) && HasRule(t, q.id)
  }

  /** `get_basic_questions`: the questions of the basic dimension that carry a branch rule. */
  function BasicQuestions(t: Tables, qid: int): seq<QuestionRow>
  {
    match FillApi.BasicDimension(t.dimensions, qid)
    case None => []
    case Some(d) => Filter(t.questions, InBasic(t, qid, d.id))
  }

  /**
   * A question is listed exactly when it belongs to the questionnaire's
   * basic dimension and some branch rule hangs on it; deleted questions are
   * not excluded.
   */
  lemma BasicQuestionsExact(t: Tables, qid: int)
    ensures FillApi.BasicDimension(t.dimensions, qid).None? ==> BasicQuestions(t, qid) == []
    ensures forall q :: q in BasicQuestions(t, qid) <==>
      (&& FillApi.BasicDimension(t.dimensions, qid).Some?
       && q in t.questions && q.questionnaireId == qid
       && q.dimensionId == Some(FillApi.BasicDimension(t.dimensions, qid).value.id)
       && exists b :: b in t.rules && b.questionId == q.id)
  {
    match FillApi.BasicDimension(t.dimensions, qid)
    case None =>
    case Some(d) =>
      FilterMembers(t.questions, InBasic(t, qid, d.id));
      forall q: QuestionRow
        ensures HasRule(t, q.id) <==> exists b :: b in t.rules && b.questionId == q.id
      {
        var k := First(t.rules, (b: BranchRuleRow) => b.questionId == q.id);
        if k.Some? {
          assert t.rules[k.value] in t.rules;
        }
      }
  }

  function LiveInBasic(qid: int, basicId: int): QuestionRow -> bool
  {
    (q: QuestionRow) => q.questionnaireId == qid && q.dimensionId == Some(basicId) && !q.isDeleted
  }

  /** `order_by(Question.order)`: a stable sort, smallest order first. */
  function NegOrder(q: QuestionRow): int
  {
    -q.order
  }

  /** `get_all_basic_questions`: the live questions of the basic dimension, by display order. */
  function AllBasicQuestions(t: Tables, qid: int): seq<QuestionRow>
  {
    match FillApi.BasicDimension(t.dimensions, qid)
    case None => []
    case Some(d) => SortDesc(Filter(t.questions, LiveInBasic(qid, d.id)), NegOrder)
  }

  /** The list is ordered by `order`, and holds exactly the live questions of the basic dimension. */
  lemma AllBasicQuestionsOrdered(t: Tables, qid: int)
    ensures forall i, j :: 0 <= i < j < |AllBasicQuestions(t, qid)| ==>
      AllBasicQuestions(t, qid)[i].order <= AllBasicQuestions(t, qid)[j].order
    ensures forall q :: q in AllBasicQuestions(t, qid) <==>
      (&& FillApi.BasicDimension(t.dimensions, qid).Some?
       && q in t.questions && q.questionnaireId == qid && !q.isDeleted
       && q.dimensionId == Some(FillApi.BasicDimension(t.dimensions, qid).value.id))
  {
    match FillApi.BasicDimension(t.dimensions, qid)
    case None =>
    case Some(d) =>
      var kept := Filter(t.questions, LiveInBasic(qid, d.id));
      var r := SortDesc(kept, NegOrder);
      FilterMembers(t.questions, LiveInBasic(qid, d.id));
      forall i, j | 0 <= i < j < |r|
        ensures r[i].order <= r[j].order
      {
        assert NegOrder(r[i]) >= NegOrder(r[j]);
      }
      forall q
        ensures q in r <==> q in kept
      {
        assert q in r <==> q in multiset(r);
        assert q in kept <==> q in multiset(kept);
      }
  }

  // ---------------------------------------------------------------------
  // Levels against a basic question's answers (`get_level_by_basic`)
  // ---------------------------------------------------------------------

  /** An answer to `questionId` whose live submission of `qid` has a level, with that level. */
  function Levelled(t: Tables, qid: int, questionId: int): AnswerRow -> Option<(AnswerRow, string)>
  {
    (a: AnswerRow) =>
      if a.questionId != questionId then None
      else match SubmissionById(t, a.submissionId)
        case Some(s) =>
          if s.questionnaireId == qid && s.assessmentLevel.Some? && !s.isDeleted then Some((a, s.assessmentLevel.value))
          else None
        case None => None
  }

  /** The label an answer is counted under, if any, in the order the handler tries them. */
  function Label(t: Tables, q: QuestionRow, a: AnswerRow, parse: AreaParser): (r: Option<string>)
    ensures r.Some? ==> r.value != ""
    ensures a.textAnswer.None? && (a.optionId.None? || a.optionId == Some(0)) ==> r.None?
    ensures q.kind == AddressKind && Given(a.textAnswer) ==> (r.Some? ==> AreaOf(a.textAnswer.value, parse).Some?)
  {
    if q.kind == AddressKind && Given(a.textAnswer) then
      match AreaOf(a.textAnswer.value, parse)
      case Some(area) => var s := Join(area, "/"); if s != "" then Some(s) else None
      case None => None
    else if a.optionId.Some? && a.optionId.value != 0 then
      match OptionById(t, a.optionId.value)
      case Some(o) => if o.text != "" then Some(o.text) else None
      case None => None
    else if Given(a.textAnswer) then Some(a.textAnswer.value)
    else None
  }

  /**
   * The label's precedence: an address answer with text is labelled by its
   * '/'-joined area path (none when the text does not decode to an area);
   * otherwise a truthy option id gives that option's text; otherwise the
   * text answer itself.
   */
  lemma LabelPrecedence(t: Tables, q: QuestionRow, a: AnswerRow, parse: AreaParser)
    ensures var address := q.kind == AddressKind && Given(a.textAnswer);
      && (address && AreaOf(a.textAnswer.value, parse).Some? && Join(AreaOf(a.textAnswer.value, parse).value, "/") != "" ==>
            Label(t, q, a, parse) == Some(Join(AreaOf(a.textAnswer.value, parse).value, "/")))
      && (address && (AreaOf(a.textAnswer.value, parse).None? || Join(AreaOf(a.textAnswer.value, parse).value, "/") == "") ==>
            Label(t, q, a, parse).None?)
      && (!address && a.optionId.Some? && a.optionId.value != 0 && OptionById(t, a.optionId.value).Some?
            && OptionById(t, a.optionId.value).value.text != "" ==>
            Label(t, q, a, parse) == Some(OptionById(t, a.optionId.value).value.text))
      && (!address && a.optionId.Some? && a.optionId.value != 0
            && (OptionById(t, a.optionId.value).None? || OptionById(t, a.optionId.value).value.text == "") ==>
            Label(t, q, a, parse).None?)
      && (!address && (a.optionId.None? || a.optionId.value == 0) ==>
            Label(t, q, a, parse) == if Given(a.textAnswer) then Some(a.textAnswer.value) else None)
  {
  }

  /** The `(level, label)` counter key of a levelled answer. */
  function CrossKey(t: Tables, q: QuestionRow, parse: AreaParser): ((AnswerRow, string)) -> Option<(string, string)>
  {
    (p: (AnswerRow, string)) => match Label(t, q, p.0, parse)
      case Some(name) => Some((p.1, name))
      case None => None
  }

  /** The `stats` dictionary of `get_level_by_basic` for question `q`. */
  function CrossStats(t: Tables, qid: int, q: QuestionRow, parse: AreaParser): seq<((string, string), nat)>
  {
    Tally(Collect(Collect(t.answers, Levelled(t, qid, q.id)), CrossKey(t, q, parse)))
  }

  /** `get_level_by_basic`: a missing question is a 404 raised inside the handler's `try`, hence a 500. */
  method LevelByBasic(t: Tables, qid: int, questionId: int, parse: AreaParser)
    returns (r: Result<seq<((string, string), nat)>, ApiError>)
    ensures QuestionById(t, questionId).None? ==> r == Failure(ServerError)
    ensures QuestionById(t, questionId).Some? ==>
      r == Success(CrossStats(t, qid, QuestionById(t, questionId).value, parse))
  {
    var question := QuestionById(t, questionId);
    if question.None? {
      return Failure(ServerError);
    }
    var q := question.value;
    var pairs := Collect(t.answers, Levelled(t, qid, q.id));
    var f := CrossKey(t, q, parse);
    var stats := [];
    var i := 0;
    while i < |pairs|
      invariant 0 <= i <= |pairs|
      invariant stats == Tally(Collect(pairs[..i], f))
    {
      CollectStep(pairs, f, i);
      var (answer, level) := pairs[i];
      var name := Label(t, q, answer, parse);
      if name.Some? {
        TallyStep(Collect(pairs[..i], f), (level, name.value));
        stats := Bump(stats, (level, name.value));
      }
      i := i + 1;
    }
    assert pairs[..|pairs|] == pairs;
    r := Success(stats);
  }

  /**
   * Each labelled answer increments exactly one `(level, label)` counter: the
   * keys are distinct, each counts the answers that produce it, and the
   * counts add up to the number of labelled answers.
   */
  lemma CrossStatsCounts(t: Tables, qid: int, q: QuestionRow, parse: AreaParser)
    ensures DistinctKeys(CrossStats(t, qid, q, parse))
    ensures forall k: (string, string) :: (Get(CrossStats(t, qid, q, parse), k) ==
      Hits(Collect(t.answers, Levelled(t, qid, q.id)), CrossKey(t, q, parse), k))
    ensures Total(CrossStats(t, qid, q, parse)) ==
      Defined(Collect(t.answers, Levelled(t, qid, q.id)), CrossKey(t, q, parse))
  {
    var pairs := Collect(t.answers, Levelled(t, qid, q.id));
    TallyCollect(pairs, CrossKey(t, q, parse));
    forall k: (string, string)
      ensures Get(CrossStats(t, qid, q, parse), k) == Hits(pairs, CrossKey(t, q, parse), k)
    {
      assert Get(Tally(Collect(pairs, CrossKey(t, q, parse))), k) == Hits(pairs, CrossKey(t, q, parse), k);
    }
  }

  // ---------------------------------------------------------------------
  // The submission list (`get_submissions`)
  // ---------------------------------------------------------------------

  /** The query string as `(key, value)` pairs in order, as a `MultiDict` holds it. */
  type Args = seq<(string, string)>

  /** `request.args.getlist(key)` */
  function GetList(args: Args, key: string): seq<string>
  {
    if args == [] then []
    else (if args[0].0 == key then [args[0].1] else []) + GetList(args[1..], key)
  }

  /** `request.args.get(key)`: the first value, if any. */
  function GetArg(args: Args, key: string): Option<string>
  {
    if args == [] then None
    else if args[0].0 == key then Some(args[0].1)
    else GetArg(args[1..], key)
  }

  lemma {:induction false} GetArgIsFirst(args: Args, key: string)
    ensures GetArg(args, key) == if GetList(args, key) == [] then None else Some(GetList(args, key)[0])
  {
    if args != [] && args[0].0 != key {
      GetArgIsFirst(args[1..], key);
    }
  }

  /** `area_code_arr`: the repeated parameter, then `area_code_arr[]`, then a comma split of a single value. */
  function AreaCodes(args: Args): seq<string>
  {
    var repeated := GetList(args, "area_code_arr");
    if repeated != [] then repeated
    else
      var bracketed := GetList(args, "area_code_arr[]");
      if bracketed != [] then bracketed
      else match GetArg(args, "area_code_arr")
        case Some(s) => if s != "" then SplitOn(s, ',') else []
        case None => []
  }

  /**
   * The comma split is never reached: a single `area_code_arr` value is
   * already returned whole by the first lookup, so codes sent as "11,1101"
   * stay one code.
   */
  lemma CommaSplitUnreachable(args: Args)
    ensures AreaCodes(args) ==
      if GetList(args, "area_code_arr") != [] then GetList(args, "area_code_arr")
      else GetList(args, "area_code_arr[]")
  {
    GetArgIsFirst(args, "area_code_arr");
  }

  /** The restriction the query string asks for. */
  datatype SubmissionFilter =
    | NoFilter
    | AreaFilter(questionId: int, codes: seq<string>)
    | TextFilter(questionId: int, needle: string)
    | OptionFilter(questionId: int, optionId: int)

  /** Python's `str` of an optional string, as an f-string prints it. */
  function PyStr(s: Option<string>): string
  {
    match s
    case Some(v) => v
    case None => "None"
  }

  /** `int(basic_question_value)`, with -1 when that raises. */
  function OptionIdOf(value: Option<string>): (id: int)
    ensures value.None? ==> id == -1
    ensures value.Some? && ParseInt(value.value).None? ==> id == -1
    ensures value.Some? && ParseInt(value.value).Some? ==> id == ParseInt(value.value).value
  {
    match value
    case None => -1
    case Some(v) => ParseInt(v).GetOr(-1)
  }

  /** Which filter the handler applies; `int(basic_question_id)` failing is caught as a 500. */
  function ChooseFilter(t: Tables, args: Args): (r: Result<SubmissionFilter, ApiError>)
    ensures r.Failure? ==> r.error == ServerError
    ensures r.Success? && r.value.AreaFilter? ==> r.value.codes == AreaCodes(args) && r.value.codes != []
  {
    var id := GetArg(args, "basic_question_id");
    var value := GetArg(args, "basic_question_value");
    var codes := AreaCodes(args);
    if !(Given(id) && (Given(value) || codes != [])) then Success(NoFilter)
    else match ParseInt(id.value)
      case None => Failure(ServerError)
      case Some(n) =>
        match QuestionById(t, n)
        case Some(q) =>
          if q.kind == AddressKind && codes != [] then Success(AreaFilter(n, codes))
          else if q.kind == TextKind then Success(TextFilter(n, PyStr(value)))
          else Success(OptionFilter(n, OptionIdOf(value)))
        case None => Success(OptionFilter(n, OptionIdOf(value)))
  }

  /** The stored area list starts with the requested codes (`area[:len(codes)] == codes`). */
  function AreaMatch(area: seq<string>, codes: seq<string>): (b: bool)
    ensures b <==> codes <= area
  {
    |area| >= |codes| && area[..|codes|] == codes
  }

  /** An answer to `questionId` whose parsed area starts with `codes`. */
  predicate AreaAnswerMatches(a: AnswerRow, questionId: int, codes: seq<string>, parse: AreaParser)
  {
    && a.questionId == questionId && Given(a.textAnswer)
    && match AreaOf(a.textAnswer.value, parse)
       case Some(area) => AreaMatch(area, codes)
       case None => false
  }

  /** The `submission_ids` the address filter gathers. */
  function MatchedIds(answers: seq<AnswerRow>, questionId: int, codes: seq<string>, parse: AreaParser): set<int>
  {
    if answers == [] then {}
    else
      var last := answers[|answers| - 1];
      MatchedIds(answers[..|answers| - 1], questionId, codes, parse)
        + (if AreaAnswerMatches(last, questionId, codes, parse) then {last.submissionId} else {})
  }

  /** A submission id is gathered exactly when one of its answers matches. */
  lemma {:induction false} MatchedIdsExact(answers: seq<AnswerRow>, questionId: int, codes: seq<string>, parse: AreaParser)
    ensures forall sid :: sid in MatchedIds(answers, questionId, codes, parse) <==>
      exists a :: a in answers && a.submissionId == sid && AreaAnswerMatches(a, questionId, codes, parse)
  {
    if answers != [] {
      var init := answers[..|answers| - 1];
      MatchedIdsExact(init, questionId, codes, parse);
      assert answers == init + [answers[|answers| - 1]];
    }
  }

  /** The address filter's loop over the answers to the basic question. */
  method GatherMatches(t: Tables, questionId: int, codes: seq<string>, parse: AreaParser) returns (ids: set<int>)
    ensures ids == MatchedIds(t.answers, questionId, codes, parse)
  {
    ids := {};
    var i := 0;
    while i < |t.answers|
      invariant 0 <= i <= |t.answers|
      invariant ids == MatchedIds(t.answers[..i], questionId, codes, parse)
    {
      assert t.answers[..i + 1][..i] == t.answers[..i];
      var a := t.answers[i];
      if a.questionId == questionId && Given(a.textAnswer) {
        var area := AreaOf(a.textAnswer.value, parse);
        if area.Some? && |area.value| >= |codes| && area.value[..|codes|] == codes {
          ids := ids + {a.submissionId};
        }
      }
      i := i + 1;
    }
    assert t.answers[..|t.answers|] == t.answers;
  }

  /** Whether a submission passes the filter. */
  predicate Selects(t: Tables, filter: SubmissionFilter, parse: AreaParser, like: (string, string) -> bool, s: SubmissionRow)
  {
    match filter
    case NoFilter => true
    case AreaFilter(questionId, codes) => s.id in MatchedIds(t.answers, questionId, codes, parse)
    case TextFilter(questionId, needle) =>
      First(t.answers, (a: AnswerRow) =>
        a.submissionId == s.id && a.questionId == questionId && a.textAnswer.Some? && like(a.textAnswer.value, needle)).Some?
    case OptionFilter(questionId, optionId) =>
      First(t.answers, (a: AnswerRow) =>
        a.submissionId == s.id && a.questionId == questionId && a.optionId == Some(optionId)).Some?
  }

  function SelectsFn(t: Tables, filter: SubmissionFilter, parse: AreaParser, like: (string, string) -> bool): SubmissionRow -> bool
  {
    (s: SubmissionRow) => Selects(t, filter, parse, like, s)
  }

  function IdOf(s: SubmissionRow): int
  {
    s.id
  }

  /** The live submissions of `qid` that pass the filter, newest id first. */
  function Listed(t: Tables, qid: int, filter: SubmissionFilter, parse: AreaParser, like: (string, string) -> bool): seq<SubmissionRow>
  {
    SortDesc(Filter(Live(t, qid), SelectsFn(t, filter, parse, like)), IdOf)
  }

  /** `get_submissions` */
  method GetSubmissions(t: Tables, qid: int, args: Args, parse: AreaParser, like: (string, string) -> bool)
    returns (r: Result<seq<SubmissionRow>, ApiError>)
    ensures ChooseFilter(t, args).Failure? ==> r == Failure(ServerError)
    ensures ChooseFilter(t, args).Success? ==> r == Success(Listed(t, qid, ChooseFilter(t, args).value, parse, like))
  {
    var filter := ChooseFilter(t, args);
    if filter.Failure? {
      return Failure(ServerError);
    }
    if filter.value.AreaFilter? {
      var ids := GatherMatches(t, filter.value.questionId, filter.value.codes, parse);
      if ids == {} {
        NothingSelected(t, qid, filter.value, parse, like);
        return Success([]);
      }
    }
    r := Success(Listed(t, qid, filter.value, parse, like));
  }

  /** When no submission passes the filter, the list is empty. */
  lemma NothingSelected(t: Tables, qid: int, filter: SubmissionFilter, parse: AreaParser, like: (string, string) -> bool)
    requires forall s :: !Selects(t, filter, parse, like, s)
    ensures Listed(t, qid, filter, parse, like) == []
  {
    FilterNone(Live(t, qid), SelectsFn(t, filter, parse, like));
  }

  /**
   * The list holds exactly the live submissions of the questionnaire that pass
   * the filter, each once, newest id first.
   */
  lemma ListedExact(t: Tables, qid: int, filter: SubmissionFilter, parse: AreaParser, like: (string, string) -> bool)
    ensures SortedDesc(Listed(t, qid, filter, parse, like), IdOf)
    ensures forall s :: s in Listed(t, qid, filter, parse, like) <==>
      s in t.submissions && LiveIn(s, qid) && Selects(t, filter, parse, like, s)
  {
    FilterMembers(t.submissions, LiveFn(qid));
    FilterMembers(Live(t, qid), SelectsFn(t, filter, parse, like));
    SortDescMembers(Filter(Live(t, qid), SelectsFn(t, filter, parse, like)), IdOf);
  }

  /**
   * The address filter keeps a submission exactly when one of its answers to
   * the basic question has an area list that starts with the requested codes.
   */
  lemma AreaFilterExact(t: Tables, qid: int, questionId: int, codes: seq<string>, parse: AreaParser, like: (string, string) -> bool)
    ensures forall s :: s in Listed(t, qid, AreaFilter(questionId, codes), parse, like) <==>
      (&& s in t.submissions && LiveIn(s, qid)
       && exists a :: a in t.answers && a.submissionId == s.id && a.questionId == questionId && Given(a.textAnswer)
                      && AreaOf(a.textAnswer.value, parse).Some? && codes <= AreaOf(a.textAnswer.value, parse).value)
  {
    ListedExact(t, qid, AreaFilter(questionId, codes), parse, like);
    MatchedIdsExact(t.answers, questionId, codes, parse);
  }

  /**
   * A basic-question value that is not an integer becomes option id -1, which
   * no stored answer carries, so nothing is listed.
   */
  lemma NonIntegerValueListsNothing(t: Tables, qid: int, args: Args, parse: AreaParser, like: (string, string) -> bool)
    requires forall a :: a in t.answers ==> a.optionId != Some(-1)
    requires ChooseFilter(t, args).Success? && ChooseFilter(t, args).value.OptionFilter?
    requires GetArg(args, "basic_question_value").Some? && ParseInt(GetArg(args, "basic_question_value").value).None?
    ensures Listed(t, qid, ChooseFilter(t, args).value, parse, like) == []
  {
    var filter := ChooseFilter(t, args);
    assert filter.value.optionId == -1;
    forall s
      ensures !Selects(t, filter.value, parse, like, s)
    {
      var p := (a: AnswerRow) => a.submissionId == s.id && a.questionId == filter.value.questionId && a.optionId == Some(-1);
      var k := First(t.answers, p);
      if k.Some? {
        assert false;
      }
    }
    NothingSelected(t, qid, filter.value, parse, like);
  }

  // ---------------------------------------------------------------------
  // Soft delete (`delete_submission`)
  // ---------------------------------------------------------------------

  /** The submission the handler deletes: the first row with that id in that questionnaire, deleted or not. */
  function FindSubmission(t: Tables, qid: int, submissionId: int): Option<nat>
  {
    First(t.submissions, (s: SubmissionRow) => s.id == submissionId && s.questionnaireId == qid)
  }

  /** The tables with row `k` of the submissions marked deleted, and nothing else changed. */
  function SoftDeleted(t: Tables, k: nat): (r: Tables)
    requires k < |t.submissions|
    ensures |r.submissions| == |t.submissions|
  {
    t.(submissions := t.submissions[k := t.submissions[k].(isDeleted := true)])
  }

  method DeleteSubmission(db: Db, qid: int, submissionId: int) returns (error: Option<ApiError>)
    modifies db
    ensures FindSubmission(old(db.tables), qid, submissionId).None? ==>
      error == Some(NotFound("答卷不存在")) && db.tables == old(db.tables)
    ensures FindSubmission(old(db.tables), qid, submissionId).Some? ==>
      error.None? && db.tables == SoftDeleted(old(db.tables), FindSubmission(old(db.tables), qid, submissionId).value)
  {
    var k := FindSubmission(db.tables, qid, submissionId);
    if k.None? {
      return Some(NotFound("答卷不存在"));
    }
    db.tables := SoftDeleted(db.tables, k.value);
    error := None;
  }

  /** Submission ids are primary keys. */
  predicate UniqueIds(rows: seq<SubmissionRow>)
  {
    forall i, j :: 0 <= i < j < |rows| ==> rows[i].id != rows[j].id
  }

  /**
   * After a delete the submission is no longer live, and every other live
   * submission still is.
   */
  lemma DeleteHides(t: Tables, qid: int, submissionId: int)
    requires UniqueIds(t.submissions)
    requires FindSubmission(t, qid, submissionId).Some?
    ensures forall s :: s in Live(SoftDeleted(t, FindSubmission(t, qid, submissionId).value), qid) <==>
      s in Live(t, qid) && s.id != submissionId
  {
    var k := FindSubmission(t, qid, submissionId).value;
    var t' := SoftDeleted(t, k);
    FilterMembers(t.submissions, LiveFn(qid));
    FilterMembers(t'.submissions, LiveFn(qid));
    forall s
      ensures s in t'.submissions && LiveIn(s, qid) <==> s in t.submissions && LiveIn(s, qid) && s.id != submissionId
    {
      if s in t'.submissions && LiveIn(s, qid) {
        var i :| 0 <= i < |t'.submissions| && t'.submissions[i] == s;
        assert i != k;
        assert t.submissions[i] == s;
        assert s.id != submissionId;
      }
      if s in t.submissions && LiveIn(s, qid) && s.id != submissionId {
        var i :| 0 <= i < |t.submissions| && t.submissions[i] == s;
        assert i != k;
        assert t'.submissions[i] == s;
      }
    }
  }

  /** Deleting the same submission again finds the same row and changes nothing more. */
  lemma DeleteIdempotent(t: Tables, qid: int, submissionId: int)
    requires FindSubmission(t, qid, submissionId).Some?
    ensures FindSubmission(SoftDeleted(t, FindSubmission(t, qid, submissionId).value), qid, submissionId)
      == FindSubmission(t, qid, submissionId)
    ensures var k := FindSubmission(t, qid, submissionId).value;
      SoftDeleted(SoftDeleted(t, k), k) == SoftDeleted(t, k)
  {
    var k := FindSubmission(t, qid, submissionId).value;
    var t' := SoftDeleted(t, k);
    var m := FindSubmission(t', qid, submissionId);
    assert m.Some? by {
      assert t'.submissions[k].id == submissionId && t'.submissions[k].questionnaireId == qid;
    }
    assert m.value == k;
  }
}

=== FILE: submission_detail.dfy ===
/**
 * How one answer is shown in the submission detail page
 * (front/src/components/Admin/SubmissionDetail.tsx): an address answer as
 * its region path plus the street detail, a text answer as written, and a
 * choice answer as its option text with the filled-in text as a tag.
 */
module SubmissionView {
  import opened Wrappers
  import opened Text
  import opened Areas

  /** One entry of `data.questions` as the result endpoint returns it. */
  datatype AnsweredQuestion = AnsweredQuestion(
    text: string, kind: string, answer: Option<string>, optionText: Option<string>, fillinText: Option<string>)

  /**
   * The parsed address answer: `area` is present only when it is an array,
   * `detail` only when it is a string.  A JSON value that is not an object
   * has neither.
   */
  datatype AddressValue = AddressValue(area: Option<seq<string>>, detail: Option<string>)

  /** What the row shows: the answer text and, for choices, an optional tag. */
  datatype Shown = Shown(answer: string, tag: Option<string>)

  const Unfilled: string := "未填写"
  const NoArea: string := "-"
  const DetailSeparator: string := "，"

  /** JavaScript's `a || b` on optional strings. */
  function OrElse(a: Option<string>, b: string): (r: string)
    ensures Given(a) ==> r == a.value
    ensures !Given(a) ==> r == b
  {
    if Given(a) then a.value else b
  }

  /** The region part: '-' unless the parsed value has a non-empty `area` array. */
  function AreaPart(v: Option<AddressValue>, tree: seq<CascaderOption>): string
  {
    if v.Some? && v.value.area.Some? && v.value.area.value != [] then Join(PathLabels(v.value.area.value, tree), "/")
    else NoArea
  }

  /** The detail part: '，' and the detail when the parsed value has a non-empty `detail`. */
  function DetailPart(v: Option<AddressValue>): string
  {
    if v.Some? && Given(v.value.detail) then DetailSeparator + v.value.detail.value else ""
  }

  /**
   * The answer cell of one row.  `parse` is `JSON.parse`, giving None where
   * it throws; a missing or empty answer is parsed as "{}".
   */
  function Show(q: AnsweredQuestion, tree: seq<CascaderOption>, parse: string -> Option<AddressValue>): (s: Shown)
    ensures q.kind != "address" && q.kind != "text" ==> s.tag == (if Given(q.fillinText) then q.fillinText else None)
    ensures q.kind == "address" || q.kind == "text" ==> s.tag == None
  {
    if q.kind == "address" then
      var v := parse(OrElse(q.answer, "{}"));
      Shown(AreaPart(v, tree) + DetailPart(v), None)
    else if q.kind == "text" then
      Shown(OrElse(q.answer, Unfilled), None)
    else
      Shown(OrElse(q.optionText, OrElse(q.answer, Unfilled)), if Given(q.fillinText) then q.fillinText else None)
  }

  /** A text or choice answer is never shown blank: an empty answer reads '未填写'. */
  lemma NonAddressNeverBlank(q: AnsweredQuestion, tree: seq<CascaderOption>, parse: string -> Option<AddressValue>)
    requires q.kind != "address"
    ensures Show(q, tree, parse).answer != ""
    ensures Show(q, tree, parse).answer == Unfilled <==>
      (q.kind == "text" && (!Given(q.answer) || q.answer.value == Unfilled)) ||
      (q.kind != "text" && (if Given(q.optionText) then q.optionText.value == Unfilled
                            else !Given(q.answer) || q.answer.value == Unfilled))
  {
  }

  /** A choice shows its option text when there is one, and the raw answer only otherwise. */
  lemma ChoicePrefersOptionText(q: AnsweredQuestion, tree: seq<CascaderOption>, parse: string -> Option<AddressValue>)
    requires q.kind != "address" && q.kind != "text"
    ensures Given(q.optionText) ==> Show(q, tree, parse).answer == q.optionText.value
    ensures !Given(q.optionText) && Given(q.answer) ==> Show(q, tree, parse).answer == q.answer.value
  {
  }

  /** An address answer that does not parse, or has no area codes, shows '-' and nothing else. */
  lemma UnreadableAddress(q: AnsweredQuestion, tree: seq<CascaderOption>, parse: string -> Option<AddressValue>)
    requires q.kind == "address"
    requires parse(OrElse(q.answer, "{}")).None?
    ensures Show(q, tree, parse) == Shown(NoArea, None)
  {
  }

  /**
   * A full address shows the region path joined by '/', then '，' and the
   * detail; with '/'-free labels, the region part splits back into exactly
   * the labels along the codes.
   */
  lemma AddressShown(q: AnsweredQuestion, tree: seq<CascaderOption>, parse: string -> Option<AddressValue>,
                     codes: seq<string>, detail: string)
    requires q.kind == "address"
    requires parse(OrElse(q.answer, "{}")) == Some(AddressValue(Some(codes), Some(detail)))
    requires codes != [] && detail != ""
    requires SlashFree(tree) && PathLabels(codes, tree) != []
    ensures Show(q, tree, parse).answer == Join(PathLabels(codes, tree), "/") + DetailSeparator + detail
    ensures SplitOn(Join(PathLabels(codes, tree), "/"), '/') == PathLabels(codes, tree)
  {
    AreaNameSegments(codes, tree);
  }

  /** An address without detail shows no '，' part at all. */
  lemma AddressWithoutDetail(q: AnsweredQuestion, tree: seq<CascaderOption>, parse: string -> Option<AddressValue>)
    requires q.kind == "address"
    requires var v := parse(OrElse(q.answer, "{}")); v.Some? && !Given(v.value.detail)
    ensures Show(q, tree, parse).answer == AreaPart(parse(OrElse(q.answer, "{}")), tree)
  {
  }
}

=== FILE: text.dfy ===
/** String helpers shared by the model: joining, splitting and searching. */
module Text {
  import opened Wrappers

  /** Python truthiness of an optional string field: absent, null and "" are falsy. */
  predicate Given(s: Option<string>)
  {
    s.Some? && s.value != ""
  }

  /** `parts.join(sep)` in JavaScript and `sep.join(parts)` in Python. */
  function Join(parts: seq<string>, sep: string): string
  {
    if |parts| == 0 then ""
    else if |parts| == 1 then parts[0]
    else parts[0] + sep + Join(parts[1..], sep)
  }

  lemma {:induction false} JoinAppend(parts: seq<string>, last: string, sep: string)
    requires |parts| > 0
    ensures Join(parts + [last], sep) == Join(parts, sep) + sep + last
  {
    if |parts| == 1 {
      assert parts + [last] == [parts[0], last];
    } else {
      assert (parts + [last])[1..] == parts[1..] + [last];
      JoinAppend(parts[1..], last, sep);
    }
  }

  /** True when `sub` occurs somewhere inside `s` (`s.includes(sub)`, `sub in s`). */
  predicate Contains(s: string, sub: string)
  {
    exists i | 0 <= i <= |s| - |sub| :: OccursAt(s, sub, i)
  }

  predicate OccursAt(s: string, sub: string, i: int)
  {
    0 <= i <= |s| - |sub| && s[i..i + |sub|] == sub
  }

  /**
   * Python's `str.isspace()`: the separators of `str.split()` without
   * arguments, of `str.strip()`, and the whitespace `int()` skips.
   */
  predicate IsSpace(c: char)
  {
    || c == ' ' || '\t' <= c <= '\r' || '\U{1C}' <= c <= '\U{1F}' || c == '\U{85}' || c == '\U{A0}'
    || c == '\U{1680}' || '\U{2000}' <= c <= '\U{200A}' || c == '\U{2028}' || c == '\U{2029}'
    || c == '\U{202F}' || c == '\U{205F}' || c == '\U{3000}'
  }

  /** Length of the leading run of non-separator characters. */
  function WordLen(s: string): (n: nat)
    ensures n <= |s|
    ensures forall i :: 0 <= i < n ==> !IsSpace(s[i])
    ensures n < |s| ==> IsSpace(s[n])
  {
    if s == [] || IsSpace(s[0]) then 0 else 1 + WordLen(s[1..])
  }

  /** Python's `s.split()`: the maximal runs of non-separator characters, in order. */
  function Words(s: string): (ws: seq<string>)
    decreases |s|
  {
    if s == [] then []
    else if IsSpace(s[0]) then Words(s[1..])
    else [s[..WordLen(s)]] + Words(s[WordLen(s)..])
  }

  /** Every word returned by `Words` is non-empty and holds no separator. */
  lemma {:induction false} WordsAreWords(s: string)
    ensures forall w :: w in Words(s) ==> |w| > 0 && forall i :: 0 <= i < |w| ==> !IsSpace(w[i])
    decreases |s|
  {
    if s == [] {
    } else if IsSpace(s[0]) {
      WordsAreWords(s[1..]);
    } else {
      WordsAreWords(s[WordLen(s)..]);
    }
  }

  /** Surrounding separators do not change the words: `" a ".split() == "a".split()`. */
  lemma {:induction false} WordsSkipLeadingSpace(pad: string, s: string)
    requires forall i :: 0 <= i < |pad| ==> IsSpace(pad[i])
    ensures Words(pad + s) == Words(s)
    decreases |pad|
  {
    if pad == [] {
      assert pad + s == s;
    } else {
      assert (pad + s)[0] == pad[0] && IsSpace(pad[0]);
      assert (pad + s)[1..] == pad[1..] + s;
      WordsSkipLeadingSpace(pad[1..], s);
    }
  }

  /** `s.split(c)` on a single-character separator (JavaScript and Python agree). */
  function SplitOn(s: string, c: char): (parts: seq<string>)
    ensures |parts| > 0
    decreases |s|
  {
    if s == [] then [""]
    else if s[0] == c then [""] + SplitOn(s[1..], c)
    else var rest := SplitOn(s[1..], c); [[s[0]] + rest[0]] + rest[1..]
  }

  /** No piece produced by `SplitOn` contains the separator. */
  lemma {:induction false} SplitOnPiecesFree(s: string, c: char)
    ensures forall p :: p in SplitOn(s, c) ==> c !in p
    decreases |s|
  {
    if s != [] {
      SplitOnPiecesFree(s[1..], c);
    }
  }

  /** Splitting a join of separator-free pieces gives the pieces back. */
  lemma {:induction false} SplitJoin(parts: seq<string>, c: char)
    requires |parts| > 0
    requires forall p :: p in parts ==> c !in p
    ensures SplitOn(Join(parts, [c]), c) == parts
  {
    if |parts| == 1 {
      SplitNoSep(parts[0], c);
    } else {
      SplitJoin(parts[1..], c);
      SplitPrefix(parts[0], Join(parts[1..], [c]), c);
    }
  }

  lemma {:induction false} SplitNoSep(s: string, c: char)
    requires c !in s
    ensures SplitOn(s, c) == [s]
    decreases |s|
  {
    if s != [] {
      SplitNoSep(s[1..], c);
      assert [s[0]] + s[1..] == s;
    }
  }

  lemma {:induction false} SplitPrefix(a: string, b: string, c: char)
    requires c !in a
    ensures SplitOn(a + [c] + b, c) == [a] + SplitOn(b, c)
    decreases |a|
  {
    if a == [] {
      assert a + [c] + b == [c] + b;
      assert ([c] + b)[1..] == b;
    } else {
      assert (a + [c] + b)[0] == a[0] && a[0] != c;
      assert (a + [c] + b)[1..] == a[1..] + [c] + b;
      SplitPrefix(a[1..], b, c);
      assert [a[0]] + a[1..] == a;
    }
  }

  // ---------------------------------------------------------------------
  // Integers as text
  // ---------------------------------------------------------------------

  /** `s.lstrip()`: drops leading separators. */
  function TrimStart(s: string): (r: string)
    ensures r == [] || !IsSpace(r[0])
    decreases |s|
  {
    if s != [] && IsSpace(s[0]) then TrimStart(s[1..]) else s
  }

  /** `s.rstrip()`: drops trailing separators. */
  function TrimEnd(s: string): (r: string)
    ensures r == [] || !IsSpace(r[|r| - 1])
    decreases |s|
  {
    if s != [] && IsSpace(s[|s| - 1]) then TrimEnd(s[..|s| - 1]) else s
  }

  /** Python's `s.strip()`. */
  function Strip(s: string): string
  {
    TrimEnd(TrimStart(s))
  }

  /** An ASCII decimal digit; the other Unicode decimal digits Python's `\d` and `int()` accept are not modelled. */
  predicate IsDigit(c: char)
  {
    '0' <= c <= '9'
  }

  predicate AllDigits(s: string)
  {
    forall i :: 0 <= i < |s| ==> IsDigit(s[i])
  }

  /** The number a string of decimal digits denotes. */
  function DigitsValue(s: string): nat
    requires AllDigits(s)
  {
    if s == [] then 0 else DigitsValue(s[..|s| - 1]) * 10 + (s[|s| - 1] as int - '0' as int)
  }

  /** A non-empty run of decimal digits, read as a number. */
  function ParseUnsigned(t: string): Option<nat>
  {
    if t != [] && AllDigits(t) then Some(DigitsValue(t)) else None
  }

  /**
   * Python's `int(s)` on a string: surrounding whitespace, an optional sign
   * and at least one decimal digit; anything else raises ValueError (None).
   */
  function ParseInt(s: string): Option<int>
  {
    var t := Strip(s);
    if t != [] && (t[0] == '-' || t[0] == '+') then
      match ParseUnsigned(t[1..])
      case Some(n) => var v: int := n; Some(if t[0] == '-' then -v else v)
      case None => None
    else
      match ParseUnsigned(t)
      case Some(n) => Some(n)
      case None => None
  }

  function DigitChar(d: nat): char
    requires d < 10
  {
    ('0' as int + d) as char
  }

  /** The decimal digits of `n`, without leading zeros. */
  function ShowNat(n: nat): (s: string)
    ensures |s| > 0 && AllDigits(s)
  {
    if n < 10 then [DigitChar(n)] else ShowNat(n / 10) + [DigitChar(n % 10)]
  }

  /** `str(n)` in Python, `String(n)` in JavaScript. */
  function ShowInt(n: int): (s: string)
    ensures |s| > 0
  {
    if n < 0 then "-" + ShowNat(-n) else ShowNat(n)
  }

  lemma {:induction false} DigitsOfShow(n: nat)
    ensures DigitsValue(ShowNat(n)) == n
  {
    if n >= 10 {
      var s := ShowNat(n);
      assert s[..|s| - 1] == ShowNat(n / 10);
      DigitsOfShow(n / 10);
    }
  }

  lemma StripDigits(s: string)
    requires |s| > 0 && !IsSpace(s[0]) && !IsSpace(s[|s| - 1])
    ensures Strip(s) == s
  {
  }

  lemma DigitNotSpace(c: char)
    requires IsDigit(c)
    ensures !IsSpace(c)
  {
  }

  /** `int()` of a run of digits reads its value. */
  lemma ParseDigits(d: string)
    requires d != [] && AllDigits(d)
    ensures ParseInt(d) == Some(DigitsValue(d))
  {
    DigitNotSpace(d[0]);
    DigitNotSpace(d[|d| - 1]);
    StripDigits(d);
  }

  /** `int()` of a minus sign followed by a run of digits reads the negated value. */
  lemma ParseNegatedDigits(d: string)
    requires d != [] && AllDigits(d)
    ensures ParseInt("-" + d) == Some(-(DigitsValue(d) as int))
  {
    var s := "-" + d;
    DigitNotSpace(d[|d| - 1]);
    assert s[1..] == d && s[|s| - 1] == d[|d| - 1];
    StripDigits(s);
  }

  /** Reading back a printed integer gives the integer: `int(str(n)) == n`. */
  lemma ParseShow(n: int)
    ensures ParseInt(ShowInt(n)) == Some(n)
  {
    if n < 0 {
      var m: nat := -n;
      assert ShowInt(n) == "-" + ShowNat(m);
      ParseShowNegative(n, m);
    } else {
      DigitsOfShow(n);
      ParseDigits(ShowNat(n));
      assert ShowInt(n) == ShowNat(n);
    }
  }

  /** The negative case of `ParseShow`, with `m` the magnitude that is printed after the sign. */
  lemma ParseShowNegative(n: int, m: nat)
    requires n < 0 && m == -n && ShowInt(n) == "-" + ShowNat(m)
    ensures ParseInt(ShowInt(n)) == Some(n)
  {
    DigitsOfShow(m);
    ParseNegatedDigits(ShowNat(m));
  }
}

=== FILE: wrappers.dfy ===
/** Option and Result values shared by every module of the model. */
module Wrappers {

  /** A value that may be absent: JSON null / undefined, Python None. */
  datatype Option<+T> = None | Some(value: T) {
    function GetOr(default: T): T {
      match this
      case Some(v) => v
      case None => default
    }
  }

  /** The outcome of an operation that can fail with an error value. */
  datatype Result<+R, +E> = Success(value: R) | Failure(error: E)
}
